=== FILE: README.md ===
# quinn-proto connection core in Dafny

A model of the sans-I/O core of quinn-proto, an early QUIC implementation
written in Rust. The model covers two files.

- `connection.rs` holds one QUIC connection. The model includes:
  - loss recovery and congestion control: packet-number allocation, the map
    of sent packets and `bytes_in_flight`, ACK processing, the RTT estimator,
    threshold- and time-based loss detection, the Reno-style window, the
    loss-detection alarm, tail-loss probes and RTOs;
  - the idle timer;
  - the frame handling of `process_payload`;
  - the application operations `write`, `open`, `reset`, `finish` and
    `close`, and the `blocked` checks that gate writes;
  - the admissibility rule for streams the peer names (`get_recv_stream`);
  - the `Retransmits` queue;
  - the connection states and `is_closed`.
- `endpoint.rs` routes datagrams to connections. The model includes:
  - `Config::default` and the identifier-length check of `Endpoint::new`;
  - the lookup and the stateless reset of `handle_decode`;
  - the accept-buffer check and admission in `handle_initial`;
  - `new_cid`, `forget`, `timeout` and `close`.

Modules, one file each:

| file | module | contents |
|---|---|---|
| wrappers.dfy | `Wrappers` | `Option`, `Result` |
| nat_sets.dfy | `NatSets` | least element and ascending enumeration of a finite set of naturals (the iteration order of the source's ordered maps) |
| quic.dfy | `Quic` | sides, stream identifiers (bit 0 initiator, bit 1 directionality, index above), transport errors, protocol constants |
| config.dfy | `Config` | `Config`, its defaults, the transport parameters the core reads |
| retransmits.dfy | `Retransmit` | the `Retransmits` queue and its `+=` |
| rtt.dfy | `Rtt` | `update_rtt` and its relation to the RFC 6298 estimator |
| recovery.dfy | `Recovery` | sent map, ACKs, loss detection, congestion window, alarm |
| streams.dfy | `Streams` | the stream table, `open`, `finish`, `reset`, `get_recv_stream` |
| context.dfy | `Context` | the endpoint's event, I/O and bookkeeping queues (`Context`) |
| connection.dfy | `Connection` | connection state, `write`, `close`, idle timer, `check_packet_loss`, key phase |
| receive.dfy | `Receive` | the arms of `process_payload` |
| endpoint.dfy | `Endpoint` | routing, admission, stateless reset, timers, `forget`, `close` |

Every state change is a pure function from the old state to the new one. A
`Step`/`Processed` value pairs the new connection with the new endpoint
context. Appending to `ctx.io` and `ctx.events` stands for the source's
pushes onto its `VecDeque`s.

The invariants that carry the proofs are:
- `Recovery.Valid`: `bytes_in_flight` is the total size of the sent map,
  packet numbers stay below 2^62, and the window is positive.
- `Connection.Valid`: `data_sent <= max_data`, `data_recvd <= local_max_data`,
  and the stream table is consistent.
- `Endpoint.Valid`: every lookup entry leads to a live connection whose
  identifier or address is the key, and the accept buffer is not overfull.

## Model

All paths are under `quinn-proto/src/`.

| member | source | states |
|---|---|---|
| Config.Default | quinn-proto/src/endpoint.rs:98-132 | The default configuration: initial window ten MSS, minimum window two MSS, receive window eight stream windows, three-packet reordering threshold, two TLPs, TLP timeout below the RTO timeout, a valid identifier length, and a loss-reduction factor that halves any window. |
| Config.HalfScale | quinn-proto/src/endpoint.rs:125 | The factor 0x8000 in 0.16 fixed point halves every window exactly as integer division by two. |
| Quic.MakeStreamId | quinn-proto/src/connection.rs:2005 | Packing initiator, directionality and index yields an identifier whose three fields read back as packed. |
| Quic.StreamIdRoundTrip | quinn-proto/src/connection.rs:2005 | Every identifier is the packing of its own fields, so the encoding is a bijection. |
| Retransmit.Empty | quinn-proto/src/connection.rs:2435-2450 | The default queue is empty in the sense of `is_empty`. |
| Retransmit.EmptyIsUnique | quinn-proto/src/connection.rs:2409-2420 | `is_empty` holds of a queue exactly when it is the default one. |
| Retransmit.PathChallenge | quinn-proto/src/connection.rs:2422-2432 | After `path_challenge` a response is queued, answering the later of the queued and the new challenge's packet (the earlier one on a tie). Nothing else changes, and an already-queued later response is kept as is. |
| Retransmit.Merge | quinn-proto/src/connection.rs:2452-2468 | `+=` or-s the four flags, lets an incoming connection identifier replace the queued one, queues an incoming path response as `path_challenge` would (so the later challenge wins), appends the stream, reset and stop queues, and unions the MAX_STREAM_DATA set. |
| Retransmit.MergeIdentity | quinn-proto/src/connection.rs:2452-2468 | The default queue is a two-sided identity of `+=`. |
| Retransmit.MergeEmptyIff | quinn-proto/src/connection.rs:2452-2468 | A merge is empty exactly when both operands are. |
| Retransmit.MergeAssociative | quinn-proto/src/connection.rs:2452-2481 | `+=` is associative, so the fold of `from_iter` does not depend on grouping. |
| Retransmit.MergeKeepsFrames | quinn-proto/src/connection.rs:2461 | No queued stream frame of either operand is lost by a merge. |
| Rtt.AbsDiff | quinn-proto/src/connection.rs:386 | The `i64` absolute difference is the real absolute difference. |
| Rtt.Update | quinn-proto/src/connection.rs:374-389 | Effects of `update_rtt`: the minimum RTT becomes the least sample seen. The ack delay is subtracted exactly when the sample minus the minimum exceeds it. The first sample sets SRTT to the sample and RTTVAR to half of it. Later samples give the RFC 6298 values rounded down, with SRTT between the old SRTT and the sample. `max_ack_delay` only grows. |
| Rtt.RfcAgreement | quinn-proto/src/connection.rs:386-388 | `(7*srtt + s)/8` and `(3*rttvar + abs(srtt - s))/4` are the floors of the RFC 6298 updates with gains 1/8 and 1/4. |
| Recovery.Initial | quinn-proto/src/connection.rs:217-252 | A new connection's recovery state is consistent, with nothing sent and nothing in flight. |
| Recovery.GetTxNumber | quinn-proto/src/connection.rs:312-317 | The next number is the largest sent plus one, computed modulo 2^64. It fails exactly at 2^62, exceeds every recorded packet, and becomes the new largest sent. |
| Recovery.TxNumbersIncrease | quinn-proto/src/connection.rs:312-317 | Two consecutive allocations are strictly increasing. |
| Recovery.SumBytesRemove | quinn-proto/src/connection.rs:400-402 | Removing any one packet from the sent map removes its size from the total. This underlies every `bytes_in_flight -=`. |
| Recovery.SumBytesInsert | quinn-proto/src/connection.rs:332-338 | Recording a packet under a fresh number adds its size to the total. |
| Recovery.Rto | quinn-proto/src/connection.rs:615-618 | The RTO is at least `min_rto_timeout` and at least SRTT + 4·RTTVAR + max ack delay. With no unanswered RTO it is exactly the larger of the two; each unanswered RTO doubles it (`RtoBackoff`). |
| Recovery.RtoBackoff | quinn-proto/src/connection.rs:615-618 | Each unanswered RTO doubles the timeout, so the timeout is monotone in `rto_count`. |
| Recovery.HandshakeTimeout | quinn-proto/src/connection.rs:579-588 | The handshake timeout is at least the minimum TLP timeout and at least twice the RTT estimate (the default initial RTT before any sample), each scaled by 2^`handshake_count`. With no retransmission yet it is exactly the larger of twice the estimate plus the ack delay and the minimum TLP timeout. |
| Recovery.HandshakeBackoff | quinn-proto/src/connection.rs:587 | Each unanswered handshake retransmission doubles the handshake timeout. |
| Recovery.TlpTimeout | quinn-proto/src/connection.rs:602-605 | The TLP timeout is the larger of 1.5 SRTT plus the ack delay and the minimum TLP timeout. |
| Recovery.ProbeTimeout | quinn-proto/src/connection.rs:597-607 | While TLPs remain, the probe delay is the shorter of the RTO and the TLP timeout; after `max_tlps` probes it is the RTO. |
| Recovery.LossAlarm | quinn-proto/src/connection.rs:572-612 | The alarm is stopped exactly when nothing is in flight. While awaiting the handshake it fires one handshake timeout after the last handshake packet. With a pending loss time it fires at that time. Otherwise it fires one TLP/RTO delay after the last retransmittable packet: never later than one RTO, and strictly after that packet when both minimum timeouts are positive. |
| Recovery.LossAlarmIgnoresSetting | quinn-proto/src/connection.rs:572-612 | The alarm setting does not depend on the previous setting. |
| Recovery.OnPacketSent | quinn-proto/src/connection.rs:319-341 | The packet is recorded under its number and its size is added to `bytes_in_flight`. `awaiting_handshake` turns on with a handshake packet. A non-ACK-only packet stamps the retransmittable send time (and the handshake send time when it is a handshake packet) and sets the alarm to what `set_loss_detection_alarm` computes on the new state. An ACK-only packet leaves the alarm and both times alone. No other field changes. The invariant is kept. |
| Recovery.GrownWindow | quinn-proto/src/connection.rs:404-413 | The window never shrinks on an ACK: it grows by the acked bytes in slow start and by `mss*bytes/cwnd` in congestion avoidance. |
| Recovery.OnPacketAcked | quinn-proto/src/connection.rs:394-462 | An unknown number changes nothing. A known one leaves the sent map, its size leaves `bytes_in_flight`, the probe counters reset, and the numbers it acknowledged stop being pending ACKs. Nothing else changes and the invariant is kept. |
| Recovery.OnPacketAckedWindow | quinn-proto/src/connection.rs:400-423 | Window effect of an ACK. Confirming an RTO collapses the window to the minimum. Otherwise the window is unchanged for an ACK-only packet or one inside the recovery epoch, grows by the packet's size in slow start, and grows by `mss*bytes/cwnd` above `ssthresh`. |
| Recovery.AckPackets | quinn-proto/src/connection.rs:353-363 | Acknowledging a sequence of packets removes exactly those from the sent map and keeps every other record. `bytes_in_flight` does not rise and the invariant holds. If any of them was outstanding, `handshake_count`, `tlp_count` and `rto_count` are 0. `pending_acks` loses exactly the ACKs the outstanding ones carried. If none was outstanding, nothing changes. Only the sent map, the window, the counters and `pending_acks` change. |
| Recovery.AckRtt | quinn-proto/src/connection.rs:348-352 | The RTT sample is taken only when the largest acknowledged packet is still outstanding; the new minimum RTT is then at most that packet's age. |
| Recovery.Acknowledged | quinn-proto/src/connection.rs:346-363 | Before loss detection, exactly the acknowledged packets have left the sent map and the others are unchanged. The probe counters are cleared when any acknowledged packet was outstanding, and otherwise the counters and the window are unchanged. `pending_acks` loses the ACKs the acknowledged packets carried. The clock is still after every send and the invariant holds. |
| Recovery.DelayUntilLost | quinn-proto/src/connection.rs:519-529 | Corrected loss delay. In time-based mode it is `rtt*(1+fraction)`, at least one RTT. For early retransmit it is at least one RTT. Otherwise there is no time threshold. |
| Recovery.DelayUntilLostAsWritten | quinn-proto/src/connection.rs:519-529 | As written, the time-based delay never exceeds one RTT while the fraction is below one. Early retransmit waits `5*rtt/4`, and otherwise there is no time threshold. |
| Recovery.TimeThresholdShrunk | quinn-proto/src/connection.rs:521-523 | With a 65536 us RTT and the default fraction, the source's delay is 8193 us where the intended one is 73728 us. |
| Recovery.DelayAsWrittenShorter | quinn-proto/src/connection.rs:519-529 | The source's delay and the corrected one agree unless time-based loss detection is on. With it on and any RTT of at least 2 us, the source's delay is strictly shorter. |
| Recovery.DelayFor | quinn-proto/src/connection.rs:519-529 | With time-based loss detection off (the default), the delay loss detection uses is exactly the source's `delay_until_lost`. |
| Recovery.DropLost | quinn-proto/src/connection.rs:545-551 | A lost packet leaves the sent map and its size leaves `bytes_in_flight`. Its frames are appended to `handshake_pending` (handshake packet) or `pending` (other packet). |
| Recovery.RemoveLost | quinn-proto/src/connection.rs:544-552 | Removing a list of lost packets removes exactly those, keeps the other records unchanged and keeps the invariant. |
| Recovery.RemoveLostRequeues | quinn-proto/src/connection.rs:544-552 | Removal only appends to the retransmission queues. Every stream frame of every removed packet ends up on the queue of its kind. |
| Recovery.RemoveLostInFlight | quinn-proto/src/connection.rs:543-554 | `bytes_in_flight` stays the same exactly when every removed packet was ACK-only (the source's `lost_nonack`). |
| Recovery.ReducedWindow | quinn-proto/src/connection.rs:560-562 | The reduced window is positive, at least the minimum window, and, with a factor of at most one, no larger than before. |
| Recovery.LossTimeFor | quinn-proto/src/connection.rs:530-539 | `loss_time` is non-zero exactly when a loss delay applies and some packet below the largest acknowledged survives. It is then the oldest survivor's send time plus the delay, and it lies after `now`. |
| Recovery.LossTimeIsDeadline | quinn-proto/src/connection.rs:530-539 | `loss_time` is the oldest survivor's deadline: loss detection at a later time on the same state declares that packet lost exactly when the clock has reached `loss_time`. |
| Recovery.PacketLost | quinn-proto/src/connection.rs:531-536 | The loss condition of `detect_lost_packets`: outstanding for at least the loss delay, or more than the reordering threshold below the largest acknowledged. A definition without a contract of its own; `LostStaysLost` and `LossTimeIsDeadline` state its consequences. |
| Recovery.LostStaysLost | quinn-proto/src/connection.rs:531-536 | A packet that meets the loss condition at some time still meets it at every later time. |
| Recovery.DetectLostPackets | quinn-proto/src/connection.rs:516-566 | Effects of `detect_lost_packets`: exactly the packets `PacketLost` selects below the largest acknowledged leave the sent map, and every packet at or above it stays. Surviving records are unchanged, `loss_time` is as `LossTimeFor` gives it, only the queues, the window, the epoch and `ssthresh` change besides, and the invariant is kept. The loss delay is the corrected one (see "## Left out"). |
| Recovery.DetectLostPacketsRequeues | quinn-proto/src/connection.rs:544-552 | Loss detection only appends to the retransmission queues, and every stream frame of every lost packet is queued again. |
| Recovery.StartsEpochByOrder | quinn-proto/src/connection.rs:542-557 | Some lost packet carried data and the largest lost packet (last in ascending order) lies beyond the epoch, if and only if the lost set starts a new epoch. |
| Recovery.StartsEpochByCut | quinn-proto/src/connection.rs:553-557 | The source's cut condition — `bytes_in_flight` dropped and the largest lost packet is outside recovery — is exactly `StartsEpoch`. |
| Recovery.CutsWindowStartsEpoch | quinn-proto/src/connection.rs:553-557 | `detect_lost_packets` cuts the window exactly when the lost packets start a new recovery epoch. |
| Recovery.DetectLostPacketsCut | quinn-proto/src/connection.rs:557-564 | When the cut applies, the epoch ends at the largest packet sent and the window and `ssthresh` become the reduced window. Otherwise all three are unchanged. |
| Recovery.DetectLostPacketsWindow | quinn-proto/src/connection.rs:553-564 | The window is cut and a new epoch begins exactly when some lost packet carried data and one lies beyond the current epoch. Otherwise window, `ssthresh` and epoch are unchanged. |
| Recovery.EpochCoversSent | quinn-proto/src/connection.rs:557-569 | After loss detection starts a new epoch, `in_recovery` holds of every packet still outstanding and of no packet sent afterwards. |
| Recovery.InRecovery | quinn-proto/src/connection.rs:568-570 | A packet is in recovery when numbered at most `end_of_recovery`. A definition without a contract of its own; `EpochCoversSent` and `NoReductionWithinEpoch` state what it means for the window. |
| Recovery.DetectLostPacketsInFlight | quinn-proto/src/connection.rs:516-566 | Loss detection never raises `bytes_in_flight`. |
| Recovery.NoReductionWithinEpoch | quinn-proto/src/connection.rs:557-570 | Once the recovery epoch covers every packet sent, loss detection never shrinks the window or `ssthresh`. |
| Recovery.ReducedOncePerEpoch | quinn-proto/src/connection.rs:557-570 | After a loss event that cut the window, a second loss detection with nothing sent in between leaves the window as it is. |
| Recovery.OnAckReceived | quinn-proto/src/connection.rs:343-365 | After an ACK, a packet remains recorded, unchanged, exactly when it was neither acknowledged nor declared lost by loss detection on the acknowledged state. No unacknowledged packet at or above the largest acknowledged is lost. `largest_acked` is the maximum of old and new and `bytes_in_flight` does not rise. The RTT estimator is `update_rtt` on the largest packet's age when that packet was outstanding, and unchanged otherwise. Acknowledging an outstanding packet clears `handshake_count`, `tlp_count` and `rto_count`; otherwise they are unchanged. `pending_acks` loses the ACKs the acknowledged packets carried. The retransmission queues only grow, and every stream frame of a lost packet is queued again. `loss_time` is as `LossTimeFor` gives it on the acknowledged state. The window is cut and a new epoch starts exactly when `StartsEpoch` holds of the lost packets; otherwise the window after the acknowledgements, `ssthresh` and the epoch stay. The alarm is what `set_loss_detection_alarm` computes on the final state. The invariant is kept. |
| Recovery.RetransmitHandshake | quinn-proto/src/connection.rs:465-477 | In the handshake branch of the alarm, exactly the handshake packets leave the sent map, their frames go to `handshake_pending`, `pending` is untouched, `handshake_count` goes up by one, and the invariant holds. |
| Recovery.SendProbe | quinn-proto/src/connection.rs:1886-1915 | A probe succeeds exactly below the 2^62 packet-number limit. It is recorded under the next number with its size added to `bytes_in_flight`, and no other recovery field but the send time and the alarm changes. |
| Streams.FinalOffset | quinn-proto/src/connection.rs:1365 | The final size is unknown exactly in the receiving state without a FIN. |
| Streams.Initial | quinn-proto/src/connection.rs:165-189 | The initial stream table holds exactly the handshake stream and the peer's first `max_remote_uni`/`max_remote_bi` streams. A server counts the client's handshake stream among the peer's bidirectional streams. Unidirectional streams have only a receive half and bidirectional ones both halves. |
| Streams.InitialConsistent | quinn-proto/src/connection.rs:165-189 | The initial table satisfies the stream-table invariant. |
| Streams.GetRecvStream | quinn-proto/src/connection.rs:2357-2382 | STREAM_STATE_ERROR exactly for a stream we initiated that is unidirectional or not yet opened. STREAM_ID_ERROR exactly for a peer stream beyond the granted limit. Otherwise the stream, if still in the table. |
| Streams.Open | quinn-proto/src/connection.rs:2000-2030 | Succeeds exactly when the next index is below the peer's limit. The new identifier is fresh, ours, of the asked direction and numbered by the next index. Its send half starts at offset 0 with the limit the caller gives (`Connection.Open` gives the peer's limit for the direction). It has a receive half exactly when bidirectional, and the table stays consistent. |
| Streams.OpenNeverReuses | quinn-proto/src/connection.rs:2000-2030 | Two successive opens return different identifiers, whatever their directions. |
| Connection.Open | quinn-proto/src/connection.rs:2000-2027 | Succeeds exactly when the next index is below the peer's limit, with a fresh identifier of ours in the asked direction. The send half's limit is the peer's `initial_max_stream_data_uni` for a unidirectional stream and `initial_max_stream_data_bidi_remote` for a bidirectional one. A bidirectional stream gets a receive half with the configured window. Other streams' send halves and every other connection field are unchanged, and the invariant is kept. |
| Streams.FinishFrames | quinn-proto/src/connection.rs:2088-2099 | The first pending frame of the stream ending at its offset gets the FIN bit. If none exists, exactly one empty FIN frame is appended. No other frame changes, and afterwards some frame is that stream's FIN. |
| Streams.Finish | quinn-proto/src/connection.rs:2080-2099 | The send half moves from `Ready` to `DataSent` and a FIN for the stream's current offset is pending. Every other pending stream frame is kept as it was, at most one frame of this stream gains the FIN bit, and at most one frame is added. Other send halves, every receive half and the other queues are untouched. |
| Streams.Reset | quinn-proto/src/connection.rs:700-724 | A RST_STREAM is queued and the state becomes `ResetSent` exactly when the send half exists and is `Ready` or `DataSent`. Otherwise nothing changes. Other streams and all receive halves are untouched, and consistency is kept. |
| Streams.ResetIdempotent | quinn-proto/src/connection.rs:700-724 | A second reset changes nothing and queues no second RST_STREAM. |
| Streams.SetRemoteBiLimit | quinn-proto/src/connection.rs:1992-1996 | Exactly the peer-initiated bidirectional streams below the peer limit get the new send limit. Nothing else changes. |
| Connection.New | quinn-proto/src/connection.rs:148-286 | A new connection is consistent and not closed, with no data sent or received, the local receive window as its limit and the initial congestion window. A client starts in the handshake state (`connect`). A server connection has no state until its handshake completes. |
| Connection.SetParams | quinn-proto/src/connection.rs:1985-1998 | Adopts the peer's limits. A client counts its own handshake stream against the bidirectional limit. Peer-initiated bidirectional streams get the peer's per-stream limit. Consistency is kept when the new limit covers what was sent. |
| Connection.IdleSeconds | quinn-proto/src/connection.rs:633-638 | The idle period is zero exactly when both timeouts are zero. With both non-zero it is the smaller; with one zero it is the other. |
| Connection.IdleTimer | quinn-proto/src/connection.rs:633-640 | Corrected idle timer. It is stopped exactly when neither side advertises a timeout. Otherwise it is armed after `now` and no later than either advertised timeout. |
| Connection.IdleTimerFinding | quinn-proto/src/connection.rs:633-640 | The source's idle timer agrees with the corrected one whenever some timeout is advertised. With none it arms a timer at `now` where the corrected one stops it. |
| Connection.IdleTimerAsWritten | quinn-proto/src/connection.rs:633-640 | As written, the idle timer is always armed, never before `now`, and armed at `now` itself exactly when neither side advertises a timeout. |
| Connection.ResetIdleTimeout | quinn-proto/src/connection.rs:633-640 | Only the idle-timer request changes. It stops the timer exactly when both timeouts are 0, and otherwise arms it after `now`, no later than either advertised timeout, at the time the source arms. |
| Connection.NotBlockedMeansRoom | quinn-proto/src/connection.rs:2148-2154 | Not `blocked` holds exactly when a byte fits under `max_data` and a full MTU fits in the congestion window. |
| Connection.CongestionBlocked | quinn-proto/src/connection.rs:2148-2150 | For a positive MTU, the saturating test is the same as one more full packet overflowing the window. With the window already full, it blocks exactly when the MTU is positive. |
| Connection.Blocked | quinn-proto/src/connection.rs:2152-2154 | Exhausting `max_data` blocks. For a positive MTU, blocked means the data limit is used up or a full packet would overflow the window. |
| Connection.Write | quinn-proto/src/connection.rs:2203-2251 | `Blocked` is returned exactly when the connection is closed, blocked, or the stream has no budget. Blocking by flow control or congestion records the stream as blocked. On an open, unblocked connection the stream's own error is returned unchanged, so `Stopped` carries the stream's error code. A success writes the least of the connection budget, the stream budget and the data length; zero only for empty data or a zero stream budget. |
| Connection.WriteQueued | quinn-proto/src/connection.rs:2243-2250 | A successful write queues exactly one STREAM frame holding the first `n` bytes at the stream's offset. The stream's offset and (off the handshake stream) `data_sent` grow by `n`, and the connection is marked for flushing. |
| Connection.WriteValid | quinn-proto/src/connection.rs:2243-2250 | Writing keeps the connection invariant, so `data_sent` never exceeds `max_data`. |
| Connection.WritesRespectMaxData | quinn-proto/src/connection.rs:2243-2250 | Two successive successful writes together fit in the connection budget the first one saw. |
| Connection.ResetStream | quinn-proto/src/connection.rs:700-724 | When the send half has something to abandon, it becomes `ResetSent`, a RST_STREAM is queued and the connection is marked for flushing. Otherwise nothing changes. Other streams are untouched and the invariant is kept. |
| Connection.CloseCommon | quinn-proto/src/connection.rs:1975-1983 | The loss alarm stops and the close timer starts three RTOs (at least three minimum RTOs) from now. Nothing else changes. |
| Connection.Close | quinn-proto/src/connection.rs:1947-1973 | Effects of `close`: afterwards the connection is closed and application-closed. Handshake becomes HandshakeFailed and Established becomes Closed, both with the application's reason. An already closed connection only records the application close. An open one stops its alarm, starts the close timer, sends one close packet under the next number, re-arms the (corrected) idle timer and is marked for flushing. |
| Connection.CloseIdempotent | quinn-proto/src/connection.rs:1947-1973 | Closing twice is closing once. |
| Connection.TailLossProbe | quinn-proto/src/connection.rs:482-494 | A tail-loss probe transmits one packet under the next number, records it as in flight, counts the TLP and re-arms the (corrected) idle timer. |
| Connection.RetransmissionTimeout | quinn-proto/src/connection.rs:495-511 | An RTO transmits two probes under the next two numbers and counts the RTO. The first RTO of a series remembers the largest packet sent before it. |
| Connection.LossActionStep | quinn-proto/src/connection.rs:465-511 | The alarm takes the branches in order: handshake retransmission, then loss detection with a pending loss time, then a TLP while fewer than `max_tlps` were sent, then an RTO. |
| Connection.NextLossAction | quinn-proto/src/connection.rs:465-511 | Handshake retransmission is chosen exactly while awaiting the handshake. A TLP is chosen only while fewer than `max_tlps` were sent, and an RTO only once `max_tlps` were. |
| Connection.AlarmMatchesAction | quinn-proto/src/connection.rs:464-514 | With bytes in flight, the alarm `set_loss_detection_alarm` arms fires at the deadline of the action `check_packet_loss` then takes: the handshake timeout, the loss time, the shorter of RTO and TLP timeouts, or the RTO. |
| Connection.CheckPacketLoss | quinn-proto/src/connection.rs:464-514 | `check_packet_loss` keeps the recovery invariant, re-arms the alarm (stopped exactly when nothing is in flight), marks the connection for flushing and raises no event. |
| Connection.CheckPacketLossHandshake | quinn-proto/src/connection.rs:465-477 | While awaiting the handshake, every handshake packet leaves the sent map, nothing is transmitted and `handshake_count` rises. |
| Connection.CheckPacketLossDetect | quinn-proto/src/connection.rs:478-481 | With a loss time pending, the alarm transmits nothing and leaves the idle timer alone. |
| Connection.CheckPacketLossProbe | quinn-proto/src/connection.rs:482-494 | A TLP transmits exactly one probe under the next packet number. |
| Connection.CheckPacketLossRto | quinn-proto/src/connection.rs:495-511 | An RTO transmits exactly two probes under the next two packet numbers. |
| Connection.RearmLossAlarm | quinn-proto/src/connection.rs:512-513 | The tail of the handler sets the alarm as `set_loss_detection_alarm` computes it and marks the connection for flushing. |
| Connection.CheckKeyPhase | quinn-proto/src/connection.rs:2176-2199 | A flipped key phase on a packet no newer than the newest received is PROTOCOL_VIOLATION. Otherwise the packet is accepted exactly when it decrypts, adopting its phase, and dropped silently when it does not. |
| Connection.KeyPhaseSticks | quinn-proto/src/connection.rs:2176-2199 | Once a packet under a key phase is accepted, later packets under that phase are never a violation and are accepted exactly when they decrypt, whatever their numbers. Switching back with a packet no newer than the newest received is a violation. |
| Receive.Range | quinn-proto/src/connection.rs:1384 | `offset..end` contains exactly the offsets from `offset` up to `end`. |
| Receive.PresentIfListed | quinn-proto/src/connection.rs:1348-1360 | An admissible stream still in a consistent table has a receive half. |
| Receive.Settle | quinn-proto/src/connection.rs:1390-1394 | The receive half becomes `DataRecvd` exactly when its final size is known and positive and every offset below it was received. |
| Receive.ReceiveStream | quinn-proto/src/connection.rs:1344-1417 | STREAM frame handling. An inadmissible stream fails with the admissibility error and a closed one is dropped. Otherwise FINAL_OFFSET_ERROR exactly when the end contradicts the known final size, then FLOW_CONTROL_ERROR exactly when the stream or connection limit would be exceeded, then PROTOCOL_VIOLATION exactly for a FIN on the handshake stream. On success the connection is charged exactly the bytes beyond the previous highest offset and an application stream becomes readable. |
| Receive.ReceiveStreamValid | quinn-proto/src/connection.rs:1373-1378 | STREAM handling keeps the connection invariant, so the received total never passes the receive window. |
| Receive.OnStreamAsWritten | quinn-proto/src/connection.rs:1384 | As written, an empty frame leaves the highest received offset where it was. |
| Receive.OnStream | quinn-proto/src/connection.rs:1371-1384 | Corrected STREAM arm: the highest received offset becomes the frame's end whenever that is larger, and the invariant is kept. |
| Receive.EmptyStreamFrameChargedTwice | quinn-proto/src/connection.rs:1371-1384 | As written, an empty frame beyond the highest received offset, delivered twice, is charged to flow control twice. |
| Receive.DuplicateStreamFrameIsFree | quinn-proto/src/connection.rs:1371-1416 | With the correction, a second delivery of any accepted STREAM frame succeeds and charges nothing. |
| Receive.StreamArmsAgree | quinn-proto/src/connection.rs:1371-1384 | The corrected STREAM arm equals the source's on every frame that carries data. On an empty frame both give the same verdict and the same charge; only the stream's highest received offset differs. |
| Receive.ReceiveRstStream | quinn-proto/src/connection.rs:1501-1538 | RST_STREAM handling. On the handshake stream it is PROTOCOL_VIOLATION. Admissibility is as for STREAM. FINAL_OFFSET_ERROR exactly when the final size contradicts the known one. With the flow check, FLOW_CONTROL_ERROR exactly when limits are exceeded. On success the receive half is reset with that final size, a closed half is left alone, the connection is charged the bytes up to the final size, and the stream becomes readable. |
| Receive.OnRstStreamAsWritten | quinn-proto/src/connection.rs:1501-1538 | As written, RST_STREAM never fails with FLOW_CONTROL_ERROR. |
| Receive.OnRstStream | quinn-proto/src/connection.rs:1501-1538 | Corrected RST_STREAM keeps the connection invariant, so the received total never passes the receive window. |
| Receive.RstStreamOverrunsWindow | quinn-proto/src/connection.rs:1535 | As written, a final size beyond the window is accepted and pushes the received total past the window. The corrected arm refuses it with FLOW_CONTROL_ERROR. |
| Receive.RstStreamArmsAgree | quinn-proto/src/connection.rs:1501-1538 | The corrected RST_STREAM arm returns exactly what the source's returns, except where it refuses with FLOW_CONTROL_ERROR; the source accepts those frames. |
| Receive.WritableEvents | quinn-proto/src/connection.rs:367-370 | One StreamWritable event per stream, in order. |
| Receive.Unblock | quinn-proto/src/connection.rs:366-371 | When the block is lifted, the blocked set empties and exactly its streams get a StreamWritable event, appended after the existing events. Otherwise nothing changes. |
| Receive.OnAck | quinn-proto/src/connection.rs:1418-1424 | The ACK arm applies `on_ack_received`'s recovery update: acknowledged packets leave, and unacknowledged packets at or above the largest acknowledged stay. The RTT estimator takes the sample, other records and the invariant are kept, and `bytes_in_flight` never rises. When the ACK lifts the block, exactly the blocked streams are told they are writable. |
| Receive.OnMaxData | quinn-proto/src/connection.rs:1455-1464 | `max_data` becomes the maximum of old and new. When that lifts a flow-control-only block, exactly the blocked streams are told they are writable. An unblocked connection only raises its limit. The invariant is kept. |
| Receive.OnMaxStreamData | quinn-proto/src/connection.rs:1465-1484 | PROTOCOL_VIOLATION exactly for a stream we only receive on or one without a send half. Otherwise the send limit becomes the maximum of old and new, and StreamWritable is raised exactly when the limit grew for a stream that had used it up. |
| Receive.OnMaxStreamId | quinn-proto/src/connection.rs:1485-1500 | The limit for the named direction becomes at least index + 1. StreamAvailable is raised exactly when it grew. Nothing else changes. |
| Receive.OnStopSending | quinn-proto/src/connection.rs:1548-1562 | PROTOCOL_VIOLATION exactly for a stream without a send half or one with nothing written. Otherwise the send half records the peer's code as `ResetSent`, and a RST_STREAM is queued exactly when the stream was still resettable. |
| Receive.ProcessStreamFrame | quinn-proto/src/connection.rs:1344-1562 | The stream arms, with the corrected STREAM and RST_STREAM arms, keep the connection invariant and only remove sent packets, append events and raise the received total. |
| Receive.ProcessFlowFrame | quinn-proto/src/connection.rs:1418-1464 | The ACK, MAX_DATA and PATH_CHALLENGE arms never fail and keep the same guarantees. |
| Receive.ProcessSignalFrame | quinn-proto/src/connection.rs:1425-1454 | The remaining arms leave the connection alone and report `true` exactly for the peer's close. |
| Receive.ProcessFrame | quinn-proto/src/connection.rs:1343-1571 | Each frame keeps the connection invariant, given the corrected RST_STREAM arm (see "## Left out"). The result is `true` exactly for the peer's CONNECTION_CLOSE or APPLICATION_CLOSE. Padding, PING and the BLOCKED frames change nothing. |
| Receive.ProcessFrameSimpleArms | quinn-proto/src/connection.rs:1426-1571 | A malformed frame is FRAME_ERROR of its type. PATH_RESPONSE is an unsolicited-response error. NEW_CONNECTION_ID fails exactly with an empty remote identifier. The peer's close is reported as the loss reason. PATH_CHALLENGE queues the response. |
| Receive.ProcessPayload | quinn-proto/src/connection.rs:1323-1574 | Each prefix of the payload keeps the invariant, given the corrected arms. `true` is reported only when some frame was the peer's close. A payload of inert frames changes nothing. |
| Receive.ProcessPayloadSplit | quinn-proto/src/connection.rs:1323-1574 | Processing a payload in two pieces is processing it whole. The second piece runs from where the first left off, unless the first failed or closed. |
| Endpoint.New | quinn-proto/src/endpoint.rs:210-240 | The endpoint is created exactly when the local identifier length is zero or within [4, 18]. It starts consistent and empty. |
| Endpoint.Route | quinn-proto/src/endpoint.rs:331-341 | Lookup order: local identifier (only with local identifiers in use), then the client-chosen Initial identifier, then the sender's address. A hit in a consistent endpoint is a live connection. |
| Endpoint.RouteIgnoresIdsWithoutLocalCid | quinn-proto/src/endpoint.rs:333-337 | Without local identifiers the local-identifier map plays no part in routing. |
| Endpoint.RouteIdentifierFirst | quinn-proto/src/endpoint.rs:331-341 | A datagram with a known identifier reaches the same connection from any address. |
| Endpoint.PaddingBound | quinn-proto/src/endpoint.rs:406-413 | The padding range is datagram length minus header and token, but never below eight. |
| Endpoint.ResetPadding | quinn-proto/src/endpoint.rs:407-413 | The padding drawn lies within that range. |
| Endpoint.ResetDoesNotAmplify | quinn-proto/src/endpoint.rs:404-414 | The size budgeted for a stateless reset (with the source's one-byte packet-number header) is below the datagram that caused it, or below a fixed 44 bytes for tiny datagrams. |
| Endpoint.SentResetOverrun | quinn-proto/src/endpoint.rs:404-419 | The reset actually sent writes a four-byte packet number, three bytes beyond the budget. It can therefore exceed the datagram that caused it by up to two bytes, and the largest padding draw reaches that. |
| Endpoint.HandleDecode | quinn-proto/src/endpoint.rs:320-438 | A known connection gets the datagram. Admission is attempted exactly for a listening endpoint and a long-enough Initial. A stateless reset with bounded padding is sent exactly for a listening endpoint and a short header with a non-empty identifier. Everything else is dropped without change. |
| Endpoint.NewCid | quinn-proto/src/endpoint.rs:464-472 | The result is the first candidate no connection uses, with the local identifier length. There is none exactly when every candidate is taken. Without local identifiers the first candidate is taken. |
| Endpoint.FreshHandle | quinn-proto/src/endpoint.rs:484-486 | The new handle is held by no connection. |
| Endpoint.Admit | quinn-proto/src/endpoint.rs:474-506 | The new server connection is indexed under a fresh handle by the client-chosen identifier, by its address, and by its local identifier when those are in use. Nothing else changes. |
| Endpoint.AdmitValid | quinn-proto/src/endpoint.rs:474-506 | Admitting under an unused local identifier keeps the endpoint consistent. |
| Endpoint.Handshake | quinn-proto/src/endpoint.rs:554-576 | A successful TLS handshake puts the connection in the handshake state, as `handshake_complete` does. It also adopts the client's parameters, marks the connection for flushing and counts an incoming handshake. A failed one sends TLS_HANDSHAKE_FAILED and changes no connection. An Initial without handshake data changes nothing. Either way the connection keeps its identity, and a failed or absent handshake leaves it without a state. |
| Endpoint.HandleInitial | quinn-proto/src/endpoint.rs:508-577 | An Initial that does not authenticate is ignored. A full accept buffer answers SERVER_BUSY and adds no connection. Otherwise a server connection without a state is admitted and its handshake handled as `Endpoint.Handshake` states. |
| Endpoint.HandleInitialAdmits | quinn-proto/src/endpoint.rs:534-576 | With room in the accept buffer, exactly one server connection is added, under a handle no connection held. It is in the handshake state exactly when TLS accepted the Initial; otherwise it has no state. |
| Endpoint.FailedHandshakeStaysRoutable | quinn-proto/src/endpoint.rs:552-576 | After a failed or absent handshake, the stateless connection is still what the client's identifier routes to, so not every connection has a state. |
| Endpoint.HandleInitialCorrected | quinn-proto/src/endpoint.rs:552-576 | The corrected admission forgets a connection whose handshake failed or never started, so the connections are the old ones. It sends the same datagrams as the source. It agrees with the source in every other case. If every connection had a state before, every one still has. |
| Endpoint.HandleInitialCorrectedValid | quinn-proto/src/endpoint.rs:552-576 | The corrected admission keeps the endpoint consistent. After a failed or absent handshake, no route leads to the handle it used. |
| Endpoint.HandleInitialRoutes | quinn-proto/src/endpoint.rs:501-504 | The new connection is reachable by the client-chosen identifier and by address. |
| Endpoint.HandleInitialKeepsOthers | quinn-proto/src/endpoint.rs:552-576 | Admission leaves every existing connection unchanged. |
| Endpoint.HandleInitialValid | quinn-proto/src/endpoint.rs:508-577 | `handle_initial` keeps the endpoint consistent. The accept buffer never overflows because a full one refuses the client. |
| Endpoint.Forget | quinn-proto/src/endpoint.rs:625-639 | The connection and its routes leave (the Initial identifier only on a server), as do its flush and readable marks. Entries under other keys stay. |
| Endpoint.ForgetValid | quinn-proto/src/endpoint.rs:625-639 | Forgetting keeps the endpoint consistent and leaves no route to the forgotten connection. |
| Endpoint.ForgottenIsUnroutable | quinn-proto/src/endpoint.rs:625-639 | No datagram reaches a forgotten connection. |
| Endpoint.CloseTimeout | quinn-proto/src/endpoint.rs:644-655 | The close timer stops the idle timer and reports the connection drained. It touches no other connection. |
| Endpoint.IdleTimeout | quinn-proto/src/endpoint.rs:656-667 | The idle timer drains the connection: the loss alarm stops, the close timer starts, ConnectionLost(TimedOut) is reported and the connection is marked for flushing. Others are untouched. |
| Endpoint.LossTimeout | quinn-proto/src/endpoint.rs:668-670 | The loss timer runs `check_packet_loss`: the state is kept, the alarm is re-armed and the connection is marked for flushing. |
| Endpoint.Timeout | quinn-proto/src/endpoint.rs:642-672 | Every timer keeps the endpoint consistent and other connections untouched. Only the close timer can remove the connection. The close, idle and loss timers raise ConnectionDrained, ConnectionLost(TimedOut) and nothing, respectively. |
| Endpoint.CloseTimeoutValid | quinn-proto/src/endpoint.rs:644-655 | The close timer keeps the endpoint consistent. |
| Endpoint.IdleTimeoutValid | quinn-proto/src/endpoint.rs:656-667 | The idle timer keeps the endpoint consistent. |
| Endpoint.LossTimeoutValid | quinn-proto/src/endpoint.rs:668-670 | The loss timer keeps the endpoint consistent. |
| Endpoint.CloseLive | quinn-proto/src/endpoint.rs:793 | Closing a connection that is not drained leaves it closed, application-closed and not drained, and the other connections untouched. |
| Endpoint.Close | quinn-proto/src/endpoint.rs:788-794 | A drained connection is forgotten and left unroutable. Any other is closed as by the connection's `close`. The endpoint stays consistent. |
| Endpoint.CloseThenTimerForgets | quinn-proto/src/endpoint.rs:644-655 | The application's close followed by the close timer forgets the connection. |
| Endpoint.IdleTimeoutLifecycle | quinn-proto/src/endpoint.rs:642-667 | An idle timeout drains the connection. Its close timer marks it drained without forgetting it, and only the application's close then forgets it. |

## Left out

- TLS, packet protection and the frame and packet codecs. Frames arrive
  decoded. Whether a packet decrypts is a boolean input. What TLS makes of
  a client's first Initial is the `TlsOutcome` input. Handshake data read
  on stream 0, and the stream-0 credit loop that returns it, are not
  modelled. Retry and version negotiation are not modelled.
- The stream module (`stream.rs`). It is not part of this model:
  - `write_budget` is a parameter of `Connection.Write`;
  - the received range set is a set of offsets;
  - reassembly buffers and `read` are absent.
- `maybe_cleanup`, `handshake_cleanup`, `on_packet_authenticated`, `poll`,
  `next_packet` and `flush_pending` are not modelled. Of `force_transmit`,
  only the packet-number and sent-map bookkeeping is modelled (`SendProbe`);
  the probe's size is the `probeBytes` input.
- Recovery.OnPacketAcked: models the congestion and recovery part only. The
  per-stream effects of an acknowledgement are not modelled: a confirmed
  RST_STREAM moving its stream to `ResetRecvd`, per-stream bytes in flight,
  `DataRecvd`, and the `streams.finished` list behind StreamFinished events.
- `permit_ack_only` is not modelled. It is the flag every non-ACK frame sets
  and that governs when ACK-only packets may be sent.
- `u64` overflow is not modelled for windows, offsets and counters. These are
  unbounded naturals, except for the `u64` wrap in `get_tx_number`. Most
  subtractions that would panic in debug builds become preconditions or
  invariants; the one in `set_loss_detection_alarm` does not (next line).
- Recovery.LossAlarm: with a pending loss time the alarm is set to
  `loss_time` itself. The source computes `last_sent + (loss_time -
  last_sent)`, which panics in a debug build when `loss_time` lies before
  the last retransmittable send. A release build wraps both operations and
  also yields `loss_time`.
- Iteration orders:
  - Lost packets are removed in ascending order, as the source's ordered
    map yields them.
  - The packets an ACK covers are an input sequence, `Ack.acked`, in
    whatever order the frame's range iterator yields them. The frame codec
    is not part of this model. The source takes each range in ascending
    order; the model does not require that, so its results hold for every
    order. The order matters because only the first acknowledged packet
    can confirm an RTO: `on_packet_acked` clears `rto_count`.
  - The source drains its hash set of blocked streams in an unspecified
    order; the model uses ascending order.
- Of the client `connect` path only the handshake state it sets is
  modelled (`Connection.New`), not the TLS messages it queues.
  `Endpoint::accept` is not modelled. Neither are the `add_connection` debug
  assertion that the local identifier is
  non-empty, and the getters.
- Endpoint inputs:
  - The slab picks a vacant slot for a new connection; the model picks a
    handle above all in use.
  - `new_cid` draws identifiers until one is free; the model takes a
    candidate list instead.
  - The reset padding's random draw is an input.
  - The minimum MTU and the endpoint's own transport parameters are
    endpoint fields.
- The main model runs on the corrected definitions of "## Findings", not on
  the source as written. The agreement lemmas bound the difference. The
  members affected, one per line:
- Recovery.LossTimeFor: uses the corrected time threshold (`DelayFor`).
  With time-based loss detection off, the default, this is the source's
  delay (`Recovery.DelayFor`, `Recovery.DelayAsWrittenShorter`). With it
  on, the source's shorter delay would declare more packets lost and arm
  an earlier `loss_time`.
- Recovery.DetectLostPackets: uses the corrected time threshold, as above;
  the lost set is the source's when time-based loss detection is off.
- Recovery.OnAckReceived: runs loss detection with the corrected time
  threshold, as above.
- Receive.OnAck: runs loss detection with the corrected time threshold, as
  above.
- Connection.LossActionStep: its loss-detection branch uses the corrected
  time threshold, and its TLP and RTO branches the corrected idle timer.
  The two timers agree unless both idle timeouts are 0; then the source
  arms the idle timer at `now` where the model stops it
  (`Connection.IdleTimerFinding`).
- Connection.CheckPacketLoss: uses the corrected time threshold and the
  corrected idle timer, as for `LossActionStep`.
- Connection.TailLossProbe: re-arms the corrected idle timer, as above.
- Connection.RetransmissionTimeout: re-arms the corrected idle timer, as
  above.
- Connection.ResetIdleTimeout: re-arms the corrected idle timer. When both
  idle timeouts are 0 it stops the timer, where the source arms it at `now`
  (`Connection.IdleTimerFinding`); otherwise the two agree.
- Connection.Close: re-arms the corrected idle timer, as above.
- Endpoint.CloseLive: closes with `Connection.Close`, so re-arms the
  corrected idle timer.
- Endpoint.Close: the same, through `Endpoint.CloseLive`.
- Endpoint.LossTimeout: runs `Connection.CheckPacketLoss`, so both
  corrections apply.
- Endpoint.Timeout: its loss branch is `Endpoint.LossTimeout`, so both
  corrections apply.
- Receive.ProcessStreamFrame: dispatches to the corrected STREAM and
  RST_STREAM arms. They coincide with the source except on an empty STREAM
  frame, where only the stream's highest offset differs
  (`Receive.StreamArmsAgree`). They also differ on a RST_STREAM whose final
  size overruns a flow-control limit. The source accepts that frame and
  pushes the received total past the window (`Receive.RstStreamArmsAgree`,
  `Receive.RstStreamOverrunsWindow`).
- Receive.ProcessFlowFrame: its ACK arm is `Receive.OnAck`, with the
  corrected time threshold.
- Receive.ProcessFrame: through `ProcessStreamFrame` and
  `ProcessFlowFrame`, both corrections apply. The invariant it keeps,
  `data_recvd <= local_max_data` in particular, is the corrected program's;
  the source breaks it on the RST_STREAM above.
- Receive.ProcessPayload: the same as `ProcessFrame`, frame by frame.
- The packet-number limit. The source asserts in `get_tx_number` that a
  new packet number stays below 2^62 and panics otherwise. The members
  below that allocate numbers require instead that the numbers they
  allocate stay below the limit, one line each:
- Connection.CheckPacketLoss: requires the largest packet number plus two
  below 2^62, because its RTO branch allocates two numbers through
  `force_transmit`.
- Connection.LossActionStep: the same requirement, for the same reason.
- Connection.TailLossProbe: requires the largest packet number plus one
  below 2^62, for the probe `force_transmit` sends.
- Connection.RetransmissionTimeout: requires the largest packet number plus
  two below 2^62, for its two probes.
- Connection.Close: on an open connection, requires the largest packet
  number plus one below 2^62, for the close packet `make_close` numbers.
- Endpoint.LossTimeout: requires what `Connection.CheckPacketLoss` does.
- Endpoint.Timeout: requires it when the loss-detection timer fires.
- Endpoint.CloseLive: requires what `Connection.Close` does.
- Endpoint.Close: requires it when the connection it closes is still open.
- Connection.SetParams: skips a peer bidirectional stream that has no send
  half. The source's `unwrap` would panic on one.
- Streams.Finish and Connection.Write: require what the source's `expect`
  and `assert` calls check, a send half in the `Ready` state, instead of
  modelling the panic.
- Connection.Close and Endpoint.Close: require the connection not to be
  drained at the connection level, as the source's `unreachable!` does.
  Endpoint-level `close` forgets drained connections before that point.
- A connection without a state. The source reads the state with `unwrap`
  and panics on a server connection whose handshake never completed. The
  members below require a state instead, one line each:
- Connection.Write: requires a state, for the `unwrap` in `write`.
- Connection.Close: requires a state, for the `unwrap` in `close`.
- Endpoint.CloseLive: requires what `Connection.Close` does.
- Endpoint.Close: requires a state, for the `unwrap` in the endpoint's
  `close`. Under `Endpoint.HandleInitialCorrected` every connection has one.
- Endpoint.HandleInitial: models the admission as written, so it can leave a
  connection without a state behind (see "## Findings").
  `Endpoint.HandleInitialCorrected` is the corrected admission.

## Findings

| source | as written | input that shows it | evidently intended | confidence | as-written member | corrected member |
|---|---|---|---|---|---|---|
| quinn-proto/src/connection.rs:521-523 | In time-based loss detection the shift applies to `rtt + rtt*fraction`, giving about `rtt*fraction` (1/8 of an RTT by default) | RTT 65536 us, default fraction 0x2000: 8193 us | `rtt*(1 + fraction)` as the comment says: 73728 us | not executed | Recovery.DelayUntilLostAsWritten, Recovery.TimeThresholdShrunk, Recovery.DelayAsWrittenShorter | Recovery.DelayUntilLost |
| quinn-proto/src/connection.rs:633-640 | With both idle timeouts 0, the idle timer is armed at `now` | `idle_timeout = 0` locally and from the peer | 0 means no idle timeout, so the timer is stopped | not executed | Connection.IdleTimerAsWritten, Connection.IdleTimerFinding | Connection.IdleTimer |
| quinn-proto/src/connection.rs:1501-1538 | RST_STREAM charges `final_offset - limit` to `data_recvd` with no flow-control check | a final size beyond the receive window on an open stream | FLOW_CONTROL_ERROR, as for STREAM data | not executed | Receive.OnRstStreamAsWritten, Receive.RstStreamOverrunsWindow, Receive.RstStreamArmsAgree | Receive.OnRstStream |
| quinn-proto/src/connection.rs:1371-1384 | An empty STREAM frame beyond the highest offset is charged, but inserts an empty range, so `limit()` does not move | the same empty frame at an offset above the highest received, delivered twice | every offset is charged once | not executed; depends on the range set ignoring empty ranges | Receive.OnStreamAsWritten, Receive.EmptyStreamFrameChargedTwice, Receive.StreamArmsAgree | Receive.OnStream, Receive.DuplicateStreamFrameIsFree |
| quinn-proto/src/endpoint.rs:552-576 | An Initial without handshake data, or one TLS rejects, leaves the new server connection without a state but still routed by the client's identifier and address | a client Initial that TLS rejects, then the client's retransmission of it | the failed connection is dropped, so no route leads to a connection without a state | not executed; the next datagram reaches the `unwrap` at connection.rs:887 | Endpoint.HandleInitial, Endpoint.FailedHandshakeStaysRoutable | Endpoint.HandleInitialCorrected, Endpoint.HandleInitialCorrectedValid |

=== FILE: config.dfy ===
/** Endpoint configuration (`Config`) and the subset of the peer's
    transport parameters that the modelled core reads. */
module Config {
  import opened Quic

  /** Parameters governing the core state machine. Durations are in
      microseconds except `idleTimeout`, which is in seconds; the two
      fractions are 0.16 fixed point. */
  datatype Config = Config(
    maxRemoteBiStreams: nat,
    maxRemoteUniStreams: nat,
    idleTimeout: nat,
    streamReceiveWindow: nat,
    receiveWindow: nat,
    acceptBuffer: nat,
    maxTlps: nat,
    reorderingThreshold: nat,
    timeReorderingFraction: nat,
    usingTimeLossDetection: bool,
    minTlpTimeout: nat,
    minRtoTimeout: nat,
    delayedAckTimeout: nat,
    defaultInitialRtt: nat,
    defaultMss: nat,
    initialWindow: nat,
    minimumWindow: nat,
    lossReductionFactor: nat,
    localCidLen: nat)

  /** One in 0.16 fixed point. */
  const FixedOne: nat := 0x1_0000

  /** `(w * f) >> 16`: scale `w` by the 0.16 fixed-point fraction `f`. */
  function ScaleFixed(w: nat, f: nat): nat {
    (w * f) / FixedOne
  }

  /** A fraction of at most one never enlarges what it scales. */
  lemma ScaleFixedAtMost(w: nat, f: nat)
    ensures f <= FixedOne ==> ScaleFixed(w, f) <= w
  {
    if f <= FixedOne {
      var q := (w * f) / FixedOne;
      assert w * f <= w * FixedOne;
      assert q * FixedOne <= w * f;
    }
  }

  /** The values `Config::default()` chooses. */
  function Default(): (c: Config)
    ensures c.initialWindow == 10 * c.defaultMss && c.minimumWindow == 2 * c.defaultMss
    ensures c.receiveWindow == 8 * c.streamReceiveWindow
    ensures forall w: nat :: ScaleFixed(w, c.lossReductionFactor) == w / 2
    ensures !c.usingTimeLossDetection && c.reorderingThreshold == 3 && c.maxTlps == 2
    ensures c.minTlpTimeout < c.minRtoTimeout
    ensures Sane(c) && ValidCidLen(c.localCidLen)
  {
    var expectedRtt := 100;                       // ms
    var maxStreamBandwidth := 12500 * 1000;       // bytes/s
    var streamRwnd := maxStreamBandwidth / 1000 * expectedRtt;
    var c := Config(
      0, 0, 10,
      streamRwnd, 8 * streamRwnd, 1024,
      2, 3, 0x2000, false,
      10 * 1000, 200 * 1000, 25 * 1000, expectedRtt * 1000,
      1460, 10 * 1460, 2 * 1460, 0x8000,
      8);
    HalfScale();
    c
  }

  /** Scaling by 0x8000 in 0.16 fixed point halves a window exactly as
      integer division by two does. */
  lemma HalfScale()
    ensures forall w: nat :: ScaleFixed(w, 0x8000) == w / 2
  {
    forall w: nat
      ensures ScaleFixed(w, 0x8000) == w / 2
    {
      assert w * 0x8000 == (w / 2) * FixedOne + (w % 2) * 0x8000;
    }
  }

  /** A local connection-identifier length `Endpoint::new` accepts: zero, or
      within [MinCidSize, MaxCidSize]. */
  predicate ValidCidLen(n: nat) {
    (n == 0 || n >= MinCidSize) && n <= MaxCidSize
  }

  /** Windows are positive, so the congestion-avoidance division never
      divides by zero. */
  predicate Sane(c: Config) {
    c.minimumWindow > 0 && c.initialWindow > 0
  }

  /** The peer's transport parameters read by the modelled core. */
  datatype Params = Params(
    initialMaxStreamDataBidiLocal: nat,
    initialMaxStreamDataBidiRemote: nat,
    initialMaxStreamDataUni: nat,
    initialMaxData: nat,
    initialMaxBidiStreams: nat,
    initialMaxUniStreams: nat,
    idleTimeout: nat,
    ackDelayExponent: nat)
}

=== FILE: connection.dfy ===
/** One QUIC connection as its endpoint sees it: the lifecycle states,
    connection-level flow control on the send side, the congestion check
    that gates writes, `write`, `close`, the idle timer, the
    loss-detection alarm handler and the key-phase rule. */
module Connection {
  import opened Wrappers
  import opened Quic
  import opened Config
  import opened Retransmit
  import opened Context
  import Rec = Recovery
  import St = Streams

  /** The lifecycle state. `Unset` is the source's missing state: a
      server connection has none until its handshake completes, and every
      operation that reads the state fails an `unwrap` on it. */
  datatype State =
    | Unset
    | Handshake
    | Established
    | HandshakeFailed(reason: CloseReason)
    | Closed(reason: CloseReason)
    | Draining
    | Drained

  /** `State::is_closed`: the connection no longer carries application
      data. */
  predicate IsClosed(s: State) {
    match s
    case HandshakeFailed(_) => true
    case Closed(_) => true
    case Draining => true
    case Drained => true
    case _ => false
  }

  datatype Connection = Connection(
    side: Side,
    handle: Handle,
    initCid: Cid,
    locCid: Cid,
    remCid: Cid,
    remote: Addr,
    state: State,
    appClosed: bool,
    mtu: nat,
    rxPacket: nat,
    keyPhase: bool,
    params: Params,
    readable: set<StreamId>,
    blockedStreams: set<StreamId>,
    maxData: nat,
    dataSent: nat,
    dataRecvd: nat,
    localMaxData: nat,
    rec: Rec.Recovery,
    streams: St.Streams,
    setIdle: Rec.TimerUpdate)

  /** The connection invariant: both flow-control budgets hold, the
      recovery bookkeeping is consistent and no local stream identifier
      has been handed out twice. */
  ghost predicate Valid(c: Connection) {
    && c.mtu > 0
    && c.dataSent <= c.maxData
    && c.dataRecvd <= c.localMaxData
    && Rec.Valid(c.rec)
    && St.Consistent(c.streams, c.side)
  }

  /** The fields by which the endpoint finds a connection. */
  predicate SameIdentity(a: Connection, b: Connection) {
    a.side == b.side && a.handle == b.handle && a.initCid == b.initCid && a.locCid == b.locCid && a.remote == b.remote
  }

  /** `Connection::new`: a client starts its handshake at once (`connect`),
      a server connection has no state until its handshake completes. The
      TLS messages the client queues on the handshake stream are not
      modelled; `mtu` is the crate's minimum MTU. */
  function New(cfg: Config, side: Side, handle: Handle, initCid: Cid, locCid: Cid, remCid: Cid,
               remote: Addr, localParams: Params, mtu: nat): (c: Connection)
    requires Sane(cfg) && mtu > 0
    ensures Valid(c)
    ensures side == Client ==> c.state == Handshake
    ensures side == Server ==> c.state == Unset
    ensures !IsClosed(c.state) && !c.appClosed
    ensures c.maxData == 0 && c.dataSent == 0 && c.dataRecvd == 0 && c.localMaxData == cfg.receiveWindow
    ensures c.rec.sent == map[] && c.rec.congestionWindow == cfg.initialWindow
  {
    St.InitialConsistent(side, cfg.maxRemoteUniStreams, cfg.maxRemoteBiStreams, cfg.streamReceiveWindow);
    Connection(
      side, handle, initCid, locCid, remCid, remote, if side == Client then Handshake else Unset,
      false, mtu, 0, false, localParams,
      {}, {}, 0, 0, 0, cfg.receiveWindow,
      Rec.Initial(cfg),
      St.Initial(side, cfg.maxRemoteUniStreams, cfg.maxRemoteBiStreams, cfg.streamReceiveWindow),
      Rec.Unchanged)
  }

  /** `set_params`: adopt the peer's transport parameters. A client counts
      its own handshake stream against the peer's bidirectional limit. */
  function SetParams(c: Connection, p: Params): (o: Connection)
    ensures o.maxData == p.initialMaxData && o.params == p
    ensures o == c.(maxData := o.maxData, params := o.params, streams := o.streams)
    ensures o.streams.maxBi == p.initialMaxBidiStreams + (if c.side == Client then 1 else 0)
    ensures o.streams.maxUni == p.initialMaxUniStreams
    ensures o.streams.streams.Keys == c.streams.streams.Keys
    ensures forall id ::
      (St.SendOf(c.streams, id).Some? && Initiator(id) != c.side && Dir(id) == Bi && Index(id) < c.streams.maxRemoteBi) ==>
      St.SendOf(o.streams, id).Some? && St.SendOf(o.streams, id).value.maxData == p.initialMaxStreamDataBidiLocal
    ensures Valid(c) && c.dataSent <= p.initialMaxData ==> Valid(o)
  {
    var s := c.streams.(
      maxBi := p.initialMaxBidiStreams + (if c.side == Client then 1 else 0),
      maxUni := p.initialMaxUniStreams);
    c.(
      streams := St.SetRemoteBiLimit(s, c.side, p.initialMaxStreamDataBidiLocal),
      maxData := p.initialMaxData,
      params := p)
  }

  datatype Opened = Opened(id: StreamId, conn: Connection)

  /** The peer's initial per-stream limit for a stream we open in direction
      `dir`: from the peer's point of view a bidirectional stream we open
      is remote. */
  function PeerStreamLimit(p: Params, dir: Directionality): nat {
    match dir
    case Uni => p.initialMaxStreamDataUni
    case Bi => p.initialMaxStreamDataBidiRemote
  }

  /** `open`: allocate the next locally initiated stream of direction `dir`
      when the peer's stream limit allows one. Its send half may carry as
      much as the peer's transport parameters allow for that direction; a
      bidirectional stream also gets a receive half with the configured
      receive window. */
  function Open(c: Connection, cfg: Config, dir: Directionality): (o: Option<Opened>)
    requires St.Consistent(c.streams, c.side)
    ensures o.Some? <==> (if dir == Uni then c.streams.nextUni < c.streams.maxUni else c.streams.nextBi < c.streams.maxBi)
    ensures o.Some? ==>
      && o.value.id !in c.streams.streams
      && Initiator(o.value.id) == c.side && Dir(o.value.id) == dir
      && St.SendOf(o.value.conn.streams, o.value.id) ==
           Some(St.SendStream(0, PeerStreamLimit(c.params, dir), St.Ready))
      && (dir == Uni ==> St.SendOf(o.value.conn.streams, o.value.id).value.maxData == c.params.initialMaxStreamDataUni)
      && (dir == Bi ==> St.SendOf(o.value.conn.streams, o.value.id).value.maxData == c.params.initialMaxStreamDataBidiRemote)
      && St.RecvOf(o.value.conn.streams, o.value.id) ==
           (if dir == Bi then Some(St.NewRecv(cfg.streamReceiveWindow)) else None)
      && (forall j :: j != o.value.id ==> St.SendOf(o.value.conn.streams, j) == St.SendOf(c.streams, j))
      && o.value.conn == c.(streams := o.value.conn.streams)
    ensures o.Some? && Valid(c) ==> Valid(o.value.conn)
  {
    match St.Open(c.streams, c.side, dir, cfg.streamReceiveWindow, PeerStreamLimit(c.params, dir))
    case None => None
    case Some(op) => Some(Opened(op.id, c.(streams := op.table)))
  }

  /** The idle period in seconds as `reset_idle_timeout` computes it: the
      smaller of the two advertised timeouts, or the non-zero one when one
      side advertises none. */
  function IdleSeconds(local: nat, peer: nat): (dt: nat)
    ensures dt == 0 <==> local == 0 && peer == 0
    ensures local != 0 && peer != 0 ==> dt <= local && dt <= peer && (dt == local || dt == peer)
    ensures local == 0 || peer == 0 ==> dt == local + peer
  {
    if local == 0 || peer == 0 then Max(local, peer) else Min(local, peer)
  }

  /** `reset_idle_timeout` as written: when neither side advertises an
      idle timeout the timer is armed for `now`. */
  function IdleTimerAsWritten(cfg: Config, peerIdle: nat, now: nat): (t: Rec.TimerUpdate)
    ensures t.Start? && t.time >= now
    ensures t.time == now <==> cfg.idleTimeout == 0 && peerIdle == 0
  {
    Rec.Start(now + IdleSeconds(cfg.idleTimeout, peerIdle) * 1_000_000)
  }

  /** `reset_idle_timeout` with 0 meaning "no idle timeout", as the
      configuration documents it: the timer is stopped instead. */
  function IdleTimer(cfg: Config, peerIdle: nat, now: nat): (t: Rec.TimerUpdate)
    ensures t != Rec.Unchanged
    ensures t.Stop? <==> cfg.idleTimeout == 0 && peerIdle == 0
    ensures t.Start? ==> t.time > now
    ensures t.Start? && cfg.idleTimeout != 0 ==> t.time <= now + cfg.idleTimeout * 1_000_000
    ensures t.Start? && peerIdle != 0 ==> t.time <= now + peerIdle * 1_000_000
  {
    var dt := IdleSeconds(cfg.idleTimeout, peerIdle);
    if dt == 0 then Rec.Stop else Rec.Start(now + dt * 1_000_000)
  }

  /** Both agree whenever some idle timeout is advertised; with none, the
      source arms a timer that expires at once and times the connection
      out. */
  lemma IdleTimerFinding(cfg: Config, peerIdle: nat, now: nat)
    ensures cfg.idleTimeout != 0 || peerIdle != 0 ==> IdleTimerAsWritten(cfg, peerIdle, now) == IdleTimer(cfg, peerIdle, now)
    ensures cfg.idleTimeout == 0 && peerIdle == 0 ==>
      IdleTimerAsWritten(cfg, peerIdle, now) == Rec.Start(now) && IdleTimer(cfg, peerIdle, now) == Rec.Stop
  {
  }

  /** `reset_idle_timeout`: re-arm the idle timer from `now`. Only the
      timer request changes; it stops the timer exactly when neither side
      advertises an idle timeout, and otherwise expires after `now` but no
      later than either advertised timeout. */
  function ResetIdleTimeout(c: Connection, cfg: Config, now: nat): (o: Connection)
    ensures o == c.(setIdle := o.setIdle)
    ensures o.setIdle != Rec.Unchanged
    ensures o.setIdle.Stop? <==> cfg.idleTimeout == 0 && c.params.idleTimeout == 0
    ensures o.setIdle.Start? ==> now < o.setIdle.time
    ensures o.setIdle.Start? && cfg.idleTimeout != 0 ==> o.setIdle.time <= now + cfg.idleTimeout * 1_000_000
    ensures o.setIdle.Start? && c.params.idleTimeout != 0 ==> o.setIdle.time <= now + c.params.idleTimeout * 1_000_000
    ensures cfg.idleTimeout != 0 || c.params.idleTimeout != 0 ==>
      o.setIdle == IdleTimerAsWritten(cfg, c.params.idleTimeout, now)
    ensures Valid(c) ==> Valid(o)
  {
    IdleTimerFinding(cfg, c.params.idleTimeout, now);
    c.(setIdle := IdleTimer(cfg, c.params.idleTimeout, now))
  }

  /** `congestion_blocked`: less than one MTU of congestion window left.
      The source subtracts with saturation; for a positive MTU this is
      the same as one more full packet overflowing the window. */
  function CongestionBlocked(c: Connection): (b: bool)
    ensures c.mtu > 0 ==> (b <==> c.rec.bytesInFlight + c.mtu > c.rec.congestionWindow)
    ensures c.rec.bytesInFlight >= c.rec.congestionWindow ==> (b <==> c.mtu > 0)
  {
    SaturatingSub(c.rec.congestionWindow, c.rec.bytesInFlight) < c.mtu
  }

  /** `blocked`: connection-level flow control or congestion forbids
      sending. */
  function Blocked(c: Connection): (b: bool)
    ensures c.dataSent >= c.maxData ==> b
    ensures c.mtu > 0 ==>
      (b <==> c.dataSent >= c.maxData || c.rec.bytesInFlight + c.mtu > c.rec.congestionWindow)
  {
    c.dataSent >= c.maxData || CongestionBlocked(c)
  }

  /** Not being blocked means a full MTU fits in the congestion window and
      at least one byte fits in the peer's connection-level limit. */
  lemma NotBlockedMeansRoom(c: Connection)
    requires c.mtu > 0
    ensures !Blocked(c) <==>
      c.dataSent < c.maxData && c.rec.bytesInFlight + c.mtu <= c.rec.congestionWindow
  {
  }

  datatype WriteError = WriteBlocked | Stopped(errorCode: nat)

  datatype WriteOutcome = WriteOutcome(conn: Connection, ctx: Ctx, result: Result<nat, WriteError>)

  /** `write`: queue as much of `data` on stream `id` as both the
      connection-level budget and `budget` allow. `budget` is what the
      stream's `write_budget` reports (the stream module is not part of
      this model). A write on a stopped stream also triggers stream
      cleanup, which is not modelled. */
  function Write(c: Connection, ctx: Ctx, id: StreamId, data: seq<Byte>, budget: Result<nat, WriteError>): (o: WriteOutcome)
    requires c.state != Unset && (Dir(id) == Bi || Initiator(id) == c.side)
    requires !IsClosed(c.state) && !Blocked(c) ==> St.SendOf(c.streams, id).Some?
    requires !IsClosed(c.state) && !Blocked(c) && budget.Ok? ==> St.SendOf(c.streams, id).value.state == St.Ready
    ensures o.result == Err(WriteBlocked) <==> IsClosed(c.state) || Blocked(c) || budget == Err(WriteBlocked)
    ensures o.result.Err? ==> o.ctx == ctx && o.conn == c.(blockedStreams := o.conn.blockedStreams)
    ensures !IsClosed(c.state) && Blocked(c) ==> o.conn.blockedStreams == c.blockedStreams + {id}
    ensures !(!IsClosed(c.state) && Blocked(c)) ==> o.conn.blockedStreams == c.blockedStreams
    ensures !IsClosed(c.state) && !Blocked(c) && budget.Err? ==> o.result == budget
    ensures o.result.Err? && o.result.error.Stopped? ==> budget == o.result
    ensures o.result.Ok? ==>
      && budget.Ok?
      && o.result.value == Min(Min(c.maxData - c.dataSent, budget.value), |data|)
      && (o.result.value == 0 ==> |data| == 0 || budget.value == 0)
      && o == WriteQueued(c, ctx, id, data, budget.value)
  {
    if IsClosed(c.state) then WriteOutcome(c, ctx, Err(WriteBlocked))
    else if Blocked(c) then WriteOutcome(c.(blockedStreams := c.blockedStreams + {id}), ctx, Err(WriteBlocked))
    else
      match budget
      case Err(e) => WriteOutcome(c, ctx, Err(e))
      case Ok(streamBudget) => WriteQueued(c, ctx, id, data, streamBudget)
  }

  /** The successful part of `write`: `n` bytes, the least of the
      connection budget, the stream budget and the data, are queued as one
      STREAM frame at the stream's offset; the stream's offset and (except
      on the handshake stream) the connection's sent-data count grow by
      `n`, and the connection is marked for flushing. */
  function WriteQueued(c: Connection, ctx: Ctx, id: StreamId, data: seq<Byte>, streamBudget: nat): (o: WriteOutcome)
    requires St.SendOf(c.streams, id).Some? && c.dataSent < c.maxData
    ensures o.result.Ok? && o.result.value == Min(Min(c.maxData - c.dataSent, streamBudget), |data|)
    ensures o.result.value <= |data| && o.result.value <= streamBudget
    ensures o.conn.dataSent == c.dataSent + (if id == TlsStream then 0 else o.result.value)
    ensures o.conn.rec.pending.stream == c.rec.pending.stream +
      [StreamFrame(id, St.SendOf(c.streams, id).value.offset, false, data[..o.result.value])]
    ensures St.SendOf(o.conn.streams, id) ==
      Some(St.SendOf(c.streams, id).value.(offset := St.SendOf(c.streams, id).value.offset + o.result.value))
    ensures o.conn == c.(streams := o.conn.streams, dataSent := o.conn.dataSent,
                         rec := c.rec.(pending := c.rec.pending.(stream := o.conn.rec.pending.stream)))
    ensures o.ctx == ctx.(dirty := ctx.dirty + {c.handle})
  {
    var n := Min(Min(c.maxData - c.dataSent, streamBudget), |data|);
    var ss := St.SendOf(c.streams, id).value;
    var frame := StreamFrame(id, ss.offset, false, data[..n]);
    var c' := c.(
      streams := St.WithSend(c.streams, id, ss.(offset := ss.offset + n)),
      dataSent := if id == TlsStream then c.dataSent else c.dataSent + n,
      rec := c.rec.(pending := c.rec.pending.(stream := c.rec.pending.stream + [frame])));
    WriteOutcome(c', ctx.(dirty := ctx.dirty + {c.handle}), Ok(n))
  }

  /** Writing keeps the connection consistent; in particular the data
      sent never exceeds what the peer allows. */
  lemma WriteValid(c: Connection, ctx: Ctx, id: StreamId, data: seq<Byte>, budget: Result<nat, WriteError>)
    requires c.state != Unset && (Dir(id) == Bi || Initiator(id) == c.side)
    requires !IsClosed(c.state) && !Blocked(c) ==> St.SendOf(c.streams, id).Some?
    requires !IsClosed(c.state) && !Blocked(c) && budget.Ok? ==> St.SendOf(c.streams, id).value.state == St.Ready
    requires Valid(c)
    ensures Valid(Write(c, ctx, id, data, budget).conn)
  {
  }

  /** Repeated writes never take the connection past the peer's limit: the
      total written by two successful writes fits in the budget the first
      one saw. */
  lemma WritesRespectMaxData(c: Connection, ctx: Ctx, id: StreamId, d1: seq<Byte>, d2: seq<Byte>, b1: nat, b2: nat)
    requires Valid(c) && id != TlsStream && c.state != Unset
    requires Dir(id) == Bi || Initiator(id) == c.side
    requires St.SendOf(c.streams, id).Some? && St.SendOf(c.streams, id).value.state == St.Ready
    requires Write(c, ctx, id, d1, Ok(b1)).result.Ok?
    ensures var o1 := Write(c, ctx, id, d1, Ok(b1));
      !IsClosed(o1.conn.state) && !Blocked(o1.conn) ==>
        var o2 := Write(o1.conn, o1.ctx, id, d2, Ok(b2));
        o2.result.Ok? && o1.result.value + o2.result.value <= c.maxData - c.dataSent
  {
    WriteValid(c, ctx, id, d1, Ok(b1));
  }

  /** `reset` on the connection: abandon sending on `id`; when there was
      something to abandon, a RST_STREAM is queued and the connection is
      marked for flushing. */
  function ResetStream(c: Connection, ctx: Ctx, id: StreamId, errorCode: nat): (o: Step)
    requires St.Sends(c.side, id)
    ensures var live := St.SendOf(c.streams, id).Some? && St.Resettable(St.SendOf(c.streams, id).value);
      && (live ==>
            && St.SendOf(o.conn.streams, id) == Some(St.SendOf(c.streams, id).value.(state := St.ResetSent(None)))
            && o.conn.rec.pending.rstStream == c.rec.pending.rstStream + [(id, errorCode)]
            && o.ctx == ctx.(dirty := ctx.dirty + {c.handle}))
      && (!live ==> o == Step(c, ctx))
    ensures forall j :: j != id ==> St.SendOf(o.conn.streams, j) == St.SendOf(c.streams, j)
    ensures forall j :: St.RecvOf(o.conn.streams, j) == St.RecvOf(c.streams, j)
    ensures o.conn == c.(streams := o.conn.streams, rec := c.rec.(pending := o.conn.rec.pending))
    ensures o.conn.streams == c.streams.(streams := o.conn.streams.streams)
    ensures Valid(c) ==> Valid(o.conn)
  {
    var r := St.Reset(c.streams, c.rec.pending, c.side, id, errorCode);
    var c' := c.(streams := r.table, rec := c.rec.(pending := r.pending));
    Step(c', if r.dirty then ctx.(dirty := ctx.dirty + {c.handle}) else ctx)
  }

  /** The state `close` moves to. */
  function ClosedState(s: State, reason: CloseReason): State
    requires s != Unset && s != Drained
  {
    match s
    case Handshake => HandshakeFailed(reason)
    case Established => Closed(reason)
    case _ => s
  }

  datatype Step = Step(conn: Connection, ctx: Ctx)

  /** `close_common`: cancel the loss-detection alarm and start the close
      timer, which fires three RTOs from now. */
  function CloseCommon(c: Connection, ctx: Ctx, cfg: Config, now: nat): (o: Step)
    ensures o.conn == c.(rec := c.rec.(setLossDetection := Rec.Stop))
    ensures o.ctx == ctx.(io := ctx.io + [TimerStart(c.handle, Timer.Close, now + 3 * Rec.Rto(c.rec, cfg))])
    ensures now + 3 * Rec.Rto(c.rec, cfg) >= now + 3 * cfg.minRtoTimeout
    ensures Valid(c) ==> Valid(o.conn)
  {
    var closeAt := now + 3 * Rec.Rto(c.rec, cfg);
    Step(c.(rec := c.rec.(setLossDetection := Rec.Stop)), ctx.(io := ctx.io + [TimerStart(c.handle, Timer.Close, closeAt)]))
  }

  /** `close`: an application-initiated close. An open connection cancels
      its loss-detection alarm, starts the close timer at three RTOs,
      sends a close packet under a fresh packet number and re-arms the idle
      timer; in every case the application is recorded as having closed
      it. The source makes a drained connection unreachable here, unwraps
      the state, and its packet-number assertion fails at 2^62. */
  function Close(c: Connection, ctx: Ctx, cfg: Config, now: nat, errorCode: nat): (o: Step)
    requires c.state != Unset && c.state != Drained
    requires !IsClosed(c.state) ==> c.rec.largestSent + 1 < PacketNumberLimit
    ensures IsClosed(o.conn.state) && o.conn.appClosed && SameIdentity(c, o.conn)
    ensures c.state == Handshake ==> o.conn.state == HandshakeFailed(ApplicationClose(errorCode))
    ensures c.state == Established ==> o.conn.state == Closed(ApplicationClose(errorCode))
    ensures IsClosed(c.state) ==> o.conn == c.(appClosed := true) && o.ctx == ctx
    ensures !IsClosed(c.state) ==>
      && o.ctx.io == ctx.io + [
           TimerStart(c.handle, Timer.Close, now + 3 * Rec.Rto(c.rec, cfg)),
           Transmit(c.remote, CloseNotice(c.rec.largestSent + 1, ApplicationClose(errorCode)))]
      && now + 3 * Rec.Rto(c.rec, cfg) >= now + 3 * cfg.minRtoTimeout
      && o.conn.rec.setLossDetection == Rec.Stop
      && o.conn.rec.largestSent == c.rec.largestSent + 1
      && o.conn.setIdle == IdleTimer(cfg, c.params.idleTimeout, now)
      && o.ctx.dirty == ctx.dirty + {c.handle}
      && o.ctx.events == ctx.events
    ensures Valid(c) ==> Valid(o.conn)
  {
    var reason := ApplicationClose(errorCode);
    var s :=
      if IsClosed(c.state) then Step(c, ctx)
      else
        var closeAt := now + 3 * Rec.Rto(c.rec, cfg);
        var number := c.rec.largestSent + 1;
        var c1 := c.(rec := c.rec.(setLossDetection := Rec.Stop, largestSent := number));
        var ctx1 := ctx.(io := ctx.io + [TimerStart(c.handle, Timer.Close, closeAt), Transmit(c.remote, CloseNotice(number, reason))]);
        Step(ResetIdleTimeout(c1, cfg, now), ctx1.(dirty := ctx1.dirty + {c.handle}));
    Step(s.conn.(appClosed := true, state := ClosedState(c.state, reason)), s.ctx)
  }

  /** Closing twice is closing once: the second call changes nothing. */
  lemma CloseIdempotent(c: Connection, ctx: Ctx, cfg: Config, now1: nat, now2: nat, e1: nat, e2: nat)
    requires c.state != Unset && c.state != Drained
    requires !IsClosed(c.state) ==> c.rec.largestSent + 1 < PacketNumberLimit
    ensures var once := Close(c, ctx, cfg, now1, e1);
      once.conn.state != Drained &&
      Close(once.conn, once.ctx, cfg, now2, e2) == once
  {
  }

  /** The tail-loss-probe branch of `check_packet_loss`: one probe packet. */
  function TailLossProbe(c: Connection, ctx: Ctx, cfg: Config, now: nat, probeBytes: nat): (o: Step)
    requires Rec.Valid(c.rec) && c.rec.largestSent + 1 < PacketNumberLimit
    ensures Rec.Valid(o.conn.rec)
    ensures o.conn == c.(rec := o.conn.rec, setIdle := o.conn.setIdle)
    ensures o.ctx == ctx.(io := ctx.io + [Transmit(c.remote, Probe(c.rec.largestSent + 1))])
    ensures o.conn.rec.tlpCount == c.rec.tlpCount + 1
    ensures o.conn.rec.sent == c.rec.sent[c.rec.largestSent + 1 := Rec.SentPacket(now, probeBytes, false, {}, Empty())]
    ensures o.conn.rec.bytesInFlight == c.rec.bytesInFlight + probeBytes
    ensures o.conn.setIdle == IdleTimer(cfg, c.params.idleTimeout, now)
  {
    var r1 := Rec.SendProbe(c.rec, cfg, now, probeBytes).value;
    var ctx1 := ctx.(io := ctx.io + [Transmit(c.remote, Probe(c.rec.largestSent + 1))]);
    var c1 := ResetIdleTimeout(c.(rec := r1), cfg, now);
    Step(c1.(rec := c1.rec.(tlpCount := c.rec.tlpCount + 1)), ctx1)
  }

  /** The RTO branch of `check_packet_loss`: two probe packets, and the
      first RTO of a series remembers the largest packet sent before it. */
  function RetransmissionTimeout(c: Connection, ctx: Ctx, cfg: Config, now: nat, probeBytes: nat): (o: Step)
    requires Rec.Valid(c.rec) && c.rec.largestSent + 2 < PacketNumberLimit
    ensures Rec.Valid(o.conn.rec)
    ensures o.conn == c.(rec := o.conn.rec, setIdle := o.conn.setIdle)
    ensures o.ctx == ctx.(io := ctx.io + [Transmit(c.remote, Probe(c.rec.largestSent + 1)),
                                          Transmit(c.remote, Probe(c.rec.largestSent + 2))])
    ensures o.conn.rec.rtoCount == c.rec.rtoCount + 1
    ensures o.conn.rec.largestSentBeforeRto == (if c.rec.rtoCount == 0 then c.rec.largestSent else c.rec.largestSentBeforeRto)
    ensures o.conn.rec.bytesInFlight == c.rec.bytesInFlight + 2 * probeBytes
    ensures o.conn.rec.largestSent == c.rec.largestSent + 2
    ensures o.conn.setIdle == IdleTimer(cfg, c.params.idleTimeout, now)
  {
    var r0 := if c.rec.rtoCount == 0 then c.rec.(largestSentBeforeRto := c.rec.largestSent) else c.rec;
    var r1 := Rec.SendProbe(r0, cfg, now, probeBytes).value;
    var r2 := Rec.SendProbe(r1, cfg, now, probeBytes).value;
    var ctx1 := ctx.(io := ctx.io + [Transmit(c.remote, Probe(c.rec.largestSent + 1)), Transmit(c.remote, Probe(c.rec.largestSent + 2))]);
    var c1 := ResetIdleTimeout(c.(rec := r2), cfg, now);
    Step(c1.(rec := c1.rec.(rtoCount := c.rec.rtoCount + 1)), ctx1)
  }

  /** What the loss-detection alarm does, in the order `check_packet_loss`
      tries the cases. */
  datatype LossAction = RetransmitHandshakes | DetectLosses | SendTailLossProbe | FireRto

  function NextLossAction(r: Rec.Recovery, cfg: Config): (a: LossAction)
    ensures a == RetransmitHandshakes <==> r.awaitingHandshake
    ensures a == SendTailLossProbe ==> r.tlpCount < cfg.maxTlps
    ensures a == FireRto ==> r.tlpCount >= cfg.maxTlps
  {
    if r.awaitingHandshake then RetransmitHandshakes
    else if r.lossTime != 0 then DetectLosses
    else if r.tlpCount < cfg.maxTlps then SendTailLossProbe
    else FireRto
  }

  /** The alarm `set_loss_detection_alarm` arms and the case
      `check_packet_loss` takes when it fires agree: the alarm fires at
      the deadline of exactly the action the handler then performs. */
  lemma AlarmMatchesAction(r: Rec.Recovery, cfg: Config)
    requires r.bytesInFlight > 0
    ensures var t := Rec.LossAlarm(r, cfg);
      && t.Start?
      && (NextLossAction(r, cfg) == RetransmitHandshakes ==>
            t.time == r.timeOfLastSentHandshake + Rec.HandshakeTimeout(r, cfg))
      && (NextLossAction(r, cfg) == DetectLosses ==> t.time == r.lossTime)
      && (NextLossAction(r, cfg) == SendTailLossProbe ==>
            t.time == r.timeOfLastSentRetransmittable + Min(Rec.Rto(r, cfg), Rec.TlpTimeout(r, cfg)))
      && (NextLossAction(r, cfg) == FireRto ==>
            t.time == r.timeOfLastSentRetransmittable + Rec.Rto(r, cfg))
  {
  }

  /** The action-specific part of `check_packet_loss`. */
  function LossActionStep(c: Connection, ctx: Ctx, cfg: Config, now: nat, probeBytes: nat): (o: Step)
    requires Rec.Valid(c.rec) && Sane(cfg) && Rec.ClockAfterSends(c.rec, now)
    requires c.rec.largestSent + 2 < PacketNumberLimit
    ensures Rec.Valid(o.conn.rec)
    ensures o.conn == c.(rec := o.conn.rec, setIdle := o.conn.setIdle)
    ensures NextLossAction(c.rec, cfg) == RetransmitHandshakes ==>
      && o.ctx == ctx
      && (forall k :: k in o.conn.rec.sent <==> k in c.rec.sent && !c.rec.sent[k].handshake)
      && o.conn.rec.handshakeCount == c.rec.handshakeCount + 1
    ensures NextLossAction(c.rec, cfg) == DetectLosses ==>
      o.ctx == ctx && o.conn.setIdle == c.setIdle &&
      o.conn.rec == Rec.DetectLostPackets(c.rec, cfg, now, c.rec.largestAcked)
    ensures NextLossAction(c.rec, cfg) == SendTailLossProbe ==>
      o == TailLossProbe(c, ctx, cfg, now, probeBytes)
    ensures NextLossAction(c.rec, cfg) == FireRto ==>
      o == RetransmissionTimeout(c, ctx, cfg, now, probeBytes)
  {
    match NextLossAction(c.rec, cfg)
    case RetransmitHandshakes => Step(c.(rec := Rec.RetransmitHandshake(c.rec)), ctx)
    case DetectLosses => Step(c.(rec := Rec.DetectLostPackets(c.rec, cfg, now, c.rec.largestAcked)), ctx)
    case SendTailLossProbe => TailLossProbe(c, ctx, cfg, now, probeBytes)
    case FireRto => RetransmissionTimeout(c, ctx, cfg, now, probeBytes)
  }

  /** `check_packet_loss`: the loss-detection alarm fired. Awaiting a
      handshake acknowledgement, all handshake packets are retransmitted;
      with a pending loss time, loss detection runs; otherwise a tail-loss
      probe or, once `max_tlps` probes went unanswered, an RTO is sent
      (see `TailLossProbe` and `RetransmissionTimeout`). `probeBytes` is
      the size of a probe packet, whose encoding is not modelled. */
  function CheckPacketLoss(c: Connection, ctx: Ctx, cfg: Config, now: nat, probeBytes: nat): (o: Step)
    requires Rec.Valid(c.rec) && Sane(cfg) && Rec.ClockAfterSends(c.rec, now)
    requires c.rec.largestSent + 2 < PacketNumberLimit
    ensures Rec.Valid(o.conn.rec)
    ensures o.conn == c.(rec := o.conn.rec, setIdle := o.conn.setIdle)
    ensures o.conn.rec.setLossDetection.Stop? <==> o.conn.rec.bytesInFlight == 0
    ensures o.ctx.dirty == ctx.dirty + {c.handle} && o.ctx.events == ctx.events
  {
    RearmLossAlarm(LossActionStep(c, ctx, cfg, now, probeBytes), cfg, c.handle)
  }

  /** Awaiting the handshake, the alarm drops every handshake packet from
      the sent map for retransmission and transmits nothing itself. */
  lemma CheckPacketLossHandshake(c: Connection, ctx: Ctx, cfg: Config, now: nat, probeBytes: nat)
    requires Rec.Valid(c.rec) && Sane(cfg) && Rec.ClockAfterSends(c.rec, now)
    requires c.rec.largestSent + 2 < PacketNumberLimit
    requires NextLossAction(c.rec, cfg) == RetransmitHandshakes
    ensures var o := CheckPacketLoss(c, ctx, cfg, now, probeBytes);
      && o.ctx.io == ctx.io && o.conn.rec.handshakeCount == c.rec.handshakeCount + 1
      && (forall k :: k in o.conn.rec.sent <==> k in c.rec.sent && !c.rec.sent[k].handshake)
  {
    var s := LossActionStep(c, ctx, cfg, now, probeBytes);
    assert RearmLossAlarm(s, cfg, c.handle) == CheckPacketLoss(c, ctx, cfg, now, probeBytes);
  }

  /** With a loss time pending, the alarm only runs loss detection. */
  lemma CheckPacketLossDetect(c: Connection, ctx: Ctx, cfg: Config, now: nat, probeBytes: nat)
    requires Rec.Valid(c.rec) && Sane(cfg) && Rec.ClockAfterSends(c.rec, now)
    requires c.rec.largestSent + 2 < PacketNumberLimit
    requires NextLossAction(c.rec, cfg) == DetectLosses
    ensures var o := CheckPacketLoss(c, ctx, cfg, now, probeBytes);
      o.ctx.io == ctx.io && o.conn.setIdle == c.setIdle
  {
    var s := LossActionStep(c, ctx, cfg, now, probeBytes);
    assert RearmLossAlarm(s, cfg, c.handle) == CheckPacketLoss(c, ctx, cfg, now, probeBytes);
  }

  /** A tail-loss probe sends one packet with the next number. */
  lemma CheckPacketLossProbe(c: Connection, ctx: Ctx, cfg: Config, now: nat, probeBytes: nat)
    requires Rec.Valid(c.rec) && Sane(cfg) && Rec.ClockAfterSends(c.rec, now)
    requires c.rec.largestSent + 2 < PacketNumberLimit
    requires NextLossAction(c.rec, cfg) == SendTailLossProbe
    ensures var o := CheckPacketLoss(c, ctx, cfg, now, probeBytes);
      && o.ctx.io == ctx.io + [Transmit(c.remote, Probe(c.rec.largestSent + 1))]
      && o.conn.rec.tlpCount == c.rec.tlpCount + 1
  {
    var s := LossActionStep(c, ctx, cfg, now, probeBytes);
    assert s == TailLossProbe(c, ctx, cfg, now, probeBytes);
    assert RearmLossAlarm(s, cfg, c.handle) == CheckPacketLoss(c, ctx, cfg, now, probeBytes);
  }

  /** An RTO sends two probes with the next two numbers. */
  lemma CheckPacketLossRto(c: Connection, ctx: Ctx, cfg: Config, now: nat, probeBytes: nat)
    requires Rec.Valid(c.rec) && Sane(cfg) && Rec.ClockAfterSends(c.rec, now)
    requires c.rec.largestSent + 2 < PacketNumberLimit
    requires NextLossAction(c.rec, cfg) == FireRto
    ensures var o := CheckPacketLoss(c, ctx, cfg, now, probeBytes);
      && o.ctx.io == ctx.io + [Transmit(c.remote, Probe(c.rec.largestSent + 1)), Transmit(c.remote, Probe(c.rec.largestSent + 2))]
      && o.conn.rec.rtoCount == c.rec.rtoCount + 1
  {
    var s := LossActionStep(c, ctx, cfg, now, probeBytes);
    assert s == RetransmissionTimeout(c, ctx, cfg, now, probeBytes);
    assert RearmLossAlarm(s, cfg, c.handle) == CheckPacketLoss(c, ctx, cfg, now, probeBytes);
  }

  /** The common tail of `check_packet_loss`: re-arm the loss-detection
      alarm and mark the connection for flushing. */
  function RearmLossAlarm(s: Step, cfg: Config, handle: Handle): (o: Step)
    ensures o.conn == s.conn.(rec := o.conn.rec)
    ensures o.conn.rec == s.conn.rec.(setLossDetection := o.conn.rec.setLossDetection)
    ensures o.conn.rec.setLossDetection == Rec.LossAlarm(o.conn.rec, cfg)
    ensures o.conn.rec.setLossDetection.Stop? <==> o.conn.rec.bytesInFlight == 0
    ensures o.ctx == s.ctx.(dirty := s.ctx.dirty + {handle})
  {
    var rec := s.conn.rec.(setLossDetection := Rec.LossAlarm(s.conn.rec, cfg));
    Rec.LossAlarmIgnoresSetting(s.conn.rec, cfg, rec.setLossDetection);
    Step(s.conn.(rec := rec), s.ctx.(dirty := s.ctx.dirty + {handle}))
  }

  /** The key-phase check of `decrypt_packet` for a 1-RTT packet numbered
      `number` carrying key phase `phase`: flipping the phase with a packet
      no newer than the newest one received is a protocol violation;
      `decrypts` says whether the payload authenticates under the keys the
      phase selects (`Err(None)` drops the packet silently). */
  function CheckKeyPhase(c: Connection, phase: bool, number: nat, decrypts: bool): (r: Result<Connection, Option<TransportError>>)
    ensures r == Err(Some(ProtocolViolation)) <==> phase != c.keyPhase && number <= c.rxPacket
    ensures r.Ok? <==> decrypts && !(phase != c.keyPhase && number <= c.rxPacket)
    ensures r.Ok? ==> r.value == c.(keyPhase := phase)
    ensures r.Err? && r != Err(Some(ProtocolViolation)) ==> r == Err(None)
  {
    if phase != c.keyPhase then
      if number <= c.rxPacket then Err(Some(ProtocolViolation))
      else if !decrypts then Err(None)
      else Ok(c.(keyPhase := !c.keyPhase))
    else if !decrypts then Err(None)
    else Ok(c)
  }

  /** Once a packet under key phase `phase` is accepted, the connection
      is in that phase: further packets under it are never a protocol
      violation and are accepted exactly when they authenticate, whatever
      their numbers, while switching back with a packet no newer than the
      newest received is a violation. */
  lemma KeyPhaseSticks(c: Connection, phase: bool, first: nat, next: nat, decrypts: bool)
    requires CheckKeyPhase(c, phase, first, true).Ok?
    ensures var c1 := CheckKeyPhase(c, phase, first, true).value;
      && c1.keyPhase == phase && c1.rxPacket == c.rxPacket
      && CheckKeyPhase(c1, phase, next, decrypts) != Err(Some(ProtocolViolation))
      && (CheckKeyPhase(c1, phase, next, decrypts).Ok? <==> decrypts)
      && (next <= c.rxPacket ==> CheckKeyPhase(c1, !phase, next, decrypts) == Err(Some(ProtocolViolation)))
  {
  }
}

=== FILE: context.dfy ===
/** What a connection hands back to its endpoint: application events, I/O
    operations for the backend, the accept queue, and the sets of
    connections needing a flush or holding readable data. Datagram
    contents are described by what they carry, not by their bytes. */
module Context {
  import opened Quic

  /** Why a connection was closed: a transport error or an application
      error code (the reason phrase is not modelled). */
  datatype CloseReason =
    | ConnectionClose(error: TransportError)
    | ApplicationClose(code: nat)

  datatype ConnectionError =
    | VersionMismatch
    | TransportFailure(code: TransportError)
    | ConnectionClosed(reason: CloseReason)
    | ApplicationClosed(reason: CloseReason)
    | PeerReset
    | TimedOut

  datatype Event =
    | Connected
    | ConnectionLost(reason: ConnectionError)
    | ConnectionDrained
    | StreamReadable(stream: StreamId, first: bool)
    | StreamWritable(stream: StreamId)
    | StreamFinished(stream: StreamId)
    | StreamAvailable(directionality: Directionality)
    | NewSessionTicket

  datatype Timer = Close | LossDetection | Idle

  /** What a transmitted datagram carries. */
  datatype Datagram =
    | Probe(number: nat)
    | CloseNotice(number: nat, reason: CloseReason)
    | HandshakeClose(error: TransportError)
    | StatelessReset(padding: nat)

  datatype Io =
    | Transmit(destination: Addr, packet: Datagram)
    | TimerStart(connection: Handle, timer: Timer, time: nat)
    | TimerStop(connection: Handle, timer: Timer)

  /** The endpoint state a connection reads and appends to. */
  datatype Ctx = Ctx(
    io: seq<Io>,
    events: seq<(Handle, Event)>,
    incoming: seq<Handle>,
    incomingHandshakes: nat,
    dirty: set<Handle>,
    readable: set<Handle>)

  function EmptyCtx(): Ctx {
    Ctx([], [], [], 0, {}, {})
  }
}

=== FILE: endpoint.dfy ===
/** The endpoint: the table of connections and the three lookup maps that
    route incoming datagrams to them, admission of new connections from
    Initial packets, stateless resets for unknown connections, and the
    timer and close handling that eventually forgets a connection.

    Packet decoding, decryption and the TLS handshake are inputs: the
    caller says what kind of header a datagram has, whether an Initial
    packet authenticates, and what TLS made of it. Random values are
    inputs too. */
module Endpoint {
  import opened Wrappers
  import opened Quic
  import opened NatSets
  import opened Config
  import opened Context
  import Conn = Connection
  import Rec = Recovery

  /** The endpoint state. `listening` says whether the endpoint accepts
      connections (it holds listen keys); `localParams` are the transport
      parameters a new connection starts from and `minMtu` is the MTU it
      starts with. */
  datatype Endpoint = Endpoint(
    cfg: Config,
    listening: bool,
    localParams: Params,
    minMtu: nat,
    ctx: Ctx,
    connectionIdsInitial: map<Cid, Handle>,
    connectionIds: map<Cid, Handle>,
    connectionRemotes: map<Addr, Handle>,
    connections: map<Handle, Conn.Connection>)

  /** The endpoint invariant: every lookup entry leads to a live connection
      whose own identifier or address is the key; local identifiers are
      only indexed when they are non-empty; every connection knows its
      handle and is itself consistent; and the accept buffer is not
      overfull. */
  ghost predicate Valid(e: Endpoint) {
    && ValidCidLen(e.cfg.localCidLen) && Sane(e.cfg) && e.minMtu > 0
    && (e.cfg.localCidLen == 0 ==> e.connectionIds == map[])
    && (forall k :: k in e.connectionIds ==>
          e.connectionIds[k] in e.connections && e.connections[e.connectionIds[k]].locCid == k)
    && (forall k :: k in e.connectionIdsInitial ==>
          e.connectionIdsInitial[k] in e.connections &&
          e.connections[e.connectionIdsInitial[k]].initCid == k &&
          e.connections[e.connectionIdsInitial[k]].side == Server)
    && (forall a :: a in e.connectionRemotes ==>
          e.connectionRemotes[a] in e.connections && e.connections[e.connectionRemotes[a]].remote == a)
    && (forall h :: h in e.connections ==> e.connections[h].handle == h && Conn.Valid(e.connections[h]))
    && |e.ctx.incoming| + e.ctx.incomingHandshakes <= e.cfg.acceptBuffer
  }

  /** `Endpoint::new`: `None` stands for the assertion that rejects a
      local connection-identifier length other than zero or one within
      [MinCidSize, MaxCidSize]. */
  function New(cfg: Config, listening: bool, localParams: Params, minMtu: nat): (e: Option<Endpoint>)
    requires Sane(cfg) && minMtu > 0
    ensures e.Some? <==> (cfg.localCidLen == 0 || cfg.localCidLen >= MinCidSize) && cfg.localCidLen <= MaxCidSize
    ensures e.Some? ==> Valid(e.value) && e.value.connections == map[] && e.value.ctx == EmptyCtx()
  {
    if ValidCidLen(cfg.localCidLen) then
      Some(Endpoint(cfg, listening, localParams, minMtu, EmptyCtx(), map[], map[], map[], map[]))
    else None
  }

  /** The connection an incoming datagram belongs to: looked up by
      destination identifier among local identifiers (only when local
      identifiers are in use), then among the identifiers clients chose
      for their Initial packets, then by the sender's address. */
  function Route(e: Endpoint, dstCid: Cid, remote: Addr): (h: Option<Handle>)
    ensures e.cfg.localCidLen > 0 && dstCid in e.connectionIds ==> h == Some(e.connectionIds[dstCid])
    ensures !(e.cfg.localCidLen > 0 && dstCid in e.connectionIds) && dstCid in e.connectionIdsInitial ==>
      h == Some(e.connectionIdsInitial[dstCid])
    ensures !(e.cfg.localCidLen > 0 && dstCid in e.connectionIds) && dstCid !in e.connectionIdsInitial ==>
      h == (if remote in e.connectionRemotes then Some(e.connectionRemotes[remote]) else None)
    ensures Valid(e) && h.Some? ==> h.value in e.connections
  {
    if e.cfg.localCidLen > 0 && dstCid in e.connectionIds then Some(e.connectionIds[dstCid])
    else if dstCid in e.connectionIdsInitial then Some(e.connectionIdsInitial[dstCid])
    else if remote in e.connectionRemotes then Some(e.connectionRemotes[remote])
    else None
  }

  /** Without local identifiers the local-identifier map plays no part in
      routing, whatever it holds. */
  lemma RouteIgnoresIdsWithoutLocalCid(e: Endpoint, ids: map<Cid, Handle>, dstCid: Cid, remote: Addr)
    requires e.cfg.localCidLen == 0
    ensures Route(e.(connectionIds := ids), dstCid, remote) == Route(e, dstCid, remote)
  {
  }

  /** An address lookup never overrides an identifier lookup: a datagram
      whose identifier is known reaches that connection wherever it comes
      from. */
  lemma RouteIdentifierFirst(e: Endpoint, dstCid: Cid, r1: Addr, r2: Addr)
    requires (e.cfg.localCidLen > 0 && dstCid in e.connectionIds) || dstCid in e.connectionIdsInitial
    ensures Route(e, dstCid, r1) == Route(e, dstCid, r2)
  {
  }

  /** How the header of a datagram for an unknown connection starts. */
  datatype Form = Short | LongInitial | LongOther

  /** What `handle_decode` does with a datagram. */
  datatype Disposition =
    | Deliver(handle: Handle)
    | Dropped
    | AcceptInitial
    | SentReset(padding: nat)

  datatype Decoded = Decoded(endpoint: Endpoint, disposition: Disposition)

  /** The header length a stateless reset's padding is budgeted against:
      one flags byte, the longest identifier and one packet-number byte. */
  const ResetHeaderLen: nat := 1 + MaxCidSize + 1

  /** The length of the short header a stateless reset actually carries:
      its packet number is written as a `PacketNumber::U32`, four bytes. */
  const SentResetHeaderLen: nat := 1 + MaxCidSize + 4

  /** The exclusive bound on a stateless reset's padding for a datagram of
      `len` bytes: what is left of the datagram after the budgeted header
      and the token, but never less than eight bytes. */
  function PaddingBound(len: nat): (b: nat)
    ensures b >= 8
    ensures len >= ResetHeaderLen + ResetTokenSize + 8 ==> b == len - ResetHeaderLen - ResetTokenSize
    ensures len < ResetHeaderLen + ResetTokenSize + 8 ==> b == 8
  {
    SaturatingSub(Max(ResetTokenSize + 8, SaturatingSub(len, ResetHeaderLen)), ResetTokenSize)
  }

  /** The padding drawn for a stateless reset; `rand` is the random draw. */
  function ResetPadding(len: nat, rand: nat): (p: nat)
    ensures p < PaddingBound(len)
  {
    rand % PaddingBound(len)
  }

  /** The budgeted size of a stateless reset with `padding` bytes of
      padding (the capacity the source reserves for it). */
  function ResetSize(padding: nat): nat {
    ResetHeaderLen + padding + ResetTokenSize
  }

  /** The size of the stateless reset actually sent with `padding` bytes of
      padding. */
  function SentResetSize(padding: nat): nat {
    SentResetHeaderLen + padding + ResetTokenSize
  }

  /** The budgeted size of a stateless reset is below the length of the
      datagram that caused it, or when that datagram was tiny, below a fixed
      44 bytes. */
  lemma ResetDoesNotAmplify(len: nat, rand: nat)
    ensures ResetSize(ResetPadding(len, rand)) < Max(len, ResetHeaderLen + ResetTokenSize + 8)
    ensures len >= ResetHeaderLen + ResetTokenSize + 8 ==> ResetSize(ResetPadding(len, rand)) < len
  {
  }

  /** The reset actually sent carries three more header bytes than were
      budgeted, so it can exceed the datagram that caused it by up to two
      bytes (and a tiny datagram draws up to 46); the largest draw reaches
      that bound. */
  lemma SentResetOverrun(len: nat, rand: nat)
    ensures SentResetSize(ResetPadding(len, rand)) == ResetSize(ResetPadding(len, rand)) + 3
    ensures SentResetSize(ResetPadding(len, rand)) <= Max(len, ResetHeaderLen + ResetTokenSize + 8) + 2
    ensures len >= ResetHeaderLen + ResetTokenSize + 8 ==>
      SentResetSize(ResetPadding(len, PaddingBound(len) - 1)) == len + 2
  {
  }

  /** `handle_decode`: a datagram for a known connection is delivered to
      it. Otherwise a non-listening endpoint drops it; an Initial packet
      shorter than the minimum initial size is dropped and a long enough
      one goes on to admission; other long-header packets are dropped; a
      short-header packet with a non-empty destination identifier is
      answered with a stateless reset, one without is dropped. `rand` is
      the random draw for the padding. */
  function HandleDecode(e: Endpoint, remote: Addr, dstCid: Cid, form: Form, len: nat, rand: nat): (o: Decoded)
    ensures Route(e, dstCid, remote).Some? ==> o == Decoded(e, Deliver(Route(e, dstCid, remote).value))
    ensures o.disposition.AcceptInitial? <==>
      Route(e, dstCid, remote).None? && e.listening && form == LongInitial && len >= MinInitialSize
    ensures o.disposition.SentReset? <==>
      Route(e, dstCid, remote).None? && e.listening && form == Short && dstCid != []
    ensures o.disposition.SentReset? ==>
      && o.disposition.padding < PaddingBound(len)
      && o.endpoint == e.(ctx := e.ctx.(io := e.ctx.io + [Transmit(remote, StatelessReset(o.disposition.padding))]))
    ensures !o.disposition.SentReset? ==> o.endpoint == e
  {
    match Route(e, dstCid, remote)
    case Some(h) => Decoded(e, Deliver(h))
    case None =>
      if !e.listening then Decoded(e, Dropped)
      else
        match form
        case LongInitial =>
          if len < MinInitialSize then Decoded(e, Dropped) else Decoded(e, AcceptInitial)
        case LongOther => Decoded(e, Dropped)
        case Short =>
          if dstCid == [] then Decoded(e, Dropped)
          else
            var padding := ResetPadding(len, rand);
            Decoded(e.(ctx := e.ctx.(io := e.ctx.io + [Transmit(remote, StatelessReset(padding))])), SentReset(padding))
  }

  /** `new_cid`: the first of the random `candidates` (each of the local
      identifier length) that no connection uses; `None` only when every
      candidate is taken. Without local identifiers the map is empty, so
      the first candidate is taken and the source's assertion never
      fails. */
  method NewCid(e: Endpoint, candidates: seq<Cid>) returns (cid: Option<Cid>)
    requires forall i :: 0 <= i < |candidates| ==> |candidates[i]| == e.cfg.localCidLen
    ensures cid.Some? ==> cid.value !in e.connectionIds && |cid.value| == e.cfg.localCidLen
    ensures cid.Some? ==>
      exists i :: 0 <= i < |candidates| && candidates[i] == cid.value &&
        forall j :: 0 <= j < i ==> candidates[j] in e.connectionIds
    ensures cid.None? <==> forall i :: 0 <= i < |candidates| ==> candidates[i] in e.connectionIds
    ensures Valid(e) && e.cfg.localCidLen == 0 && candidates != [] ==> cid == Some(candidates[0])
  {
    var i := 0;
    while i < |candidates|
      invariant 0 <= i <= |candidates|
      invariant forall j :: 0 <= j < i ==> candidates[j] in e.connectionIds
    {
      if candidates[i] !in e.connectionIds {
        return Some(candidates[i]);
      }
      i := i + 1;
    }
    return None;
  }

  /** A handle no connection holds. The slab in the source picks some
      vacant slot; this model picks one above every handle in use. */
  function FreshHandle(used: set<Handle>): (h: Handle)
    ensures h !in used
  {
    if used == {} then 0
    else
      AscendingLast(used);
      Ascending(used)[|Ascending(used)| - 1] + 1
  }

  /** The accept buffer is full. */
  predicate Full(e: Endpoint) {
    |e.ctx.incoming| + e.ctx.incomingHandshakes == e.cfg.acceptBuffer
  }

  /** What TLS makes of the first Initial packet: no handshake data in
      it, a failed handshake, or a handshake that produced the client's
      transport parameters. */
  datatype TlsOutcome = NoInitialFrame | TlsRejected | Accepted(params: Params)

  /** `add_connection` followed by indexing the connection under the
      identifier the client chose: a new server connection reachable by
      that identifier, by its local identifier (when those are in use) and
      by address. */
  function Admit(e: Endpoint, initCid: Cid, locCid: Cid, remCid: Cid, remote: Addr): (o: Endpoint)
    requires Sane(e.cfg) && e.minMtu > 0
    ensures var h := FreshHandle(e.connections.Keys);
      && o.connections == e.connections[h := Conn.New(e.cfg, Server, h, initCid, locCid, remCid, remote, e.localParams, e.minMtu)]
      && o.connectionRemotes == e.connectionRemotes[remote := h]
      && o.connectionIdsInitial == e.connectionIdsInitial[initCid := h]
      && (e.cfg.localCidLen > 0 ==> o.connectionIds == e.connectionIds[locCid := h])
      && (e.cfg.localCidLen == 0 ==> o.connectionIds == e.connectionIds)
    ensures o == e.(connections := o.connections, connectionIds := o.connectionIds,
                    connectionIdsInitial := o.connectionIdsInitial, connectionRemotes := o.connectionRemotes)
  {
    var h := FreshHandle(e.connections.Keys);
    var c := Conn.New(e.cfg, Server, h, initCid, locCid, remCid, remote, e.localParams, e.minMtu);
    e.(
      connections := e.connections[h := c],
      connectionIds := if e.cfg.localCidLen > 0 then e.connectionIds[locCid := h] else e.connectionIds,
      connectionIdsInitial := e.connectionIdsInitial[initCid := h],
      connectionRemotes := e.connectionRemotes[remote := h])
  }

  /** Admitting a connection under a local identifier nobody uses keeps
      the endpoint consistent, provided the accept buffer stays bounded. */
  lemma AdmitValid(e: Endpoint, initCid: Cid, locCid: Cid, remCid: Cid, remote: Addr)
    requires Valid(e) && locCid !in e.connectionIds && |locCid| == e.cfg.localCidLen
    ensures Valid(Admit(e, initCid, locCid, remCid, remote))
  {
    var h := FreshHandle(e.connections.Keys);
    var o := Admit(e, initCid, locCid, remCid, remote);
    forall k | k in o.connectionIds
      ensures o.connectionIds[k] in o.connections && o.connections[o.connectionIds[k]].locCid == k
    {
      if k != locCid { assert k in e.connectionIds; }
    }
    forall k | k in o.connectionIdsInitial
      ensures o.connectionIdsInitial[k] in o.connections
      ensures o.connections[o.connectionIdsInitial[k]].initCid == k
      ensures o.connections[o.connectionIdsInitial[k]].side == Server
    {
      if k != initCid { assert k in e.connectionIdsInitial; }
    }
    forall a | a in o.connectionRemotes
      ensures o.connectionRemotes[a] in o.connections && o.connections[o.connectionRemotes[a]].remote == a
    {
      if a != remote { assert a in e.connectionRemotes; }
    }
  }

  /** What the endpoint does with the TLS outcome for the newly admitted
      connection `h`: a failed handshake is answered with
      TLS_HANDSHAKE_FAILED; a successful one (`handshake_complete`) puts
      the connection in the handshake state, adopts the client's
      parameters, marks the connection for flushing and counts as an
      incoming handshake. A failed or absent handshake leaves the
      connection as it was, without a state. */
  function Handshake(e: Endpoint, h: Handle, remote: Addr, tls: TlsOutcome): (o: Endpoint)
    requires h in e.connections
    ensures h in o.connections && OthersKept(e, o, h)
    ensures o.connections.Keys == e.connections.Keys
    ensures Conn.SameIdentity(e.connections[h], o.connections[h])
    ensures o == e.(connections := o.connections, ctx := o.ctx)
    ensures tls.Accepted? ==>
      && o.connections[h].state == Conn.Handshake
      && o.connections[h].maxData == tls.params.initialMaxData
      && o.connections[h].params == tls.params
      && o.ctx == e.ctx.(dirty := e.ctx.dirty + {h}, incomingHandshakes := e.ctx.incomingHandshakes + 1)
    ensures tls.TlsRejected? ==>
      o.connections == e.connections &&
      o.ctx == e.ctx.(io := e.ctx.io + [Transmit(remote, HandshakeClose(TlsHandshakeFailed))])
    ensures tls.NoInitialFrame? ==> o == e
  {
    match tls
    case NoInitialFrame => e
    case TlsRejected =>
      e.(ctx := e.ctx.(io := e.ctx.io + [Transmit(remote, HandshakeClose(TlsHandshakeFailed))]))
    case Accepted(params) =>
      var c := Conn.SetParams(e.connections[h], params).(state := Conn.Handshake);
      e.(connections := e.connections[h := c],
         ctx := e.ctx.(dirty := e.ctx.dirty + {h}, incomingHandshakes := e.ctx.incomingHandshakes + 1))
  }

  /** `handle_initial`: an Initial packet that does not authenticate is
      ignored. With a full accept buffer the client is refused with
      SERVER_BUSY and no connection is added. Otherwise a connection is
      admitted under a handle no connection holds, indexed by the
      identifier the client chose and by address, and the TLS outcome is
      handled (`Handshake`). `locCid` is what `new_cid` chose. */
  function HandleInitial(e: Endpoint, remote: Addr, dstCid: Cid, srcCid: Cid, decrypts: bool,
                         locCid: Cid, tls: TlsOutcome): (o: Endpoint)
    requires Sane(e.cfg) && e.minMtu > 0
    ensures !decrypts ==> o == e
    ensures decrypts && Full(e) ==>
      o == e.(ctx := e.ctx.(io := e.ctx.io + [Transmit(remote, HandshakeClose(ServerBusy))]))
    ensures decrypts && !Full(e) ==>
      o == Handshake(Admit(e, dstCid, locCid, srcCid, remote), FreshHandle(e.connections.Keys), remote, tls)
  {
    if !decrypts then e
    else if Full(e) then
      e.(ctx := e.ctx.(io := e.ctx.io + [Transmit(remote, HandshakeClose(ServerBusy))]))
    else
      Handshake(Admit(e, dstCid, locCid, srcCid, remote), FreshHandle(e.connections.Keys), remote, tls)
  }

  /** With room in the accept buffer, `handle_initial` adds exactly one
      server connection under a handle no connection held. It is in the
      handshake state exactly when TLS accepted the Initial; otherwise it
      has no state. */
  lemma HandleInitialAdmits(e: Endpoint, remote: Addr, dstCid: Cid, srcCid: Cid,
                            locCid: Cid, tls: TlsOutcome)
    requires Sane(e.cfg) && e.minMtu > 0 && !Full(e)
    ensures var o := HandleInitial(e, remote, dstCid, srcCid, true, locCid, tls);
      var h := FreshHandle(e.connections.Keys);
      && h !in e.connections
      && o.connections.Keys == e.connections.Keys + {h}
      && o.connections[h].side == Server
      && (o.connections[h].state == Conn.Handshake <==> tls.Accepted?)
      && (!tls.Accepted? ==> o.connections[h].state == Conn.Unset)
  {
    var h := FreshHandle(e.connections.Keys);
    var e1 := Admit(e, dstCid, locCid, srcCid, remote);
    assert e1.connections[h].state == Conn.Unset && e1.connections[h].side == Server;
  }

  /** The admitted connection is reachable by the identifier the client
      chose and by its address. */
  lemma HandleInitialRoutes(e: Endpoint, remote: Addr, dstCid: Cid, srcCid: Cid,
                            locCid: Cid, tls: TlsOutcome)
    requires Sane(e.cfg) && e.minMtu > 0 && !Full(e)
    ensures var o := HandleInitial(e, remote, dstCid, srcCid, true, locCid, tls);
      var h := FreshHandle(e.connections.Keys);
      && o.connectionIdsInitial == e.connectionIdsInitial[dstCid := h]
      && o.connectionRemotes == e.connectionRemotes[remote := h]
  {
  }

  /** Admission leaves every existing connection as it was. */
  lemma HandleInitialKeepsOthers(e: Endpoint, remote: Addr, dstCid: Cid, srcCid: Cid,
                                 locCid: Cid, tls: TlsOutcome)
    requires Sane(e.cfg) && e.minMtu > 0 && !Full(e)
    ensures OthersKept(e, HandleInitial(e, remote, dstCid, srcCid, true, locCid, tls), FreshHandle(e.connections.Keys))
  {
    var h := FreshHandle(e.connections.Keys);
    var e1 := Admit(e, dstCid, locCid, srcCid, remote);
    var o := Handshake(e1, h, remote, tls);
    forall j | j in e.connections && j != h
      ensures j in o.connections && o.connections[j] == e.connections[j]
    {
      assert e1.connections[j] == e.connections[j];
    }
  }

  /** Admission keeps the endpoint consistent; in particular the accept
      buffer never overflows, because a full one refuses the client. */
  lemma HandleInitialValid(e: Endpoint, remote: Addr, dstCid: Cid, srcCid: Cid, decrypts: bool,
                           locCid: Cid, tls: TlsOutcome)
    requires Valid(e) && locCid !in e.connectionIds && |locCid| == e.cfg.localCidLen
    ensures Valid(HandleInitial(e, remote, dstCid, srcCid, decrypts, locCid, tls))
  {
    if decrypts && !Full(e) {
      var h := FreshHandle(e.connections.Keys);
      var e1 := Admit(e, dstCid, locCid, srcCid, remote);
      AdmitValid(e, dstCid, locCid, srcCid, remote);
      var o := Handshake(e1, h, remote, tls);
      if tls.Accepted? {
        assert Conn.Valid(o.connections[h]);
        assert Valid(WithConn(e1, h, o.connections[h]));
      }
    }
  }

  /** No lookup map leads to `h`. */
  predicate Unroutable(e: Endpoint, h: Handle) {
    && (forall k :: k in e.connectionIds ==> e.connectionIds[k] != h)
    && (forall k :: k in e.connectionIdsInitial ==> e.connectionIdsInitial[k] != h)
    && (forall a :: a in e.connectionRemotes ==> e.connectionRemotes[a] != h)
  }

  /** `forget`: drop a connection and every route to it: its client-chosen
      identifier (on a server), its local identifier (when those are in
      use) and its address; it also leaves the flush and readable sets.
      Entries under other keys stay. */
  function Forget(e: Endpoint, h: Handle): (o: Endpoint)
    requires h in e.connections
    ensures o.connections == e.connections - {h}
    ensures o.ctx == e.ctx.(dirty := e.ctx.dirty - {h}, readable := e.ctx.readable - {h})
    ensures forall k :: k in e.connectionIds && k != e.connections[h].locCid ==>
      k in o.connectionIds && o.connectionIds[k] == e.connectionIds[k]
    ensures forall k :: k in e.connectionIdsInitial && k != e.connections[h].initCid ==>
      k in o.connectionIdsInitial && o.connectionIdsInitial[k] == e.connectionIdsInitial[k]
    ensures forall a :: a in e.connectionRemotes && a != e.connections[h].remote ==>
      a in o.connectionRemotes && o.connectionRemotes[a] == e.connectionRemotes[a]
    ensures o == e.(connections := o.connections, ctx := o.ctx, connectionIds := o.connectionIds,
                    connectionIdsInitial := o.connectionIdsInitial, connectionRemotes := o.connectionRemotes)
  {
    var c := e.connections[h];
    e.(
      connectionIdsInitial := if c.side == Server then e.connectionIdsInitial - {c.initCid} else e.connectionIdsInitial,
      connectionIds := if e.cfg.localCidLen > 0 then e.connectionIds - {c.locCid} else e.connectionIds,
      connectionRemotes := e.connectionRemotes - {c.remote},
      ctx := e.ctx.(dirty := e.ctx.dirty - {h}, readable := e.ctx.readable - {h}),
      connections := e.connections - {h})
  }

  /** Forgetting keeps the endpoint consistent and leaves no route to
      the forgotten connection. */
  lemma ForgetValid(e: Endpoint, h: Handle)
    requires Valid(e) && h in e.connections
    ensures Valid(Forget(e, h)) && Unroutable(Forget(e, h), h)
  {
    var o := Forget(e, h);
    var c := e.connections[h];
    forall k | k in o.connectionIds
      ensures o.connectionIds[k] != h && o.connectionIds[k] in o.connections
    {
      assert e.connections[e.connectionIds[k]].locCid == k != c.locCid;
    }
    forall k | k in o.connectionIdsInitial
      ensures o.connectionIdsInitial[k] != h && o.connectionIdsInitial[k] in o.connections
    {
      assert e.connections[e.connectionIdsInitial[k]].initCid == k;
    }
    forall a | a in o.connectionRemotes
      ensures o.connectionRemotes[a] != h && o.connectionRemotes[a] in o.connections
    {
      assert e.connections[e.connectionRemotes[a]].remote == a != c.remote;
    }
  }

  /** A forgotten connection can no longer receive datagrams. */
  lemma ForgottenIsUnroutable(e: Endpoint, h: Handle, dstCid: Cid, remote: Addr)
    requires Valid(e) && h in e.connections
    ensures Route(Forget(e, h), dstCid, remote) != Some(h)
  {
    ForgetValid(e, h);
  }

  /** Every connection has a state, so reading it never fails. */
  ghost predicate StatesSet(e: Endpoint) {
    forall h :: h in e.connections ==> e.connections[h].state != Conn.Unset
  }

  /** A server handshake that fails, or an Initial without handshake data,
      leaves the new connection without a state yet reachable by the
      identifier the client chose: the client's next datagram to that
      identifier is delivered to it, and the state read that follows
      fails. */
  lemma FailedHandshakeStaysRoutable(e: Endpoint, remote: Addr, dstCid: Cid, srcCid: Cid,
                                     locCid: Cid, tls: TlsOutcome)
    requires Sane(e.cfg) && e.minMtu > 0 && !Full(e) && !tls.Accepted?
    requires dstCid !in e.connectionIds
    ensures var o := HandleInitial(e, remote, dstCid, srcCid, true, locCid, tls);
      var h := FreshHandle(e.connections.Keys);
      && Route(o, dstCid, remote) == Some(h)
      && o.connections[h].state == Conn.Unset
      && !StatesSet(o)
  {
    HandleInitialAdmits(e, remote, dstCid, srcCid, locCid, tls);
    HandleInitialRoutes(e, remote, dstCid, srcCid, locCid, tls);
  }

  /** `handle_initial` as evidently intended: a connection whose
      handshake fails or never starts is forgotten again, after the
      TLS_HANDSHAKE_FAILED answer where there is one. No connection
      without a state is ever left behind. */
  function HandleInitialCorrected(e: Endpoint, remote: Addr, dstCid: Cid, srcCid: Cid, decrypts: bool,
                                  locCid: Cid, tls: TlsOutcome): (o: Endpoint)
    requires Sane(e.cfg) && e.minMtu > 0
    ensures StatesSet(e) ==> StatesSet(o)
    ensures !(decrypts && !Full(e) && !tls.Accepted?) ==>
      o == HandleInitial(e, remote, dstCid, srcCid, decrypts, locCid, tls)
    ensures decrypts && !Full(e) && !tls.Accepted? ==>
      && o.connections == e.connections
      && o.ctx.io == HandleInitial(e, remote, dstCid, srcCid, decrypts, locCid, tls).ctx.io
  {
    var o := HandleInitial(e, remote, dstCid, srcCid, decrypts, locCid, tls);
    if decrypts && !Full(e) then
      var h := FreshHandle(e.connections.Keys);
      HandleInitialAdmits(e, remote, dstCid, srcCid, locCid, tls);
      HandleInitialKeepsOthers(e, remote, dstCid, srcCid, locCid, tls);
      if tls.Accepted? then o
      else
        CorrectedForgets(e, o, h);
        Forget(o, h)
    else o
  }

  /** Forgetting the one connection `o` added to `e` restores `e`'s
      connections. */
  lemma CorrectedForgets(e: Endpoint, o: Endpoint, h: Handle)
    requires h !in e.connections && h in o.connections
    requires o.connections.Keys == e.connections.Keys + {h} && OthersKept(e, o, h)
    ensures Forget(o, h).connections == e.connections
  {
    var f := Forget(o, h);
    assert f.connections.Keys == e.connections.Keys;
  }

  /** The corrected admission keeps the endpoint consistent, and after a
      failed or absent handshake nothing routes to the handle it used. */
  lemma HandleInitialCorrectedValid(e: Endpoint, remote: Addr, dstCid: Cid, srcCid: Cid, decrypts: bool,
                                    locCid: Cid, tls: TlsOutcome)
    requires Valid(e) && locCid !in e.connectionIds && |locCid| == e.cfg.localCidLen
    ensures var o := HandleInitialCorrected(e, remote, dstCid, srcCid, decrypts, locCid, tls);
      && Valid(o)
      && (decrypts && !Full(e) && !tls.Accepted? ==>
            && Unroutable(o, FreshHandle(e.connections.Keys))
            && Route(o, dstCid, remote) != Some(FreshHandle(e.connections.Keys)))
  {
    HandleInitialValid(e, remote, dstCid, srcCid, decrypts, locCid, tls);
    if decrypts && !Full(e) && !tls.Accepted? {
      var h := FreshHandle(e.connections.Keys);
      var o := HandleInitial(e, remote, dstCid, srcCid, decrypts, locCid, tls);
      HandleInitialAdmits(e, remote, dstCid, srcCid, locCid, tls);
      ForgetValid(o, h);
    }
  }

  /** Replace connection `h`. */
  function WithConn(e: Endpoint, h: Handle, c: Conn.Connection): (o: Endpoint)
    requires h in e.connections
    requires Conn.SameIdentity(e.connections[h], c)
    ensures o.connections == e.connections[h := c]
    ensures Valid(e) && Conn.Valid(c) ==> Valid(o)
  {
    e.(connections := e.connections[h := c])
  }

  /** Every connection other than `h` is still there, unchanged. */
  predicate OthersKept(e: Endpoint, o: Endpoint, h: Handle) {
    forall j :: j in e.connections && j != h ==> j in o.connections && o.connections[j] == e.connections[j]
  }

  /** The close timer of `h` fired: the idle timer stops and the
      application learns the connection drained; a connection the
      application closed is forgotten, any other one becomes `Drained`. */
  function CloseTimeout(e: Endpoint, h: Handle): (o: Endpoint)
    requires h in e.connections
    ensures o.ctx.events == e.ctx.events + [(h, ConnectionDrained)]
    ensures o.ctx.io == e.ctx.io + [TimerStop(h, Idle)]
    ensures h in o.connections <==> !e.connections[h].appClosed
    ensures h in o.connections ==> o.connections[h] == e.connections[h].(state := Conn.Drained)
    ensures h !in o.connections ==> o == Forget(e, h).(ctx := o.ctx)
    ensures OthersKept(e, o, h)
  {
    var c := e.connections[h];
    var e1 := e.(ctx := e.ctx.(io := e.ctx.io + [TimerStop(h, Idle)], events := e.ctx.events + [(h, ConnectionDrained)]));
    if c.appClosed then Forget(e1, h)
    else WithConn(e1, h, c.(state := Conn.Drained))
  }

  /** The idle timer of `h` fired: the connection closes as on a
      timeout — the loss alarm stops, the close timer starts, the
      connection drains, the application learns it timed out and the
      connection is marked for flushing. */
  function IdleTimeout(e: Endpoint, now: nat, h: Handle): (o: Endpoint)
    requires h in e.connections
    ensures h in o.connections
    ensures o.connections[h].state == Conn.Draining
    ensures o.connections[h].rec.setLossDetection == Rec.Stop
    ensures o.connections[h].rec.sent == e.connections[h].rec.sent
    ensures o.ctx.events == e.ctx.events + [(h, ConnectionLost(TimedOut))]
    ensures o.ctx.dirty == e.ctx.dirty + {h}
    ensures o.ctx.io == e.ctx.io + [TimerStart(e.connections[h].handle, Timer.Close, now + 3 * Rec.Rto(e.connections[h].rec, e.cfg))]
    ensures h in o.connections && o.connections == e.connections[h := o.connections[h]]
    ensures OthersKept(e, o, h)
  {
    var c := e.connections[h];
    var s := Conn.CloseCommon(c, e.ctx, e.cfg, now);
    var e1 := WithConn(e.(ctx := s.ctx), h, s.conn.(state := Conn.Draining));
    e1.(ctx := e1.ctx.(events := e1.ctx.events + [(h, ConnectionLost(TimedOut))], dirty := e1.ctx.dirty + {h}))
  }

  /** The loss-detection timer of `h` fired: `check_packet_loss` runs;
      `probeBytes` is the size of a probe packet. */
  function LossTimeout(e: Endpoint, now: nat, h: Handle, probeBytes: nat): (o: Endpoint)
    requires h in e.connections && Sane(e.cfg)
    requires Rec.Valid(e.connections[h].rec) && Rec.ClockAfterSends(e.connections[h].rec, now)
    requires e.connections[h].rec.largestSent + 2 < PacketNumberLimit
    ensures h in o.connections
    ensures o.connections[h].state == e.connections[h].state
    ensures o.connections[h].rec.setLossDetection.Stop? <==> o.connections[h].rec.bytesInFlight == 0
    ensures Rec.Valid(o.connections[h].rec)
    ensures o.ctx.events == e.ctx.events && o.ctx.dirty == e.ctx.dirty + {e.connections[h].handle}
    ensures h in o.connections && o.connections == e.connections[h := o.connections[h]]
    ensures OthersKept(e, o, h)
  {
    var c := e.connections[h];
    var s := Conn.CheckPacketLoss(c, e.ctx, e.cfg, now, probeBytes);
    WithConn(e.(ctx := s.ctx), h, s.conn)
  }

  /** Each connection of a consistent endpoint is itself consistent. */
  lemma ValidConnection(e: Endpoint, h: Handle)
    requires Valid(e) && h in e.connections
    ensures Sane(e.cfg) && Conn.Valid(e.connections[h]) && Rec.Valid(e.connections[h].rec)
    ensures e.connections[h].handle == h
  {
  }

  /** `timeout`: dispatch on the timer of `h` that fired. Every timer
      leaves the other connections alone and the endpoint consistent. */
  function Timeout(e: Endpoint, now: nat, h: Handle, timer: Timer, probeBytes: nat): (o: Endpoint)
    requires Valid(e) && h in e.connections
    requires timer == LossDetection ==>
      Rec.ClockAfterSends(e.connections[h].rec, now) && e.connections[h].rec.largestSent + 2 < PacketNumberLimit
    ensures Valid(o)
    ensures OthersKept(e, o, h)
    ensures timer != Timer.Close ==> h in o.connections
    ensures timer == Timer.Close ==> o.ctx.events == e.ctx.events + [(h, ConnectionDrained)]
    ensures timer == Idle ==> o.ctx.events == e.ctx.events + [(h, ConnectionLost(TimedOut))]
    ensures timer == LossDetection ==> o.ctx.events == e.ctx.events
  {
    match timer
    case Close => CloseTimeoutValid(e, h); CloseTimeout(e, h)
    case Idle => IdleTimeoutValid(e, now, h); IdleTimeout(e, now, h)
    case LossDetection =>
      ValidConnection(e, h);
      LossTimeoutValid(e, now, h, probeBytes);
      LossTimeout(e, now, h, probeBytes)
  }

  /** The close timer keeps the endpoint consistent. */
  lemma CloseTimeoutValid(e: Endpoint, h: Handle)
    requires Valid(e) && h in e.connections
    ensures Valid(CloseTimeout(e, h))
  {
    var c := e.connections[h];
    var e1 := e.(ctx := e.ctx.(io := e.ctx.io + [TimerStop(h, Idle)], events := e.ctx.events + [(h, ConnectionDrained)]));
    assert Valid(e1);
    if c.appClosed {
      ForgetValid(e1, h);
    } else {
      assert Valid(WithConn(e1, h, c.(state := Conn.Drained)));
    }
  }

  /** The idle timer keeps the endpoint consistent. */
  lemma IdleTimeoutValid(e: Endpoint, now: nat, h: Handle)
    requires Valid(e) && h in e.connections
    ensures Valid(IdleTimeout(e, now, h))
  {
    var c := e.connections[h];
    var s := Conn.CloseCommon(c, e.ctx, e.cfg, now);
    ValidWithCtx(e, s.ctx);
    var e1 := WithConn(e.(ctx := s.ctx), h, s.conn.(state := Conn.Draining));
    assert Valid(e1);
    ValidWithCtx(e1, e1.ctx.(events := e1.ctx.events + [(h, ConnectionLost(TimedOut))], dirty := e1.ctx.dirty + {h}));
  }

  /** The loss-detection timer keeps the endpoint consistent. */
  lemma LossTimeoutValid(e: Endpoint, now: nat, h: Handle, probeBytes: nat)
    requires Valid(e) && h in e.connections
    requires Rec.ClockAfterSends(e.connections[h].rec, now) && e.connections[h].rec.largestSent + 2 < PacketNumberLimit
    ensures Valid(LossTimeout(e, now, h, probeBytes))
  {
    var c := e.connections[h];
    ValidConnection(e, h);
    var s := Conn.CheckPacketLoss(c, e.ctx, e.cfg, now, probeBytes);
    assert Conn.Valid(s.conn);
    ValidWithCtx(e, s.ctx);
    assert Valid(WithConn(e.(ctx := s.ctx), h, s.conn));
  }

  /** Keeping the counters of the accept buffer, the endpoint stays
      consistent whatever else happens to its queues. */
  lemma ValidWithCtx(e: Endpoint, ctx: Ctx)
    requires Valid(e)
    requires ctx.incoming == e.ctx.incoming && ctx.incomingHandshakes == e.ctx.incomingHandshakes
    ensures Valid(e.(ctx := ctx))
  {
  }

  /** The application closes a connection that is not yet drained, as by
      the connection's `close`. */
  function CloseLive(e: Endpoint, now: nat, h: Handle, errorCode: nat): (o: Endpoint)
    requires h in e.connections && e.connections[h].state != Conn.Unset && e.connections[h].state != Conn.Drained
    requires !Conn.IsClosed(e.connections[h].state) ==> e.connections[h].rec.largestSent + 1 < PacketNumberLimit
    ensures h in o.connections
    ensures Conn.IsClosed(o.connections[h].state) && o.connections[h].state != Conn.Drained
    ensures o.connections[h].appClosed
    ensures h in o.connections && o.connections == e.connections[h := o.connections[h]]
    ensures OthersKept(e, o, h)
    ensures o.ctx.incoming == e.ctx.incoming && o.ctx.incomingHandshakes == e.ctx.incomingHandshakes
  {
    var c := e.connections[h];
    var s := Conn.Close(c, e.ctx, e.cfg, now, errorCode);
    WithConn(e.(ctx := s.ctx), h, s.conn)
  }

  /** Closing a live connection keeps the endpoint consistent. */
  lemma CloseLiveValid(e: Endpoint, now: nat, h: Handle, errorCode: nat)
    requires Valid(e) && h in e.connections && e.connections[h].state != Conn.Unset && e.connections[h].state != Conn.Drained
    requires !Conn.IsClosed(e.connections[h].state) ==> e.connections[h].rec.largestSent + 1 < PacketNumberLimit
    ensures Valid(CloseLive(e, now, h, errorCode))
  {
    var c := e.connections[h];
    var s := Conn.Close(c, e.ctx, e.cfg, now, errorCode);
    ValidWithCtx(e, s.ctx);
    assert Valid(WithConn(e.(ctx := s.ctx), h, s.conn));
  }

  /** `close` on the endpoint: closing a drained connection forgets it;
      any other connection is closed as by the connection's `close`. The
      source reads the state with `unwrap`, so it must be set. */
  function Close(e: Endpoint, now: nat, h: Handle, errorCode: nat): (o: Endpoint)
    requires Valid(e) && h in e.connections && e.connections[h].state != Conn.Unset
    requires !Conn.IsClosed(e.connections[h].state) ==> e.connections[h].rec.largestSent + 1 < PacketNumberLimit
    ensures Valid(o)
    ensures e.connections[h].state == Conn.Drained ==> h !in o.connections && Unroutable(o, h)
    ensures e.connections[h].state != Conn.Drained ==>
      && h in o.connections
      && Conn.IsClosed(o.connections[h].state) && o.connections[h].state != Conn.Drained
      && o.connections[h].appClosed
    ensures OthersKept(e, o, h)
  {
    if e.connections[h].state == Conn.Drained then ForgetValid(e, h); Forget(e, h)
    else CloseLiveValid(e, now, h, errorCode); CloseLive(e, now, h, errorCode)
  }

  /** The application's close followed by the close timer forgets the
      connection. */
  lemma CloseThenTimerForgets(e: Endpoint, now: nat, later: nat, h: Handle, errorCode: nat, probeBytes: nat)
    requires Valid(e) && h in e.connections && e.connections[h].state != Conn.Unset && e.connections[h].state != Conn.Drained
    requires !Conn.IsClosed(e.connections[h].state) ==> e.connections[h].rec.largestSent + 1 < PacketNumberLimit
    ensures var closed := Close(e, now, h, errorCode);
      h in closed.connections &&
      h !in Timeout(closed, later, h, Timer.Close, probeBytes).connections
  {
    var closed := Close(e, now, h, errorCode);
    assert closed.connections[h].appClosed;
  }

  /** An idle timeout drains the connection, its close timer marks it
      drained without forgetting it, and only the application's close then
      forgets it. */
  lemma IdleTimeoutLifecycle(e: Endpoint, now: nat, later: nat, last: nat, h: Handle, errorCode: nat, probeBytes: nat)
    requires Valid(e) && h in e.connections && !e.connections[h].appClosed
    ensures var idle := Timeout(e, now, h, Idle, probeBytes);
      var drained := Timeout(idle, later, h, Timer.Close, probeBytes);
      && h in drained.connections && drained.connections[h].state == Conn.Drained
      && h !in Close(drained, last, h, errorCode).connections
  {
    var idle := Timeout(e, now, h, Idle, probeBytes);
    assert idle.connections[h].appClosed == e.connections[h].appClosed;
  }
}

=== FILE: nat_sets.dfy ===
/** Finite sets of naturals visited in ascending order.

    The source keeps sent packets in a `BTreeMap<u64, SentPacket>` and
    iterates it in key order; `Ascending` gives the model that same order. */
module NatSets {

  /** `m` is the least element of `s`. */
  predicate IsLeast(s: set<nat>, m: nat) {
    m in s && forall x :: x in s ==> m <= x
  }

  /** `m` is the greatest element of `s`. */
  predicate IsGreatest(s: set<nat>, m: nat) {
    m in s && forall x :: x in s ==> x <= m
  }

  lemma {:induction false} LeastExists(s: set<nat>)
    requires s != {}
    ensures exists m :: IsLeast(s, m)
    decreases |s|
  {
    var x :| x in s;
    if s == {x} {
      assert IsLeast(s, x);
    } else {
      LeastExists(s - {x});
      var m :| IsLeast(s - {x}, m);
      var w := if x < m then x else m;
      forall y | y in s
        ensures w <= y
      {
        if y != x {
          assert y in s - {x};
        }
      }
      assert IsLeast(s, w);
    }
  }

  /** The least element of a non-empty set. */
  function Least(s: set<nat>): (m: nat)
    requires s != {}
    ensures IsLeast(s, m)
  {
    LeastExists(s);
    var m :| IsLeast(s, m); m
  }

  predicate StrictlyIncreasing(xs: seq<nat>) {
    forall i, j :: 0 <= i < j < |xs| ==> xs[i] < xs[j]
  }

  /** The elements of `s`, smallest first. */
  function Ascending(s: set<nat>): (xs: seq<nat>)
    ensures StrictlyIncreasing(xs)
    ensures forall x :: x in xs <==> x in s
    ensures |xs| == |s|
    decreases |s|
  {
    if s == {} then []
    else
      var m := Least(s);
      var rest := Ascending(s - {m});
      ConsAscending(s, m, rest);
      [m] + rest
  }

  lemma ConsAscending(s: set<nat>, m: nat, rest: seq<nat>)
    requires IsLeast(s, m)
    requires StrictlyIncreasing(rest)
    requires forall x :: x in rest <==> x in s - {m}
    requires |rest| == |s - {m}|
    ensures StrictlyIncreasing([m] + rest)
    ensures forall x :: x in [m] + rest <==> x in s
    ensures |[m] + rest| == |s|
  {
    var xs := [m] + rest;
    forall i, j | 0 <= i < j < |xs|
      ensures xs[i] < xs[j]
    {
      assert xs[j] == rest[j - 1];
      assert rest[j - 1] in rest;
      if i > 0 {
        assert xs[i] == rest[i - 1];
      }
    }
  }

  /** The last element of the ascending enumeration is the greatest. */
  lemma AscendingLast(s: set<nat>)
    requires s != {}
    ensures |Ascending(s)| > 0 && IsGreatest(s, Ascending(s)[|Ascending(s)| - 1])
  {
    var xs := Ascending(s);
    var g := xs[|xs| - 1];
    assert g in xs;
    forall x | x in s
      ensures x <= g
    {
      assert x in xs;
      var i :| 0 <= i < |xs| && xs[i] == x;
      assert i == |xs| - 1 || xs[i] < xs[|xs| - 1];
    }
  }
}

=== FILE: quic.dfy ===
/** Protocol-wide vocabulary shared by the connection and the endpoint:
    endpoint sides, stream directionality, the stream-identifier encoding,
    the transport error codes the core raises and the size constants.

    These definitions live in the crate root, which is not part of this
    model; the stream-identifier layout follows section 2.1 of the QUIC
    transport draft the crate implements (bit 0: initiator, bit 1:
    directionality, remaining bits: index). */
module Quic {

  type Byte = b: int | 0 <= b < 256

  /** A connection identifier: an opaque byte string. */
  type Cid = seq<Byte>

  /** A peer's socket address, opaque to the model. */
  type Addr = nat

  /** The index of a connection in the endpoint's slab. */
  type Handle = nat

  datatype Side = Client | Server

  function Opposite(s: Side): Side {
    match s
    case Client => Server
    case Server => Client
  }

  datatype Directionality = Bi | Uni

  type StreamId = nat

  function Initiator(id: StreamId): Side {
    if id % 2 == 0 then Client else Server
  }

  function Dir(id: StreamId): Directionality {
    if (id / 2) % 2 == 0 then Bi else Uni
  }

  function Index(id: StreamId): nat {
    id / 4
  }

  /** `StreamId::new`: pack initiator, directionality and index. */
  function MakeStreamId(initiator: Side, dir: Directionality, index: nat): (id: StreamId)
    ensures Initiator(id) == initiator
    ensures Dir(id) == dir
    ensures Index(id) == index
  {
    index * 4 + (if dir == Uni then 2 else 0) + (if initiator == Server then 1 else 0)
  }

  /** Every stream identifier is the packing of its own three fields, so
      the encoding is a bijection. */
  lemma StreamIdRoundTrip(id: StreamId)
    ensures MakeStreamId(Initiator(id), Dir(id), Index(id)) == id
  {
    var h := id / 2;
    assert id == 2 * h + id % 2;
    assert h == 2 * (h / 2) + h % 2;
    assert h / 2 == id / 4;
  }

  /** The cryptographic-handshake stream. */
  const TlsStream: StreamId := 0

  /** Transport error codes the modelled core can raise. */
  datatype TransportError =
    | ServerBusy
    | FlowControlError
    | StreamIdError
    | StreamStateError
    | FinalOffsetError
    | ProtocolViolation
    | UnsolicitedPathResponse
    | FrameError(frameType: nat)
    | TlsHandshakeFailed
    | TlsFatalAlertReceived

  /** Smallest and largest non-zero connection-identifier lengths. */
  const MinCidSize: nat := 4
  const MaxCidSize: nat := 18

  /** Length of a stateless-reset token. */
  const ResetTokenSize: nat := 16

  /** Smallest datagram that may carry a client Initial packet. */
  const MinInitialSize: nat := 1200

  /** Packet numbers must stay below 2^62. */
  const PacketNumberLimit: nat := 0x4000_0000_0000_0000

  /** 2^64, the modulus of the source's `u64` arithmetic. */
  const U64Modulus: nat := 0x1_0000_0000_0000_0000

  /** `u64::max_value()`. */
  const U64Max: nat := 0xFFFF_FFFF_FFFF_FFFF

  function Min(a: nat, b: nat): nat {
    if a <= b then a else b
  }

  function Max(a: nat, b: nat): nat {
    if a >= b then a else b
  }

  /** `a.saturating_sub(b)` on unsigned integers. */
  function SaturatingSub(a: nat, b: nat): nat {
    if a >= b then a - b else 0
  }

  /** 2^n, for the source's `2u64.pow(n)` back-off factors. */
  function Pow2(n: nat): (r: nat)
    ensures r >= 1
  {
    if n == 0 then 1 else 2 * Pow2(n - 1)
  }
}

=== FILE: receive.dfy ===
/** The frame handling of `process_payload`: what each frame of an
    authenticated packet does to the connection. The frames arrive already
    decoded; the codec is not part of this model. */
module Receive {
  import opened Wrappers
  import opened Quic
  import opened NatSets
  import opened Config
  import opened Retransmit
  import opened Context
  import opened Connection
  import Rec = Recovery
  import St = Streams

  /** The frames `process_payload` distinguishes, with the fields it reads.
      `Invalid` is a frame the decoder could not parse. */
  datatype Frame =
    | Padding
    | Ping
    | Ack(ack: Rec.Ack)
    | Stream(data: StreamFrame)
    | ConnectionCloseFrame(error: TransportError)
    | ApplicationCloseFrame(code: nat)
    | Invalid(frameType: nat)
    | PathChallengeFrame(token: nat)
    | PathResponseFrame(token: nat)
    | MaxData(bytes: nat)
    | MaxStreamData(id: StreamId, offset: nat)
    | MaxStreamId(id: StreamId)
    | RstStream(id: StreamId, errorCode: nat, finalOffset: nat)
    | DataBlocked(offset: nat)
    | StreamBlocked(id: StreamId, offset: nat)
    | StreamIdBlocked(id: StreamId)
    | StopSending(id: StreamId, errorCode: nat)
    | NewConnectionId

  /** The peer's CONNECTION_CLOSE or APPLICATION_CLOSE. */
  predicate IsClose(f: Frame) {
    f.ConnectionCloseFrame? || f.ApplicationCloseFrame?
  }

  /** Frames that are only logged. */
  predicate Inert(f: Frame) {
    f.Padding? || f.Ping? || f.DataBlocked? || f.StreamBlocked? || f.StreamIdBlocked?
  }

  /** The connection and context after some frames, and the verdict:
      `Ok(false)` to carry on, `Ok(true)` when the peer closed the
      connection, `Err` with the error that closes it. What a frame changed
      before failing stays changed. */
  datatype Processed = Processed(conn: Connection, ctx: Ctx, result: Result<bool, TransportError>)

  /** The offsets `lo` up to but excluding `hi`. */
  function Range(lo: nat, hi: nat): (r: set<nat>)
    ensures forall k :: k in r <==> lo <= k < hi
    decreases hi - lo
  {
    if hi <= lo then {} else {lo} + Range(lo + 1, hi)
  }

  /** The end offset of the data a STREAM frame carries. */
  function End(f: StreamFrame): nat {
    f.offset + |f.data|
  }

  /** A frame for `id` reaches a receive half: the peer may name the
      stream and it is still open. */
  predicate Present(c: Connection, id: StreamId) {
    St.GetRecvStream(c.streams, c.side, id).Ok? && St.RecvOf(c.streams, id).Some?
  }

  /** An admissible stream still in the table always has a receive half. */
  lemma PresentIfListed(c: Connection, id: StreamId)
    requires St.Consistent(c.streams, c.side)
    ensures Present(c, id) <==> St.GetRecvStream(c.streams, c.side, id).Ok? && id in c.streams.streams
  {
  }

  /** Data ending at `end` contradicts the final size the peer fixed. */
  predicate BreaksFinalOffset(rs: St.RecvStream, end: nat, fin: bool) {
    St.FinalOffset(rs).Some? && (end > St.FinalOffset(rs).value || (fin && end != St.FinalOffset(rs).value))
  }

  /** How far `end` lies beyond everything received on the stream so far:
      the amount charged to connection-level flow control. */
  function NewBytes(rs: St.RecvStream, end: nat): nat {
    SaturatingSub(end, rs.limit)
  }

  /** Data ending at `end` exceeds the stream's limit, or its new bytes
      exceed the connection's. */
  predicate BreaksFlowControl(c: Connection, rs: St.RecvStream, end: nat) {
    end > rs.maxData || c.dataRecvd + NewBytes(rs, end) > c.localMaxData
  }

  /** Record a STREAM frame in the receive half: a FIN fixes the final
      size, the offsets become received and the highest received offset
      moves up to the frame's end. As written, `limit` is the end of the
      highest range in the received set, so an empty frame leaves it where
      it was; with `emptyRaisesLimit` an empty frame raises it too. */
  function Absorb(rs: St.RecvStream, f: StreamFrame, emptyRaisesLimit: bool): (o: St.RecvStream)
    ensures o.recvd == rs.recvd + Range(f.offset, End(f))
    ensures o.maxData == rs.maxData
    ensures o.limit == (if emptyRaisesLimit || f.data != [] then Max(rs.limit, End(f)) else rs.limit)
    ensures f.fin && rs.state.Recv? ==> o.state == St.Recv(Some(End(f)))
    ensures !(f.fin && rs.state.Recv?) ==> o.state == rs.state
  {
    var end := End(f);
    rs.(
      state := if f.fin && rs.state.Recv? then St.Recv(Some(end)) else rs.state,
      recvd := rs.recvd + Range(f.offset, end),
      limit := if emptyRaisesLimit || f.offset < end then Max(rs.limit, end) else rs.limit)
  }

  /** A receive half whose final size is known and positive, with every
      offset below it received, has received all its data. */
  function Settle(rs: St.RecvStream): (o: St.RecvStream)
    ensures o == rs.(state := o.state)
    ensures St.FinalOffset(o) == St.FinalOffset(rs)
    ensures o.state.AllReceived? <==>
      (|| rs.state.AllReceived?
       || (rs.state.Recv? && rs.state.knownSize.Some? && rs.state.knownSize.value > 0 &&
           rs.recvd == Range(0, rs.state.knownSize.value)))
    ensures o.state != rs.state ==> rs.state.Recv?
  {
    if rs.state.Recv? && rs.state.knownSize.Some? && rs.state.knownSize.value > 0 &&
       rs.recvd == Range(0, rs.state.knownSize.value)
    then rs.(state := St.AllReceived(rs.state.knownSize.value))
    else rs
  }

  /** The STREAM arm of `process_payload`, with the empty-frame rule as a
      parameter (see `Absorb`). A frame for a stream the peer may not name
      fails with the admissibility error; one for a closed stream is
      dropped. Otherwise the frame must respect the final size
      (FINAL_OFFSET_ERROR) and both flow-control limits
      (FLOW_CONTROL_ERROR), and may not end the handshake stream
      (PROTOCOL_VIOLATION, after the data is recorded). On success the
      connection is charged exactly the bytes beyond the previous highest
      offset, and an application stream becomes readable. The handshake
      data is handed to TLS, which is not modelled. */
  function ReceiveStream(c: Connection, ctx: Ctx, f: StreamFrame, emptyRaisesLimit: bool): (o: Processed)
    requires St.Consistent(c.streams, c.side)
    ensures !Present(c, f.id) ==>
      && o.conn == c && o.ctx == ctx
      && (o.result.Err? <==> St.GetRecvStream(c.streams, c.side, f.id).Err?)
      && (o.result.Err? ==> o.result.error == St.GetRecvStream(c.streams, c.side, f.id).error)
      && (o.result.Ok? ==> o.result == Ok(false))
    ensures Present(c, f.id) ==>
      var rs := St.RecvOf(c.streams, f.id).value;
      && (o.result == Err(FinalOffsetError) <==> BreaksFinalOffset(rs, End(f), f.fin))
      && (o.result == Err(FlowControlError) <==>
            !BreaksFinalOffset(rs, End(f), f.fin) && BreaksFlowControl(c, rs, End(f)))
      && (o.result == Err(ProtocolViolation) <==>
            !BreaksFinalOffset(rs, End(f), f.fin) && !BreaksFlowControl(c, rs, End(f)) && f.id == TlsStream && f.fin)
      && (o.result.Ok? ==>
            && o.result == Ok(false)
            && o.conn.dataRecvd == c.dataRecvd + NewBytes(rs, End(f))
            && St.RecvOf(o.conn.streams, f.id) == Some(Settle(Absorb(rs, f, emptyRaisesLimit)))
            && (f.id != TlsStream ==> f.id in o.conn.readable && c.handle in o.ctx.readable))
    ensures o.conn.dataRecvd >= c.dataRecvd
    ensures o.conn == c.(streams := o.conn.streams, readable := o.conn.readable, dataRecvd := o.conn.dataRecvd,
                         rec := c.rec.(pending := o.conn.rec.pending))
    ensures o.conn.streams == c.streams.(streams := o.conn.streams.streams)
    ensures o.ctx == ctx.(readable := o.ctx.readable)
    ensures St.Consistent(o.conn.streams, c.side)
  {
    PresentIfListed(c, f.id);
    match St.GetRecvStream(c.streams, c.side, f.id)
    case Err(e) => Processed(c, ctx, Err(e))
    case Ok(None) => Processed(c, ctx, Ok(false))
    case Ok(Some(_)) =>
      var rs := St.RecvOf(c.streams, f.id).value;
      var end := End(f);
      if BreaksFinalOffset(rs, end, f.fin) then Processed(c, ctx, Err(FinalOffsetError))
      else if BreaksFlowControl(c, rs, end) then Processed(c, ctx, Err(FlowControlError))
      else
        var rs1 := Absorb(rs, f, emptyRaisesLimit);
        if f.id == TlsStream && f.fin then
          Processed(c.(streams := St.WithRecv(c.streams, c.side, f.id, rs1)), ctx, Err(ProtocolViolation))
        else
          var c1 := c.(streams := St.WithRecv(c.streams, c.side, f.id, Settle(rs1)), dataRecvd := c.dataRecvd + NewBytes(rs, end));
          if f.id == TlsStream then
            var pending := c1.rec.pending;
            Processed(c1.(rec := c1.rec.(pending := pending.(maxStreamData := pending.maxStreamData + {TlsStream}))), ctx, Ok(false))
          else
            Processed(c1.(readable := c1.readable + {f.id}), ctx.(readable := ctx.readable + {c.handle}), Ok(false))
  }

  /** Receiving stream data keeps the connection invariant. */
  lemma ReceiveStreamValid(c: Connection, ctx: Ctx, f: StreamFrame, emptyRaisesLimit: bool)
    requires St.Consistent(c.streams, c.side)
    ensures Valid(c) ==> Valid(ReceiveStream(c, ctx, f, emptyRaisesLimit).conn)
  {
  }

  /** The STREAM arm as written. */
  function OnStreamAsWritten(c: Connection, ctx: Ctx, f: StreamFrame): (o: Processed)
    requires St.Consistent(c.streams, c.side)
    ensures Present(c, f.id) && o.result.Ok? ==>
      St.RecvOf(o.conn.streams, f.id).Some? &&
      St.RecvOf(o.conn.streams, f.id).value.limit ==
        (if f.data == [] then St.RecvOf(c.streams, f.id).value.limit
         else Max(St.RecvOf(c.streams, f.id).value.limit, End(f)))
    ensures Valid(c) ==> Valid(o.conn)
  {
    ReceiveStreamValid(c, ctx, f, false);
    ReceiveStream(c, ctx, f, false)
  }

  /** The STREAM arm with an empty frame raising the highest received
      offset, so that every offset is charged to flow control once. */
  function OnStream(c: Connection, ctx: Ctx, f: StreamFrame): (o: Processed)
    requires St.Consistent(c.streams, c.side)
    ensures Present(c, f.id) && o.result.Ok? ==>
      St.RecvOf(o.conn.streams, f.id).Some? &&
      St.RecvOf(o.conn.streams, f.id).value.limit == Max(St.RecvOf(c.streams, f.id).value.limit, End(f))
    ensures Valid(c) ==> Valid(o.conn)
  {
    ReceiveStreamValid(c, ctx, f, true);
    ReceiveStream(c, ctx, f, true)
  }

  /** As written, an empty STREAM frame beyond the highest received offset
      is charged to connection-level flow control without raising that
      offset, so the same frame delivered twice is charged twice. */
  lemma EmptyStreamFrameChargedTwice(c: Connection, ctx: Ctx, f: StreamFrame)
    requires St.Consistent(c.streams, c.side) && Present(c, f.id)
    requires f.data == [] && !f.fin
    requires St.RecvOf(c.streams, f.id).value.state == St.Recv(None)
    requires St.RecvOf(c.streams, f.id).value.limit < f.offset <= St.RecvOf(c.streams, f.id).value.maxData
    requires c.dataRecvd + 2 * (f.offset - St.RecvOf(c.streams, f.id).value.limit) <= c.localMaxData
    ensures var once := OnStreamAsWritten(c, ctx, f);
      var twice := OnStreamAsWritten(once.conn, once.ctx, f);
      && once.result == Ok(false) && twice.result == Ok(false)
      && twice.conn.dataRecvd == c.dataRecvd + 2 * (f.offset - St.RecvOf(c.streams, f.id).value.limit)
  {
    var rs := St.RecvOf(c.streams, f.id).value;
    var once := OnStreamAsWritten(c, ctx, f);
    assert once.conn.dataRecvd == c.dataRecvd + (f.offset - rs.limit);
    PresentIfListed(c, f.id);
    PresentIfListed(once.conn, f.id);
    assert St.RecvOf(once.conn.streams, f.id) == Some(Settle(Absorb(rs, f, false)));
  }

  /** With the correction a STREAM frame delivered twice is charged once:
      the second delivery succeeds and adds nothing to the connection's
      received total. */
  lemma DuplicateStreamFrameIsFree(c: Connection, ctx: Ctx, f: StreamFrame)
    requires St.Consistent(c.streams, c.side)
    requires OnStream(c, ctx, f).result == Ok(false)
    ensures var once := OnStream(c, ctx, f);
      var twice := OnStream(once.conn, once.ctx, f);
      twice.result == Ok(false) && twice.conn.dataRecvd == once.conn.dataRecvd
  {
    var once := OnStream(c, ctx, f);
    PresentIfListed(c, f.id);
    PresentIfListed(once.conn, f.id);
    if Present(c, f.id) {
      var rs := St.RecvOf(c.streams, f.id).value;
      var rs2 := Settle(Absorb(rs, f, true));
      assert St.RecvOf(once.conn.streams, f.id) == Some(rs2);
      assert !BreaksFinalOffset(rs2, End(f), f.fin);
      assert NewBytes(rs2, End(f)) == 0;
    }
  }

  /** The RST_STREAM arm of `process_payload`, with the flow-control check
      as a parameter. Resetting the handshake stream is a protocol
      violation; the admissibility rules are those of STREAM frames; a
      final size contradicting the known one is FINAL_OFFSET_ERROR. A
      receive half still receiving becomes reset, and the connection is
      charged the bytes between the highest offset received and the final
      size. */
  function ReceiveRstStream(c: Connection, ctx: Ctx, id: StreamId, errorCode: nat, finalOffset: nat,
                            checkFlow: bool): (o: Processed)
    requires St.Consistent(c.streams, c.side)
    ensures id == TlsStream ==> o == Processed(c, ctx, Err(ProtocolViolation))
    ensures id != TlsStream && !Present(c, id) ==>
      && o.conn == c && o.ctx == ctx
      && (o.result.Err? <==> St.GetRecvStream(c.streams, c.side, id).Err?)
      && (o.result.Ok? ==> o.result == Ok(false))
    ensures id != TlsStream && Present(c, id) ==>
      var rs := St.RecvOf(c.streams, id).value;
      && (o.result == Err(FinalOffsetError) <==> St.FinalOffset(rs).Some? && St.FinalOffset(rs).value != finalOffset)
      && (o.result == Err(FlowControlError) <==>
            checkFlow && !(St.FinalOffset(rs).Some? && St.FinalOffset(rs).value != finalOffset) &&
            BreaksFlowControl(c, rs, finalOffset))
      && (o.result.Ok? ==>
            && o.result == Ok(false)
            && o.conn.dataRecvd == c.dataRecvd + NewBytes(rs, finalOffset)
            && St.RecvOf(o.conn.streams, id).Some?
            && St.FinalOffset(St.RecvOf(o.conn.streams, id).value) == Some(finalOffset)
            && St.RecvClosed(St.RecvOf(o.conn.streams, id).value)
            && (St.RecvClosed(rs) ==> St.RecvOf(o.conn.streams, id) == Some(rs))
            && id in o.conn.readable && c.handle in o.ctx.readable)
    ensures o.conn.dataRecvd >= c.dataRecvd
    ensures o.conn == c.(streams := o.conn.streams, readable := o.conn.readable, dataRecvd := o.conn.dataRecvd)
    ensures o.conn.streams == c.streams.(streams := o.conn.streams.streams)
    ensures o.ctx == ctx.(readable := o.ctx.readable)
    ensures St.Consistent(o.conn.streams, c.side)
  {
    PresentIfListed(c, id);
    if id == TlsStream then Processed(c, ctx, Err(ProtocolViolation))
    else
      match St.GetRecvStream(c.streams, c.side, id)
      case Err(e) => Processed(c, ctx, Err(e))
      case Ok(None) => Processed(c, ctx, Ok(false))
      case Ok(Some(_)) =>
        var rs := St.RecvOf(c.streams, id).value;
        if St.FinalOffset(rs).Some? && St.FinalOffset(rs).value != finalOffset then
          Processed(c, ctx, Err(FinalOffsetError))
        else if checkFlow && BreaksFlowControl(c, rs, finalOffset) then
          Processed(c, ctx, Err(FlowControlError))
        else
          var rs' := if St.RecvClosed(rs) then rs else rs.(state := St.PeerReset(finalOffset, errorCode));
          var c' := c.(
            streams := St.WithRecv(c.streams, c.side, id, rs'),
            dataRecvd := c.dataRecvd + NewBytes(rs, finalOffset),
            readable := c.readable + {id});
          Processed(c', ctx.(readable := ctx.readable + {c.handle}), Ok(false))
  }

  /** The RST_STREAM arm as written: no flow-control check. */
  function OnRstStreamAsWritten(c: Connection, ctx: Ctx, id: StreamId, errorCode: nat, finalOffset: nat): (o: Processed)
    requires St.Consistent(c.streams, c.side)
    ensures o.result.Err? ==> o.result.error != FlowControlError
  {
    ReceiveRstStream(c, ctx, id, errorCode, finalOffset, false)
  }

  /** The RST_STREAM arm holding the final size to the same limits as
      STREAM data, so the receive window is never overrun. */
  function OnRstStream(c: Connection, ctx: Ctx, id: StreamId, errorCode: nat, finalOffset: nat): (o: Processed)
    requires St.Consistent(c.streams, c.side)
    ensures Valid(c) ==> Valid(o.conn)
  {
    ReceiveRstStream(c, ctx, id, errorCode, finalOffset, true)
  }

  /** As written, a RST_STREAM whose final size lies beyond the receive
      window is accepted and pushes the received total past the window;
      the corrected arm refuses it with FLOW_CONTROL_ERROR. */
  lemma RstStreamOverrunsWindow(c: Connection, ctx: Ctx, id: StreamId, errorCode: nat, finalOffset: nat)
    requires St.Consistent(c.streams, c.side) && id != TlsStream && Present(c, id)
    requires St.RecvOf(c.streams, id).value.state.Recv?
    requires St.RecvOf(c.streams, id).value.state.knownSize.None?
    requires c.dataRecvd + NewBytes(St.RecvOf(c.streams, id).value, finalOffset) > c.localMaxData
    ensures OnRstStreamAsWritten(c, ctx, id, errorCode, finalOffset).result == Ok(false)
    ensures OnRstStreamAsWritten(c, ctx, id, errorCode, finalOffset).conn.dataRecvd > c.localMaxData
    ensures OnRstStream(c, ctx, id, errorCode, finalOffset).result == Err(FlowControlError)
  {
  }

  /** The corrected RST_STREAM arm does what the source does, except that
      it refuses with FLOW_CONTROL_ERROR a final size the source accepts
      beyond the receive window. */
  lemma RstStreamArmsAgree(c: Connection, ctx: Ctx, id: StreamId, errorCode: nat, finalOffset: nat)
    requires St.Consistent(c.streams, c.side)
    ensures OnRstStream(c, ctx, id, errorCode, finalOffset).result != Err(FlowControlError) ==>
      OnRstStream(c, ctx, id, errorCode, finalOffset) == OnRstStreamAsWritten(c, ctx, id, errorCode, finalOffset)
    ensures OnRstStream(c, ctx, id, errorCode, finalOffset).result == Err(FlowControlError) ==>
      OnRstStreamAsWritten(c, ctx, id, errorCode, finalOffset).result == Ok(false)
  {
  }

  /** The corrected STREAM arm does what the source does on every frame
      that carries data; only an empty frame is treated differently, and
      then only in the highest received offset. */
  lemma StreamArmsAgree(c: Connection, ctx: Ctx, f: StreamFrame)
    requires St.Consistent(c.streams, c.side)
    ensures f.data != [] ==> OnStream(c, ctx, f) == OnStreamAsWritten(c, ctx, f)
    ensures OnStream(c, ctx, f).result == OnStreamAsWritten(c, ctx, f).result
    ensures OnStream(c, ctx, f).conn.dataRecvd == OnStreamAsWritten(c, ctx, f).conn.dataRecvd
  {
  }

  /** The StreamWritable notifications for `ids`, in order. */
  function WritableEvents(h: Handle, ids: seq<StreamId>): (es: seq<(Handle, Event)>)
    ensures |es| == |ids|
    ensures forall i :: 0 <= i < |ids| ==> es[i] == (h, StreamWritable(ids[i]))
  {
    seq(|ids|, i requires 0 <= i < |ids| => (h, StreamWritable(ids[i])))
  }

  /** The tail of `on_ack_received` and of the MAX_DATA arm: when the
      connection was blocked before and is not any more, every stream that
      hit the block is told it is writable again (in ascending order here;
      the source drains a hash set) and the set is emptied. */
  function Unblock(c: Connection, ctx: Ctx, wasBlocked: bool): (o: Step)
    ensures wasBlocked && !Blocked(c) ==>
      && o.conn == c.(blockedStreams := {})
      && o.ctx == ctx.(events := o.ctx.events)
      && ctx.events <= o.ctx.events
      && |o.ctx.events| == |ctx.events| + |c.blockedStreams|
      && (forall id :: (c.handle, StreamWritable(id)) in o.ctx.events[|ctx.events|..] <==> id in c.blockedStreams)
    ensures !(wasBlocked && !Blocked(c)) ==> o == Step(c, ctx)
  {
    if wasBlocked && !Blocked(c) then
      var es := WritableEvents(c.handle, Ascending(c.blockedStreams));
      assert (ctx.events + es)[|ctx.events|..] == es;
      Step(c.(blockedStreams := {}), ctx.(events := ctx.events + es))
    else Step(c, ctx)
  }

  /** The ACK arm: the recovery update of `on_ack_received` (packets
      neither acknowledged nor declared lost stay recorded, and the RTT
      estimator takes the sample), then the writable notifications if the
      acknowledgement lifted the block. Per-stream completion
      (StreamFinished) is not modelled. */
  function OnAck(c: Connection, ctx: Ctx, cfg: Config, now: nat, ack: Rec.Ack): (o: Step)
    requires Valid(c) && Sane(cfg) && Rec.ClockAfterSends(c.rec, now)
    ensures Valid(o.conn)
    ensures o.conn == c.(rec := o.conn.rec, blockedStreams := o.conn.blockedStreams)
    ensures o.conn.rec == Rec.OnAckReceived(c.rec, cfg, c.params.ackDelayExponent, now, ack)
    ensures forall k :: k in ack.acked ==> k !in o.conn.rec.sent
    ensures forall k :: k in o.conn.rec.sent ==> k in c.rec.sent && o.conn.rec.sent[k] == c.rec.sent[k]
    ensures forall k :: k in c.rec.sent && k !in ack.acked && k >= ack.largest ==> k in o.conn.rec.sent
    ensures o.conn.rec.rtt == Rec.AckRtt(c.rec, c.params.ackDelayExponent, now, ack)
    ensures o.conn.rec.bytesInFlight <= c.rec.bytesInFlight
    ensures o.ctx == ctx.(events := o.ctx.events) && ctx.events <= o.ctx.events
    ensures Blocked(c) && !Blocked(o.conn) ==>
      o.conn.blockedStreams == {} &&
      forall id :: (c.handle, StreamWritable(id)) in o.ctx.events[|ctx.events|..] <==> id in c.blockedStreams
  {
    var c1 := c.(rec := Rec.OnAckReceived(c.rec, cfg, c.params.ackDelayExponent, now, ack));
    Unblock(c1, ctx, Blocked(c))
  }

  /** The MAX_DATA arm: the peer's connection-level limit only grows, and
      lifting the block notifies the blocked streams. */
  function OnMaxData(c: Connection, ctx: Ctx, bytes: nat): (o: Step)
    ensures o.conn.maxData == Max(bytes, c.maxData) && o.conn.maxData >= c.maxData
    ensures o.conn == c.(maxData := o.conn.maxData, blockedStreams := o.conn.blockedStreams)
    ensures o.ctx == ctx.(events := o.ctx.events) && ctx.events <= o.ctx.events
    ensures c.dataSent >= c.maxData && !CongestionBlocked(c) && bytes > c.dataSent ==>
      o.conn.blockedStreams == {} &&
      forall id :: (c.handle, StreamWritable(id)) in o.ctx.events[|ctx.events|..] <==> id in c.blockedStreams
    ensures !Blocked(c) ==> o == Step(c.(maxData := Max(bytes, c.maxData)), ctx)
    ensures Valid(c) ==> Valid(o.conn)
  {
    Unblock(c.(maxData := Max(bytes, c.maxData)), ctx, Blocked(c))
  }

  /** The MAX_STREAM_DATA arm: naming a stream we only receive on, or one
      without a send half, is a protocol violation; otherwise the stream's
      send limit only grows, and a stream that had used up its old limit is
      told it is writable. */
  function OnMaxStreamData(c: Connection, ctx: Ctx, id: StreamId, offset: nat): (o: Processed)
    ensures o.result == Err(ProtocolViolation) <==>
      (Initiator(id) != c.side && Dir(id) == Uni) || St.SendOf(c.streams, id).None?
    ensures o.result.Err? ==> o.conn == c && o.ctx == ctx
    ensures o.result.Ok? ==>
      var ss := St.SendOf(c.streams, id).value;
      && o.result == Ok(false)
      && St.SendOf(o.conn.streams, id) == Some(ss.(maxData := Max(ss.maxData, offset)))
      && (forall j :: j != id ==> St.SendOf(o.conn.streams, j) == St.SendOf(c.streams, j))
      && (o.ctx.events == ctx.events + [(c.handle, StreamWritable(id))] <==>
            offset > ss.maxData && ss.offset == ss.maxData)
      && (o.ctx.events == ctx.events || o.ctx.events == ctx.events + [(c.handle, StreamWritable(id))])
    ensures o.conn == c.(streams := o.conn.streams) && o.ctx == ctx.(events := o.ctx.events)
    ensures Valid(c) ==> Valid(o.conn)
  {
    if Initiator(id) != c.side && Dir(id) == Uni then Processed(c, ctx, Err(ProtocolViolation))
    else
      match St.SendOf(c.streams, id)
      case None => Processed(c, ctx, Err(ProtocolViolation))
      case Some(ss) =>
        if offset > ss.maxData then
          var events := if ss.offset == ss.maxData then ctx.events + [(c.handle, StreamWritable(id))] else ctx.events;
          Processed(c.(streams := St.WithSend(c.streams, id, ss.(maxData := offset))), ctx.(events := events), Ok(false))
        else Processed(c, ctx, Ok(false))
  }

  /** The MAX_STREAM_ID arm: the limit on streams we may open in the named
      direction becomes at least the named index plus one, and raising it
      announces that a stream is available. */
  function OnMaxStreamId(c: Connection, ctx: Ctx, id: StreamId): (o: Step)
    ensures var old_ := if Dir(id) == Uni then c.streams.maxUni else c.streams.maxBi;
      && (Dir(id) == Uni ==> o.conn.streams == c.streams.(maxUni := Max(old_, Index(id) + 1)))
      && (Dir(id) == Bi ==> o.conn.streams == c.streams.(maxBi := Max(old_, Index(id) + 1)))
      && (Index(id) + 1 > old_ ==> o.ctx.events == ctx.events + [(c.handle, StreamAvailable(Dir(id)))])
      && (Index(id) + 1 <= old_ ==> o == Step(c, ctx))
    ensures o.conn == c.(streams := o.conn.streams) && o.ctx == ctx.(events := o.ctx.events)
    ensures Valid(c) ==> Valid(o.conn)
  {
    var limit := if Dir(id) == Uni then c.streams.maxUni else c.streams.maxBi;
    var update := Index(id) + 1;
    if update > limit then
      var s := if Dir(id) == Uni then c.streams.(maxUni := update) else c.streams.(maxBi := update);
      assert St.Consistent(c.streams, c.side) ==> St.Consistent(s, c.side);
      Step(c.(streams := s), ctx.(events := ctx.events + [(c.handle, StreamAvailable(Dir(id)))]))
    else Step(c, ctx)
  }

  /** The STOP_SENDING arm: the stream must exist, carry data from us and
      have had some data written (else PROTOCOL_VIOLATION). It is then reset
      as by `reset`, and its send half records the peer's error code
      whatever state it was in. */
  function OnStopSending(c: Connection, ctx: Ctx, id: StreamId, errorCode: nat): (o: Processed)
    requires St.Consistent(c.streams, c.side)
    ensures o.result == Err(ProtocolViolation) <==>
      St.SendOf(c.streams, id).None? || St.SendOf(c.streams, id).value.offset == 0
    ensures o.result.Err? ==> o.conn == c && o.ctx == ctx
    ensures o.result.Ok? ==>
      var ss := St.SendOf(c.streams, id).value;
      && o.result == Ok(false)
      && St.SendOf(o.conn.streams, id) == Some(ss.(state := St.ResetSent(Some(errorCode))))
      && (forall j :: j != id ==> St.SendOf(o.conn.streams, j) == St.SendOf(c.streams, j))
      && (St.Resettable(ss) <==> o.conn.rec.pending.rstStream == c.rec.pending.rstStream + [(id, errorCode)])
      && (!St.Resettable(ss) ==> o.ctx == ctx && o.conn.rec == c.rec)
    ensures o.conn == c.(streams := o.conn.streams, rec := c.rec.(pending := o.conn.rec.pending))
    ensures Valid(c) ==> Valid(o.conn)
  {
    match St.SendOf(c.streams, id)
    case None => Processed(c, ctx, Err(ProtocolViolation))
    case Some(ss) =>
      if ss.offset == 0 then Processed(c, ctx, Err(ProtocolViolation))
      else
        var s := ResetStream(c, ctx, id, errorCode);
        var ss' := St.SendOf(s.conn.streams, id).value;
        Processed(s.conn.(streams := St.WithSend(s.conn.streams, id, ss'.(state := St.ResetSent(Some(errorCode))))), s.ctx, Ok(false))
  }

  /** What every frame keeps: the connection invariant (in particular the
      receive window) holds, sent packets only leave the record, events are
      only appended, and the received total only grows. */
  ghost predicate Advances(c: Connection, ctx: Ctx, o: Processed) {
    && Valid(o.conn)
    && (forall k :: k in o.conn.rec.sent ==> k in c.rec.sent && o.conn.rec.sent[k] == c.rec.sent[k])
    && ctx.events <= o.ctx.events
    && o.conn.dataRecvd >= c.dataRecvd && o.conn.localMaxData == c.localMaxData
    && o.conn.side == c.side && o.conn.handle == c.handle
  }

  /** Frames about one stream. */
  predicate AboutStream(f: Frame) {
    f.Stream? || f.MaxStreamData? || f.MaxStreamId? || f.RstStream? || f.StopSending?
  }

  /** The arms of `process_payload` for frames about one stream. */
  function ProcessStreamFrame(c: Connection, ctx: Ctx, frame: Frame): (o: Processed)
    requires Valid(c) && AboutStream(frame)
    ensures Advances(c, ctx, o)
    ensures o.result != Ok(true)
  {
    match frame
    case Stream(f) => OnStream(c, ctx, f)
    case MaxStreamData(id, offset) => OnMaxStreamData(c, ctx, id, offset)
    case MaxStreamId(id) =>
      var s := OnMaxStreamId(c, ctx, id);
      Processed(s.conn, s.ctx, Ok(false))
    case RstStream(id, errorCode, finalOffset) => OnRstStream(c, ctx, id, errorCode, finalOffset)
    case StopSending(id, errorCode) => OnStopSending(c, ctx, id, errorCode)
  }

  /** Connection-level frames that change the connection: ACK, MAX_DATA
      and PATH_CHALLENGE. */
  predicate ChangesConnection(f: Frame) {
    f.Ack? || f.MaxData? || f.PathChallengeFrame?
  }

  /** The ACK, MAX_DATA and PATH_CHALLENGE arms of `process_payload`. */
  function ProcessFlowFrame(c: Connection, ctx: Ctx, cfg: Config, now: nat, number: nat, frame: Frame): (o: Processed)
    requires Valid(c) && Sane(cfg) && Rec.ClockAfterSends(c.rec, now) && ChangesConnection(frame)
    ensures Advances(c, ctx, o)
    ensures o.result == Ok(false)
  {
    match frame
    case Ack(ack) =>
      var s := OnAck(c, ctx, cfg, now, ack);
      Processed(s.conn, s.ctx, Ok(false))
    case MaxData(bytes) =>
      var s := OnMaxData(c, ctx, bytes);
      Processed(s.conn, s.ctx, Ok(false))
    case PathChallengeFrame(token) =>
      Processed(c.(rec := c.rec.(pending := PathChallenge(c.rec.pending, number, token))), ctx, Ok(false))
  }

  /** The remaining arms: they leave the connection alone and either go on,
      report the peer's close, or fail. */
  function ProcessSignalFrame(c: Connection, ctx: Ctx, frame: Frame): (o: Processed)
    requires !AboutStream(frame) && !ChangesConnection(frame)
    ensures o.conn == c && ctx.events <= o.ctx.events
    ensures o.result == Ok(true) <==> IsClose(frame)
    ensures !IsClose(frame) ==> o.ctx == ctx
    ensures Inert(frame) ==> o.result == Ok(false)
  {
    match frame
    case Padding => Processed(c, ctx, Ok(false))
    case Ping => Processed(c, ctx, Ok(false))
    case ConnectionCloseFrame(error) =>
      Processed(c, ctx.(events := ctx.events + [(c.handle, ConnectionLost(ConnectionClosed(ConnectionClose(error))))]), Ok(true))
    case ApplicationCloseFrame(code) =>
      Processed(c, ctx.(events := ctx.events + [(c.handle, ConnectionLost(ApplicationClosed(ApplicationClose(code))))]), Ok(true))
    case Invalid(ty) => Processed(c, ctx, Err(FrameError(ty)))
    case PathResponseFrame(_) => Processed(c, ctx, Err(UnsolicitedPathResponse))
    case DataBlocked(_) => Processed(c, ctx, Ok(false))
    case StreamBlocked(_, _) => Processed(c, ctx, Ok(false))
    case StreamIdBlocked(_) => Processed(c, ctx, Ok(false))
    case NewConnectionId =>
      Processed(c, ctx, if c.remCid == [] then Err(ProtocolViolation) else Ok(false))
  }

  /** One frame of `process_payload`. `number` is the packet's number,
      remembered for a PATH_RESPONSE. Only the peer's close ends the
      payload with `Ok(true)`. */
  function ProcessFrame(c: Connection, ctx: Ctx, cfg: Config, now: nat, number: nat, frame: Frame): (o: Processed)
    requires Valid(c) && Sane(cfg) && Rec.ClockAfterSends(c.rec, now)
    ensures Advances(c, ctx, o)
    ensures o.result == Ok(true) <==> IsClose(frame)
    ensures Inert(frame) ==> o == Processed(c, ctx, Ok(false))
  {
    if AboutStream(frame) then
      var o := ProcessStreamFrame(c, ctx, frame);
      assert !IsClose(frame) && !Inert(frame);
      o
    else if ChangesConnection(frame) then
      var o := ProcessFlowFrame(c, ctx, cfg, now, number, frame);
      assert !IsClose(frame) && !Inert(frame);
      o
    else
      var o := ProcessSignalFrame(c, ctx, frame);
      assert Advances(c, ctx, o);
      assert Inert(frame) ==> o == Processed(c, ctx, Ok(false));
      o
  }

  /** The arms of `process_payload` that need no stream: malformed frames,
      unsolicited PATH_RESPONSE and NEW_CONNECTION_ID on a connection whose
      peer uses empty identifiers fail and change nothing; the peer's close
      is reported as the reason the connection was lost; PATH_CHALLENGE
      queues the response. */
  lemma ProcessFrameSimpleArms(c: Connection, ctx: Ctx, cfg: Config, now: nat, number: nat, frame: Frame)
    requires Valid(c) && Sane(cfg) && Rec.ClockAfterSends(c.rec, now)
    ensures var o := ProcessFrame(c, ctx, cfg, now, number, frame);
      && (frame.Invalid? ==> o == Processed(c, ctx, Err(FrameError(frame.frameType))))
      && (frame.PathResponseFrame? ==> o == Processed(c, ctx, Err(UnsolicitedPathResponse)))
      && (frame.NewConnectionId? ==>
            o == Processed(c, ctx, if c.remCid == [] then Err(ProtocolViolation) else Ok(false)))
      && (IsClose(frame) ==>
            o.conn == c &&
            o.ctx == ctx.(events := ctx.events + [(c.handle, ConnectionLost(
              if frame.ConnectionCloseFrame? then ConnectionClosed(ConnectionClose(frame.error))
              else ApplicationClosed(ApplicationClose(frame.code))))]))
      && (frame.PathChallengeFrame? ==>
            o == Processed(c.(rec := c.rec.(pending := PathChallenge(c.rec.pending, number, frame.token))), ctx, Ok(false)))
  {
  }

  /** `process_payload`: the frames in order, stopping at the first that
      fails or closes the connection. The invariant, in particular the
      receive window, holds after every prefix. */
  function ProcessPayload(c: Connection, ctx: Ctx, cfg: Config, now: nat, number: nat, frames: seq<Frame>): (o: Processed)
    requires Valid(c) && Sane(cfg) && Rec.ClockAfterSends(c.rec, now)
    ensures Advances(c, ctx, o)
    ensures o.result == Ok(true) ==> exists i :: 0 <= i < |frames| && IsClose(frames[i])
    ensures (forall i :: 0 <= i < |frames| ==> Inert(frames[i])) ==> o == Processed(c, ctx, Ok(false))
    decreases |frames|
  {
    if frames == [] then Processed(c, ctx, Ok(false))
    else
      var p := ProcessFrame(c, ctx, cfg, now, number, frames[0]);
      if p.result != Ok(false) then p
      else
        var rest := ProcessPayload(p.conn, p.ctx, cfg, now, number, frames[1..]);
        assert forall i :: 0 <= i < |frames[1..]| ==> frames[1..][i] == frames[i + 1];
        rest
  }

  /** Processing a payload in two pieces is processing it whole: the
      second piece runs from where the first left off, unless the first
      already failed or closed the connection. */
  lemma {:induction false} ProcessPayloadSplit(c: Connection, ctx: Ctx, cfg: Config, now: nat, number: nat,
                                               fs1: seq<Frame>, fs2: seq<Frame>)
    requires Valid(c) && Sane(cfg) && Rec.ClockAfterSends(c.rec, now)
    ensures var p := ProcessPayload(c, ctx, cfg, now, number, fs1);
      ProcessPayload(c, ctx, cfg, now, number, fs1 + fs2) ==
        if p.result == Ok(false) then ProcessPayload(p.conn, p.ctx, cfg, now, number, fs2) else p
    decreases |fs1|
  {
    if fs1 == [] {
      assert fs1 + fs2 == fs2;
    } else {
      var p := ProcessFrame(c, ctx, cfg, now, number, fs1[0]);
      assert (fs1 + fs2)[0] == fs1[0];
      assert (fs1 + fs2)[1..] == fs1[1..] + fs2;
      if p.result == Ok(false) {
        ProcessPayloadSplit(p.conn, p.ctx, cfg, now, number, fs1[1..], fs2);
      }
    }
  }
}

=== FILE: recovery.dfy ===
/** Loss recovery and congestion control of one connection: packet-number
    allocation, the map of sent-but-unacknowledged packets and the
    `bytes_in_flight` total derived from it, ACK processing, threshold and
    time based loss detection, the Reno-style congestion window and the
    loss-detection alarm. */
module Recovery {
  import opened Wrappers
  import opened Quic
  import opened NatSets
  import opened Config
  import opened Retransmit
  import Rtt

  /** What is remembered about a transmitted packet until it is acknowledged
      or declared lost. `bytes` is 0 exactly for ACK-only packets; `acks`
      are the packet numbers the packet acknowledged. */
  datatype SentPacket = SentPacket(
    time: nat,
    bytes: nat,
    handshake: bool,
    acks: set<nat>,
    retransmits: Retransmits)

  predicate AckOnly(p: SentPacket) {
    p.bytes == 0
  }

  /** A requested change to a timer: the source's `Option<Option<u64>>`. */
  datatype TimerUpdate = Unchanged | Stop | Start(time: nat)

  datatype Recovery = Recovery(
    handshakeCount: nat,
    tlpCount: nat,
    rtoCount: nat,
    reorderingThreshold: nat,
    lossTime: nat,
    rtt: Rtt.Estimator,
    largestSentBeforeRto: nat,
    timeOfLastSentRetransmittable: nat,
    timeOfLastSentHandshake: nat,
    largestSent: nat,
    largestAcked: nat,
    sent: map<nat, SentPacket>,
    bytesInFlight: nat,
    congestionWindow: nat,
    endOfRecovery: nat,
    ssthresh: nat,
    awaitingHandshake: bool,
    handshakePending: Retransmits,
    pending: Retransmits,
    pendingAcks: set<nat>,
    setLossDetection: TimerUpdate)

  /** Total size of the packets in `m`. */
  ghost function SumBytes(m: map<nat, SentPacket>): nat
    decreases |m.Keys|
  {
    if m == map[] then 0
    else
      var k :| k in m;
      assert (m - {k}).Keys == m.Keys - {k};
      m[k].bytes + SumBytes(m - {k})
  }

  /** Any one packet can be split off the total. */
  lemma {:induction false} SumBytesRemove(m: map<nat, SentPacket>, k: nat)
    requires k in m
    ensures SumBytes(m) == m[k].bytes + SumBytes(m - {k})
    decreases |m.Keys|
  {
    var j :| j in m && SumBytes(m) == m[j].bytes + SumBytes(m - {j});
    if j != k {
      assert (m - {j}).Keys == m.Keys - {j};
      assert (m - {k}).Keys == m.Keys - {k};
      SumBytesRemove(m - {j}, k);
      SumBytesRemove(m - {k}, j);
      assert (m - {j}) - {k} == (m - {k}) - {j};
    }
  }

  /** Adding a packet under a fresh number adds its size to the total. */
  lemma SumBytesInsert(m: map<nat, SentPacket>, k: nat, p: SentPacket)
    requires k !in m
    ensures SumBytes(m[k := p]) == SumBytes(m) + p.bytes
  {
    SumBytesRemove(m[k := p], k);
    assert m[k := p] - {k} == m;
  }

  /** The bookkeeping invariant: packet numbers stay below 2^62, no recorded
      packet is numbered above the largest sent, `bytes_in_flight` is the
      total size of the recorded packets, and the window is positive. */
  ghost predicate Valid(r: Recovery) {
    && r.largestSent < PacketNumberLimit
    && (forall k :: k in r.sent ==> k <= r.largestSent)
    && r.bytesInFlight == SumBytes(r.sent)
    && r.congestionWindow > 0
  }

  /** Every recorded packet was sent no later than `now` (the driver's clock
      never runs backwards). */
  predicate ClockAfterSends(r: Recovery, now: nat) {
    forall k :: k in r.sent ==> r.sent[k].time <= now
  }

  /** Recovery state of a new connection. */
  function Initial(cfg: Config): (r: Recovery)
    requires Sane(cfg)
    ensures Valid(r) && r.sent == map[] && r.bytesInFlight == 0
  {
    Recovery(
      0, 0, 0,
      if cfg.usingTimeLossDetection then 0xFFFF_FFFF else cfg.reorderingThreshold,
      0, Rtt.Initial(), 0, 0, 0, 0, 0, map[],
      0, cfg.initialWindow, 0, U64Max,
      false, Empty(), Empty(), {}, Unchanged)
  }

  datatype Numbered = Numbered(number: nat, rec: Recovery)

  /** `get_tx_number`: the next packet number, computed with `u64`
      wrap-around; `None` is the assertion failure at 2^62. */
  function GetTxNumber(r: Recovery): (o: Option<Numbered>)
    ensures Valid(r) ==> (o.Some? <==> r.largestSent + 1 < PacketNumberLimit)
    ensures Valid(r) && o.Some? ==>
      && o.value.number == r.largestSent + 1
      && o.value.rec.largestSent == o.value.number
      && (forall k :: k in r.sent ==> k < o.value.number)
      && Valid(o.value.rec)
    ensures o.Some? ==> o.value.number < PacketNumberLimit && o.value.rec == r.(largestSent := o.value.number)
  {
    var next := (r.largestSent + 1) % U64Modulus;
    if next < PacketNumberLimit then Some(Numbered(next, r.(largestSent := next)))
    else None
  }

  /** Two consecutive numbers are strictly increasing. */
  lemma TxNumbersIncrease(r: Recovery)
    requires Valid(r)
    requires GetTxNumber(r).Some?
    requires GetTxNumber(GetTxNumber(r).value.rec).Some?
    ensures GetTxNumber(r).value.number < GetTxNumber(GetTxNumber(r).value.rec).value.number
  {
  }

  function InRecovery(r: Recovery, packet: nat): bool {
    packet <= r.endOfRecovery
  }

  /** `rto`: the retransmission timeout, doubled per unanswered RTO. */
  function Rto(r: Recovery, cfg: Config): (d: nat)
    ensures d >= cfg.minRtoTimeout
    ensures d >= r.rtt.smoothed + 4 * r.rtt.variance + r.rtt.maxAckDelay
    ensures r.rtoCount == 0 ==> d == Max(r.rtt.smoothed + 4 * r.rtt.variance + r.rtt.maxAckDelay, cfg.minRtoTimeout)
  {
    Max(r.rtt.smoothed + 4 * r.rtt.variance + r.rtt.maxAckDelay, cfg.minRtoTimeout) * Pow2(r.rtoCount)
  }

  /** Each further unanswered RTO doubles the timeout, so it is monotone in
      `rto_count`. */
  lemma RtoBackoff(r: Recovery, cfg: Config, n: nat, m: nat)
    requires n <= m
    ensures Rto(r.(rtoCount := n + 1), cfg) == 2 * Rto(r.(rtoCount := n), cfg)
    ensures Rto(r.(rtoCount := n), cfg) <= Rto(r.(rtoCount := m), cfg)
  {
    var base := Max(r.rtt.smoothed + 4 * r.rtt.variance + r.rtt.maxAckDelay, cfg.minRtoTimeout);
    var p := Pow2(n);
    assert Pow2(n + 1) == 2 * p;
    assert base * (2 * p) == 2 * (base * p);
    Pow2Monotone(n, m);
    ScaleMonotone(base, p, Pow2(m));
  }

  lemma ScaleMonotone(a: nat, x: nat, y: nat)
    requires x <= y
    ensures a * x <= a * y
  {
  }

  lemma {:induction false} Pow2Monotone(n: nat, m: nat)
    requires n <= m
    ensures Pow2(n) <= Pow2(m)
    decreases m - n
  {
    if n < m {
      Pow2Monotone(n + 1, m);
    }
  }

  /** Twice the smoothed RTT, or twice the default initial RTT before any
      sample. */
  function HandshakeBase(r: Recovery, cfg: Config): nat {
    if r.rtt.smoothed == 0 then 2 * cfg.defaultInitialRtt else 2 * r.rtt.smoothed
  }

  /** The handshake retransmission timeout: `HandshakeBase` plus the peer's
      ack delay, at least the minimum TLP timeout, doubled per unanswered
      handshake retransmission. */
  function HandshakeTimeout(r: Recovery, cfg: Config): (d: nat)
    ensures d >= cfg.minTlpTimeout * Pow2(r.handshakeCount)
    ensures d >= HandshakeBase(r, cfg) * Pow2(r.handshakeCount)
    ensures r.handshakeCount == 0 ==>
      d == Max(HandshakeBase(r, cfg) + r.rtt.maxAckDelay, cfg.minTlpTimeout)
  {
    var m := Max(HandshakeBase(r, cfg) + r.rtt.maxAckDelay, cfg.minTlpTimeout);
    var p := Pow2(r.handshakeCount);
    ScaleMonotoneRight(cfg.minTlpTimeout, m, p);
    ScaleMonotoneRight(HandshakeBase(r, cfg), m, p);
    m * p
  }

  lemma ScaleMonotoneRight(x: nat, y: nat, a: nat)
    requires x <= y
    ensures x * a <= y * a
  {
  }

  /** Each unanswered handshake retransmission doubles its timeout. */
  lemma HandshakeBackoff(r: Recovery, cfg: Config, n: nat)
    ensures HandshakeTimeout(r.(handshakeCount := n + 1), cfg) == 2 * HandshakeTimeout(r.(handshakeCount := n), cfg)
  {
    var m := Max(HandshakeBase(r, cfg) + r.rtt.maxAckDelay, cfg.minTlpTimeout);
    var p := Pow2(n);
    assert Pow2(n + 1) == 2 * p;
    assert m * (2 * p) == 2 * (m * p);
  }

  /** The tail loss probe timeout: one and a half smoothed RTTs plus the
      peer's ack delay, at least the minimum TLP timeout. */
  function TlpTimeout(r: Recovery, cfg: Config): (d: nat)
    ensures d >= cfg.minTlpTimeout && d >= (3 * r.rtt.smoothed) / 2 + r.rtt.maxAckDelay
    ensures d == cfg.minTlpTimeout || d == (3 * r.rtt.smoothed) / 2 + r.rtt.maxAckDelay
  {
    Max((3 * r.rtt.smoothed) / 2 + r.rtt.maxAckDelay, cfg.minTlpTimeout)
  }

  /** The delay of the TLP/RTO alarm: the shorter of the RTO and the TLP
      timeout while tail loss probes remain, otherwise the RTO. */
  function ProbeTimeout(r: Recovery, cfg: Config): (d: nat)
    ensures r.tlpCount < cfg.maxTlps ==> d <= TlpTimeout(r, cfg) && d <= Rto(r, cfg)
    ensures r.tlpCount < cfg.maxTlps ==> d == TlpTimeout(r, cfg) || d == Rto(r, cfg)
    ensures r.tlpCount >= cfg.maxTlps ==> d == Rto(r, cfg)
  {
    if r.tlpCount < cfg.maxTlps then Min(Rto(r, cfg), TlpTimeout(r, cfg)) else Rto(r, cfg)
  }

  /** `set_loss_detection_alarm`: the loss-detection timer setting. With
      nothing in flight the alarm stops; while the handshake is outstanding
      it fires one handshake timeout after the last handshake packet; when
      a packet awaits its loss time it fires then; otherwise it fires one
      TLP or RTO delay after the last retransmittable packet. */
  function LossAlarm(r: Recovery, cfg: Config): (t: TimerUpdate)
    ensures t != Unchanged
    ensures t.Stop? <==> r.bytesInFlight == 0
    ensures t.Start? && r.awaitingHandshake ==>
      t.time == r.timeOfLastSentHandshake + HandshakeTimeout(r, cfg)
    ensures t.Start? && !r.awaitingHandshake && r.lossTime != 0 ==> t.time == r.lossTime
    ensures t.Start? && !r.awaitingHandshake && r.lossTime == 0 ==>
      t.time == r.timeOfLastSentRetransmittable + ProbeTimeout(r, cfg)
    ensures t.Start? && !r.awaitingHandshake && r.lossTime == 0 ==>
      r.timeOfLastSentRetransmittable < t.time || cfg.minTlpTimeout == 0 || cfg.minRtoTimeout == 0
    ensures t.Start? && !r.awaitingHandshake && r.lossTime == 0 ==>
      t.time <= r.timeOfLastSentRetransmittable + Rto(r, cfg)
  {
    if r.bytesInFlight == 0 then Stop
    else if r.awaitingHandshake then
      Start(r.timeOfLastSentHandshake + HandshakeTimeout(r, cfg))
    else if r.lossTime != 0 then
      // Early retransmit timer or time loss detection.
      var duration := r.lossTime - r.timeOfLastSentRetransmittable;
      Start(r.timeOfLastSentRetransmittable + duration)
    else
      Start(r.timeOfLastSentRetransmittable + ProbeTimeout(r, cfg))
  }

  /** The alarm setting does not depend on the previous setting. */
  lemma LossAlarmIgnoresSetting(r: Recovery, cfg: Config, t: TimerUpdate)
    ensures LossAlarm(r.(setLossDetection := t), cfg) == LossAlarm(r, cfg)
  {
  }

  /** `on_packet_sent`: record packet `pn`; packets that are not ACK-only
      count towards `bytes_in_flight` and re-arm the alarm. */
  function OnPacketSent(r: Recovery, cfg: Config, now: nat, pn: nat, p: SentPacket): (o: Recovery)
    requires pn < PacketNumberLimit
    requires forall k :: k in r.sent ==> k < pn
    ensures Valid(r) ==> Valid(o)
    ensures o.sent == r.sent[pn := p] && o.largestSent == pn
    ensures o.bytesInFlight == r.bytesInFlight + p.bytes
    ensures o.awaitingHandshake == (r.awaitingHandshake || p.handshake)
    ensures p.bytes != 0 ==> o.setLossDetection.Start? && o.timeOfLastSentRetransmittable == now
    ensures p.bytes != 0 ==> o.setLossDetection == LossAlarm(o, cfg)
    ensures o.timeOfLastSentHandshake == (if p.bytes != 0 && p.handshake then now else r.timeOfLastSentHandshake)
    ensures p.bytes == 0 ==> o.timeOfLastSentRetransmittable == r.timeOfLastSentRetransmittable
    ensures p.bytes == 0 ==> o.setLossDetection == r.setLossDetection
    ensures o == r.(largestSent := o.largestSent, awaitingHandshake := o.awaitingHandshake, sent := o.sent,
                    timeOfLastSentRetransmittable := o.timeOfLastSentRetransmittable,
                    timeOfLastSentHandshake := o.timeOfLastSentHandshake,
                    bytesInFlight := o.bytesInFlight, setLossDetection := o.setLossDetection)
  {
    var r1 := r.(
      largestSent := pn,
      awaitingHandshake := r.awaitingHandshake || p.handshake,
      sent := r.sent[pn := p]);
    var o :=
      if p.bytes != 0 then
        var r2 := r1.(
          timeOfLastSentRetransmittable := now,
          timeOfLastSentHandshake := if p.handshake then now else r1.timeOfLastSentHandshake,
          bytesInFlight := r1.bytesInFlight + p.bytes);
        r2.(setLossDetection := LossAlarm(r2, cfg))
      else r1;
    assert pn !in r.sent;
    SumBytesInsert(r.sent, pn, p);
    o
  }

  /** The window after a non-ACK-only packet is acknowledged outside a
      recovery epoch: slow start below `ssthresh`, congestion avoidance at
      or above it. */
  function GrownWindow(cwnd: nat, ssthresh: nat, mss: nat, bytes: nat): (w: nat)
    requires cwnd > 0
    ensures w >= cwnd
    ensures cwnd < ssthresh ==> w == cwnd + bytes
    ensures cwnd >= ssthresh ==> w - cwnd == mss * bytes / cwnd
  {
    if cwnd < ssthresh then cwnd + bytes
    else cwnd + mss * bytes / cwnd
  }

  /** `on_packet_acked` (congestion and recovery part). */
  function OnPacketAcked(r: Recovery, cfg: Config, pn: nat): (o: Recovery)
    requires Valid(r) && Sane(cfg)
    ensures Valid(o)
    ensures pn !in r.sent ==> o == r
    ensures pn in r.sent ==>
      && o.sent == r.sent - {pn}
      && o.bytesInFlight == r.bytesInFlight - r.sent[pn].bytes
      && o.handshakeCount == 0 && o.tlpCount == 0 && o.rtoCount == 0
      && o.pendingAcks == r.pendingAcks - r.sent[pn].acks
    ensures o == r.(
      sent := o.sent, bytesInFlight := o.bytesInFlight, congestionWindow := o.congestionWindow,
      handshakeCount := o.handshakeCount, tlpCount := o.tlpCount, rtoCount := o.rtoCount,
      pendingAcks := o.pendingAcks)
  {
    if pn !in r.sent then r
    else
      var info := r.sent[pn];
      SumBytesRemove(r.sent, pn);
      var cwnd :=
        if info.bytes == 0 || InRecovery(r, pn) then r.congestionWindow
        else GrownWindow(r.congestionWindow, r.ssthresh, cfg.defaultMss, info.bytes);
      var cwnd' := if r.rtoCount > 0 && pn > r.largestSentBeforeRto then cfg.minimumWindow else cwnd;
      r.(
        sent := r.sent - {pn},
        bytesInFlight := r.bytesInFlight - info.bytes,
        congestionWindow := cwnd',
        handshakeCount := 0,
        tlpCount := 0,
        rtoCount := 0,
        pendingAcks := r.pendingAcks - info.acks)
  }

  /** How acknowledging `pn` moves the window: collapsed to the minimum
      when it confirms an RTO, otherwise never shrunk; unchanged for an
      ACK-only packet or one inside the recovery epoch; grown by its size in
      slow start and by `mss * bytes / cwnd` in congestion avoidance. */
  lemma OnPacketAckedWindow(r: Recovery, cfg: Config, pn: nat)
    requires Valid(r) && Sane(cfg) && pn in r.sent
    ensures var o := OnPacketAcked(r, cfg, pn);
      && (r.rtoCount > 0 && pn > r.largestSentBeforeRto ==> o.congestionWindow == cfg.minimumWindow)
      && (!(r.rtoCount > 0 && pn > r.largestSentBeforeRto) ==>
        && o.congestionWindow >= r.congestionWindow
        && (r.sent[pn].bytes == 0 || InRecovery(r, pn) ==> o.congestionWindow == r.congestionWindow)
        && (r.sent[pn].bytes != 0 && !InRecovery(r, pn) && r.congestionWindow < r.ssthresh ==>
              o.congestionWindow == r.congestionWindow + r.sent[pn].bytes)
        && (r.sent[pn].bytes != 0 && !InRecovery(r, pn) && r.congestionWindow >= r.ssthresh ==>
              o.congestionWindow - r.congestionWindow == cfg.defaultMss * r.sent[pn].bytes / r.congestionWindow))
  {
  }

  /** Whether some packet numbered in `pns` is still recorded in `sent`. */
  predicate AcksOutstanding(sent: map<nat, SentPacket>, pns: seq<nat>) {
    exists k :: k in pns && k in sent
  }

  /** The packet numbers acknowledged by the recorded packets among `pns`. */
  function AcksCarried(sent: map<nat, SentPacket>, pns: seq<nat>): set<nat> {
    set k, a | k in pns && k in sent && a in sent[k].acks :: a
  }

  /** Acknowledge the packets `pns`, in order. Acknowledging any recorded
      packet clears the probe counters and withdraws the ACKs it carried
      from `pending_acks`; numbers that are not recorded change nothing. */
  function AckPackets(r: Recovery, cfg: Config, pns: seq<nat>): (o: Recovery)
    requires Valid(r) && Sane(cfg)
    ensures Valid(o)
    ensures forall k :: k in o.sent <==> k in r.sent && k !in pns
    ensures forall k :: k in o.sent ==> o.sent[k] == r.sent[k]
    ensures o.bytesInFlight <= r.bytesInFlight
    ensures o.largestSent == r.largestSent && o.largestAcked == r.largestAcked
    ensures o.endOfRecovery == r.endOfRecovery && o.rtt == r.rtt
    ensures !AcksOutstanding(r.sent, pns) ==> o == r
    ensures AcksOutstanding(r.sent, pns) ==> o.handshakeCount == 0 && o.tlpCount == 0 && o.rtoCount == 0
    ensures o.pendingAcks == r.pendingAcks - AcksCarried(r.sent, pns)
    ensures o == r.(
      sent := o.sent, bytesInFlight := o.bytesInFlight, congestionWindow := o.congestionWindow,
      handshakeCount := o.handshakeCount, tlpCount := o.tlpCount, rtoCount := o.rtoCount,
      pendingAcks := o.pendingAcks)
    decreases |pns|
  {
    if pns == [] then r
    else
      var r1 := OnPacketAcked(r, cfg, pns[0]);
      var o := AckPackets(r1, cfg, pns[1..]);
      AcksCarriedStep(r.sent, pns);
      assert AcksOutstanding(r.sent, pns) <==> pns[0] in r.sent || AcksOutstanding(r1.sent, pns[1..]);
      o
  }

  /** Splitting the first number off `pns`. */
  lemma AcksCarriedStep(sent: map<nat, SentPacket>, pns: seq<nat>)
    requires pns != []
    ensures AcksCarried(sent, pns) ==
      (if pns[0] in sent then sent[pns[0]].acks else {}) + AcksCarried(sent - {pns[0]}, pns[1..])
  {
    var rest := sent - {pns[0]};
    forall a | a in AcksCarried(sent, pns)
      ensures a in (if pns[0] in sent then sent[pns[0]].acks else {}) + AcksCarried(rest, pns[1..])
    {
      var k :| k in pns && k in sent && a in sent[k].acks;
      if k != pns[0] {
        var i :| 0 <= i < |pns| && pns[i] == k;
        assert pns[1..][i - 1] == k;
        assert k in rest && rest[k] == sent[k];
        assert a in AcksCarried(rest, pns[1..]);
      }
    }
  }

  /** `delay_until_lost` as the source computes it. In the time-based mode
      the comment promises `rtt * (1 + fraction)`, but the shift applies to
      the whole sum, which yields about `rtt * fraction`: with any fraction
      below one the delay never reaches a full RTT. */
  function DelayUntilLostAsWritten(cfg: Config, rtt: nat, earlyRetransmit: bool): (d: Option<nat>)
    ensures cfg.usingTimeLossDetection ==> d.Some?
    ensures cfg.usingTimeLossDetection && cfg.timeReorderingFraction < FixedOne ==> d.value <= rtt
    ensures !cfg.usingTimeLossDetection && earlyRetransmit ==> d == Some((5 * rtt) / 4)
    ensures !cfg.usingTimeLossDetection && !earlyRetransmit ==> d.None?
  {
    if cfg.usingTimeLossDetection then
      FractionBelowOne(rtt, cfg.timeReorderingFraction);
      Some((rtt + rtt * cfg.timeReorderingFraction) / FixedOne)
    else if earlyRetransmit then Some((5 * rtt) / 4)
    else None
  }

  /** Scaling by `1 + fraction` and shifting the sum right by 16 bits never
      exceeds `rtt` while the fraction is below one. */
  lemma FractionBelowOne(rtt: nat, fraction: nat)
    ensures fraction < FixedOne ==> (rtt + rtt * fraction) / FixedOne <= rtt
  {
    if fraction < FixedOne {
      ScaleMonotone(rtt, fraction + 1, FixedOne);
      assert rtt + rtt * fraction == rtt * (fraction + 1);
    }
  }

  /** `delay_until_lost` with the time-based factor `rtt * (1 + fraction)`
      computed in 0.16 fixed point; `None` stands for `u64::max_value()`,
      which no elapsed time reaches. */
  function DelayUntilLost(cfg: Config, rtt: nat, earlyRetransmit: bool): (d: Option<nat>)
    ensures cfg.usingTimeLossDetection ==> d.Some? && d.value >= rtt
    ensures !cfg.usingTimeLossDetection && earlyRetransmit ==> d.Some? && d.value >= rtt
    ensures !cfg.usingTimeLossDetection && !earlyRetransmit ==> d.None?
  {
    if cfg.usingTimeLossDetection then Some((rtt * FixedOne + rtt * cfg.timeReorderingFraction) / FixedOne)
    else if earlyRetransmit then Some((5 * rtt) / 4)
    else None
  }

  /** The source's time threshold can declare a packet lost long before a
      round trip has passed: with an RTT of 65536 us and the default
      fraction of 1/8 it waits 8193 us, where the intended factor waits
      73728 us. */
  lemma TimeThresholdShrunk()
    ensures var cfg := Default().(usingTimeLossDetection := true);
      && DelayUntilLostAsWritten(cfg, 65536, false) == Some(8193)
      && DelayUntilLost(cfg, 65536, false) == Some(73728)
  {
  }

  /** Where the two delays part: they agree unless time-based loss
      detection is on, and then, for any RTT of at least 2 us, the source's
      delay is strictly shorter than the intended one. */
  lemma DelayAsWrittenShorter(cfg: Config, rtt: nat, earlyRetransmit: bool)
    ensures !cfg.usingTimeLossDetection ==>
      DelayUntilLostAsWritten(cfg, rtt, earlyRetransmit) == DelayUntilLost(cfg, rtt, earlyRetransmit)
    ensures cfg.usingTimeLossDetection && rtt >= 2 ==>
      DelayUntilLostAsWritten(cfg, rtt, earlyRetransmit).value < DelayUntilLost(cfg, rtt, earlyRetransmit).value
  {
    if cfg.usingTimeLossDetection && rtt >= 2 {
      var a := rtt * cfg.timeReorderingFraction;
      var q := a / FixedOne;
      var m := a % FixedOne;
      assert a == q * FixedOne + m;
      assert rtt * FixedOne + a == (rtt + q) * FixedOne + m;
      assert (rtt * FixedOne + a) / FixedOne == rtt + q;
      assert rtt + m < rtt * FixedOne;
      var w := (rtt + a) / FixedOne;
      assert w * FixedOne <= rtt + a < (rtt + q) * FixedOne;
    }
  }

  /** The loss delay used when the peer has acknowledged `la`. */
  function DelayFor(r: Recovery, cfg: Config, la: nat): (d: Option<nat>)
    ensures !cfg.usingTimeLossDetection ==>
      d == DelayUntilLostAsWritten(cfg, Max(r.rtt.latest, r.rtt.smoothed), la == r.largestSent)
  {
    DelayAsWrittenShorter(cfg, Max(r.rtt.latest, r.rtt.smoothed), la == r.largestSent);
    DelayUntilLost(cfg, Max(r.rtt.latest, r.rtt.smoothed), la == r.largestSent)
  }

  /** A packet numbered `pn` below the largest acknowledged `la` is lost when
      it has been outstanding for the loss delay or when more than
      `threshold` later packets were acknowledged. */
  predicate PacketLost(p: SentPacket, pn: nat, la: nat, now: nat, delay: Option<nat>, threshold: nat) {
    (delay.Some? && now - p.time >= delay.value) || la - pn > threshold
  }

  /** A lost packet stays lost as the clock advances. */
  lemma LostStaysLost(p: SentPacket, pn: nat, la: nat, now: nat, later: nat, delay: Option<nat>, threshold: nat)
    requires p.time <= now <= later
    requires PacketLost(p, pn, la, now, delay, threshold)
    ensures PacketLost(p, pn, la, later, delay, threshold)
  {
  }

  /** The packets `detect_lost_packets` declares lost. */
  function LostSet(r: Recovery, cfg: Config, now: nat, la: nat): set<nat> {
    set k | k in r.sent && k < la && PacketLost(r.sent[k], k, la, now, DelayFor(r, cfg, la), r.reorderingThreshold)
  }

  /** The queue a lost packet's frames go back on. */
  function RequeueTarget(o: Recovery, handshake: bool): seq<StreamFrame> {
    if handshake then o.handshakePending.stream else o.pending.stream
  }

  /** Every stream frame of `p` is queued again in `o`. */
  predicate Requeued(p: SentPacket, o: Recovery) {
    forall f :: f in p.retransmits.stream ==> f in RequeueTarget(o, p.handshake)
  }

  /** Both retransmission queues of `a` are prefixes of those of `b`. */
  predicate QueuesExtend(a: Recovery, b: Recovery) {
    a.pending.stream <= b.pending.stream && a.handshakePending.stream <= b.handshakePending.stream
  }

  lemma RequeuedKept(p: SentPacket, a: Recovery, b: Recovery)
    requires Requeued(p, a) && QueuesExtend(a, b)
    ensures Requeued(p, b)
  {
    forall f | f in p.retransmits.stream
      ensures f in RequeueTarget(b, p.handshake)
    {
      var q := RequeueTarget(a, p.handshake);
      var i :| 0 <= i < |q| && q[i] == f;
      assert RequeueTarget(b, p.handshake)[i] == f;
    }
  }

  /** Declare the single packet `pn` lost. */
  function DropLost(r: Recovery, pn: nat): (o: Recovery)
    requires Valid(r) && pn in r.sent
    ensures Valid(o)
    ensures o.sent == r.sent - {pn}
    ensures o.bytesInFlight == r.bytesInFlight - r.sent[pn].bytes
    ensures QueuesExtend(r, o) && Requeued(r.sent[pn], o)
    ensures r.sent[pn].handshake ==> o.pending == r.pending
    ensures o == r.(sent := o.sent, bytesInFlight := o.bytesInFlight, pending := o.pending,
                    handshakePending := o.handshakePending)
  {
    var info := r.sent[pn];
    SumBytesRemove(r.sent, pn);
    r.(
      sent := r.sent - {pn},
      bytesInFlight := r.bytesInFlight - info.bytes,
      handshakePending := if info.handshake then Merge(r.handshakePending, info.retransmits) else r.handshakePending,
      pending := if info.handshake then r.pending else Merge(r.pending, info.retransmits))
  }

  /** The tail of a strictly increasing sequence is strictly increasing and
      misses the head. */
  lemma TailOfIncreasing(pns: seq<nat>)
    requires StrictlyIncreasing(pns) && pns != []
    ensures StrictlyIncreasing(pns[1..])
    ensures forall k :: k in pns[1..] ==> k != pns[0] && k in pns
    ensures forall k :: k in pns ==> k == pns[0] || k in pns[1..]
  {
    var rest := pns[1..];
    forall k | k in rest
      ensures k != pns[0] && k in pns
    {
      var i :| 0 <= i < |rest| && rest[i] == k;
      assert pns[i + 1] == k;
    }
    forall k | k in pns
      ensures k == pns[0] || k in rest
    {
      var i :| 0 <= i < |pns| && pns[i] == k;
      if i > 0 {
        assert rest[i - 1] == k;
      }
    }
  }

  /** Remove the lost packets `pns` (in order), queueing their frames again:
      handshake packets' frames on `handshake_pending`, others' on `pending`
      (see `RemoveLostRequeues`). */
  function RemoveLost(r: Recovery, pns: seq<nat>): (o: Recovery)
    requires Valid(r)
    requires StrictlyIncreasing(pns)
    requires forall k :: k in pns ==> k in r.sent
    ensures Valid(o)
    ensures forall k :: k in o.sent <==> k in r.sent && k !in pns
    ensures forall k :: k in o.sent ==> o.sent[k] == r.sent[k]
    ensures o == r.(sent := o.sent, bytesInFlight := o.bytesInFlight, pending := o.pending,
                    handshakePending := o.handshakePending)
    decreases |pns|
  {
    if pns == [] then r
    else
      TailOfIncreasing(pns);
      RemoveLost(DropLost(r, pns[0]), pns[1..])
  }

  /** Removing lost packets only appends to the retransmission queues, and
      every stream frame of every removed packet ends up on the queue of its
      kind. */
  lemma {:induction false} RemoveLostRequeues(r: Recovery, pns: seq<nat>)
    requires Valid(r) && StrictlyIncreasing(pns)
    requires forall k :: k in pns ==> k in r.sent
    ensures QueuesExtend(r, RemoveLost(r, pns))
    ensures forall k :: k in pns ==> Requeued(r.sent[k], RemoveLost(r, pns))
    ensures (forall k :: k in pns ==> r.sent[k].handshake) ==> RemoveLost(r, pns).pending == r.pending
    decreases |pns|
  {
    if pns != [] {
      TailOfIncreasing(pns);
      var r1 := DropLost(r, pns[0]);
      RemoveLostRequeues(r1, pns[1..]);
      var o := RemoveLost(r, pns);
      assert o == RemoveLost(r1, pns[1..]);
      RequeuedKept(r.sent[pns[0]], r1, o);
      forall k | k in pns
        ensures Requeued(r.sent[k], o)
      {
        if k != pns[0] {
          assert r1.sent[k] == r.sent[k];
        }
      }
    }
  }

  /** Every packet numbered in `pns` was ACK-only. */
  predicate AllAckOnly(r: Recovery, pns: seq<nat>)
    requires forall k :: k in pns ==> k in r.sent
  {
    forall k :: k in pns ==> r.sent[k].bytes == 0
  }

  /** `bytes_in_flight` drops exactly when some removed packet was not
      ACK-only (the source's `lost_nonack`). */
  lemma {:induction false} RemoveLostInFlight(r: Recovery, pns: seq<nat>)
    requires Valid(r) && StrictlyIncreasing(pns)
    requires forall k :: k in pns ==> k in r.sent
    ensures RemoveLost(r, pns).bytesInFlight <= r.bytesInFlight
    ensures RemoveLost(r, pns).bytesInFlight == r.bytesInFlight <==> AllAckOnly(r, pns)
    decreases |pns|
  {
    if pns != [] {
      TailOfIncreasing(pns);
      var r1 := DropLost(r, pns[0]);
      RemoveLostInFlight(r1, pns[1..]);
      assert RemoveLost(r, pns) == RemoveLost(r1, pns[1..]);
      assert forall k :: k in pns[1..] ==> r1.sent[k] == r.sent[k];
    }
  }

  /** Whether the packets `lost` start a new recovery epoch: one of them was
      not ACK-only and one lies beyond the current epoch. */
  predicate StartsEpoch(sent: map<nat, SentPacket>, endOfRecovery: nat, lost: set<nat>)
    requires forall k :: k in lost ==> k in sent
  {
    (exists k :: k in lost && sent[k].bytes > 0) && (exists k :: k in lost && k > endOfRecovery)
  }

  /** The window after a loss event: scaled by the loss-reduction factor,
      never below the minimum window. */
  function ReducedWindow(cwnd: nat, cfg: Config): (w: nat)
    requires Sane(cfg)
    ensures w > 0 && w >= cfg.minimumWindow
    ensures cfg.lossReductionFactor <= FixedOne ==> w <= Max(cwnd, cfg.minimumWindow)
  {
    ScaleFixedAtMost(cwnd, cfg.lossReductionFactor);
    Max(ScaleFixed(cwnd, cfg.lossReductionFactor), cfg.minimumWindow)
  }

  /** The packets below `la` that `detect_lost_packets` does not declare
      lost. */
  function Survivors(r: Recovery, cfg: Config, now: nat, la: nat): set<nat> {
    (set k | k in r.sent && k < la) - LostSet(r, cfg, now, la)
  }

  /** The `loss_time` `detect_lost_packets` arms: one loss delay after the
      oldest packet below `la` that was not declared lost, or 0 (no loss
      time) when no delay applies or no such packet survives. A survivor
      has been outstanding for less than the delay, so an armed loss time
      is never 0 and never in the past. */
  function LossTimeFor(r: Recovery, cfg: Config, now: nat, la: nat): (t: nat)
    requires ClockAfterSends(r, now)
    ensures t != 0 <==> DelayFor(r, cfg, la).Some? && Survivors(r, cfg, now, la) != {}
    ensures t != 0 ==>
      var first := Least(Survivors(r, cfg, now, la));
      first in r.sent && t == r.sent[first].time + DelayFor(r, cfg, la).value
    ensures t != 0 ==> t > now
    ensures t != 0 ==>
      (exists k :: k in r.sent && k < la && k !in LostSet(r, cfg, now, la) &&
         t == r.sent[k].time + DelayFor(r, cfg, la).value)
  {
    var delay := DelayFor(r, cfg, la);
    var survivors := Survivors(r, cfg, now, la);
    if delay.None? || survivors == {} then 0
    else
      var first := Least(survivors);
      assert first in survivors;
      assert !PacketLost(r.sent[first], first, la, now, delay, r.reorderingThreshold);
      var timeSinceSent := now - r.sent[first].time;
      now + delay.value - timeSinceSent
  }

  /** `loss_time` is the deadline of the oldest survivor: loss detection
      run again with the same state at a later time declares it lost
      exactly when the clock has reached `loss_time`. */
  lemma LossTimeIsDeadline(r: Recovery, cfg: Config, now: nat, later: nat, la: nat)
    requires ClockAfterSends(r, now) && now <= later
    requires LossTimeFor(r, cfg, now, la) != 0
    ensures var first := Least(Survivors(r, cfg, now, la));
      && first in r.sent && first < la
      && (first in LostSet(r, cfg, later, la) <==> later >= LossTimeFor(r, cfg, now, la))
  {
  }

  /** `detect_lost_packets`: declare lost every packet below `la` that
      `PacketLost` selects, requeue its frames, arm `loss_time` for the
      first survivor, and start a new recovery epoch when `StartsEpoch`
      holds (see `DetectLostPacketsWindow`). */
  function DetectLostPackets(r: Recovery, cfg: Config, now: nat, la: nat): (o: Recovery)
    requires Valid(r) && Sane(cfg)
    requires ClockAfterSends(r, now)
    ensures Valid(o)
    ensures forall k :: k in o.sent <==> k in r.sent && k !in LostSet(r, cfg, now, la)
    ensures forall k :: k in r.sent && k >= la ==> k in o.sent
    ensures forall k :: k in o.sent ==> o.sent[k] == r.sent[k]
    ensures o.lossTime == LossTimeFor(r, cfg, now, la)
    ensures o == r.(sent := o.sent, bytesInFlight := o.bytesInFlight, pending := o.pending,
                    handshakePending := o.handshakePending, lossTime := o.lossTime,
                    endOfRecovery := o.endOfRecovery, congestionWindow := o.congestionWindow,
                    ssthresh := o.ssthresh)
  {
    var lost := LostSet(r, cfg, now, la);
    var r1 := r.(lossTime := LossTimeFor(r, cfg, now, la));
    if lost == {} then r1
    else
      var order := Ascending(lost);
      AscendingLast(lost);
      var largestLost := order[|order| - 1];
      var r2 := RemoveLost(r1, order);
      var lostNonAck := r2.bytesInFlight != r1.bytesInFlight;
      if lostNonAck && !InRecovery(r1, largestLost) then
        var w := ReducedWindow(r.congestionWindow, cfg);
        r2.(endOfRecovery := r.largestSent, congestionWindow := w, ssthresh := w)
      else r2
  }

  /** Loss detection only appends to the retransmission queues and requeues
      every stream frame of every lost packet. */
  lemma DetectLostPacketsRequeues(r: Recovery, cfg: Config, now: nat, la: nat)
    requires Valid(r) && Sane(cfg) && ClockAfterSends(r, now)
    ensures QueuesExtend(r, DetectLostPackets(r, cfg, now, la))
    ensures forall k :: k in LostSet(r, cfg, now, la) ==> Requeued(r.sent[k], DetectLostPackets(r, cfg, now, la))
  {
    var lost := LostSet(r, cfg, now, la);
    if lost != {} {
      var r1 := r.(lossTime := LossTimeFor(r, cfg, now, la));
      var order := Ascending(lost);
      RemoveLostRequeues(r1, order);
      var r2 := RemoveLost(r1, order);
      var o := DetectLostPackets(r, cfg, now, la);
      assert o.pending == r2.pending && o.handshakePending == r2.handshakePending;
      forall k | k in lost
        ensures Requeued(r.sent[k], o)
      {
        assert k in order;
        assert Requeued(r1.sent[k], r2);
      }
    }
  }

  /** The lost packets, taken in ascending order, split into "some lost
      packet was not ACK-only" and "the largest lost lies beyond the epoch". */
  lemma StartsEpochByOrder(r: Recovery, lost: set<nat>)
    requires Valid(r) && lost != {}
    requires forall k :: k in lost ==> k in r.sent
    ensures var order := Ascending(lost);
      |order| > 0 &&
      (StartsEpoch(r.sent, r.endOfRecovery, lost) <==>
        !AllAckOnly(r, order) && order[|order| - 1] > r.endOfRecovery)
  {
    var order := Ascending(lost);
    AscendingLast(lost);
    var largestLost := order[|order| - 1];
    assert (exists k :: k in lost && k > r.endOfRecovery) <==> largestLost > r.endOfRecovery;
  }

  /** The step of `detect_lost_packets` after the lost packets have been
      removed from `r1`, leaving `r2`. */
  lemma DetectLostPacketsUnfold(r: Recovery, cfg: Config, now: nat, la: nat)
    requires Valid(r) && Sane(cfg) && ClockAfterSends(r, now)
    requires LostSet(r, cfg, now, la) != {}
    ensures
      var lost := LostSet(r, cfg, now, la);
      var r1 := r.(lossTime := LossTimeFor(r, cfg, now, la));
      var order := Ascending(lost);
      |order| > 0 &&
      var r2 := RemoveLost(r1, order);
      var o := DetectLostPackets(r, cfg, now, la);
      if r2.bytesInFlight != r1.bytesInFlight && !InRecovery(r1, order[|order| - 1]) then
        o.congestionWindow == ReducedWindow(r.congestionWindow, cfg) &&
        o.ssthresh == o.congestionWindow && o.endOfRecovery == r.largestSent
      else
        o.congestionWindow == r.congestionWindow && o.ssthresh == r.ssthresh && o.endOfRecovery == r.endOfRecovery
  {
    AscendingLast(LostSet(r, cfg, now, la));
  }

  /** `StartsEpoch` is the source's condition for cutting the window: some
      removed packet was not ACK-only and the largest lost one lies beyond
      the current epoch. */
  lemma StartsEpochByCut(r1: Recovery, lost: set<nat>)
    requires Valid(r1) && lost != {}
    requires forall k :: k in lost ==> k in r1.sent
    ensures
      var order := Ascending(lost);
      |order| > 0 &&
      (StartsEpoch(r1.sent, r1.endOfRecovery, lost) <==>
         RemoveLost(r1, order).bytesInFlight != r1.bytesInFlight && !InRecovery(r1, order[|order| - 1]))
  {
    RemoveLostInFlight(r1, Ascending(lost));
    StartsEpochByOrder(r1, lost);
  }

  /** Whether `detect_lost_packets` cuts the window: the removed packets
      lowered `bytes_in_flight` and the largest of them lies beyond the
      current epoch. */
  predicate CutsWindow(r: Recovery, cfg: Config, now: nat, la: nat)
    requires Valid(r) && Sane(cfg) && ClockAfterSends(r, now)
  {
    var lost := LostSet(r, cfg, now, la);
    var r1 := r.(lossTime := LossTimeFor(r, cfg, now, la));
    var order := Ascending(lost);
    lost != {} && |order| > 0 &&
    RemoveLost(r1, order).bytesInFlight != r1.bytesInFlight && !InRecovery(r1, order[|order| - 1])
  }

  /** `CutsWindow` is exactly `StartsEpoch` of the lost packets. */
  lemma CutsWindowStartsEpoch(r: Recovery, cfg: Config, now: nat, la: nat)
    requires Valid(r) && Sane(cfg) && ClockAfterSends(r, now)
    ensures CutsWindow(r, cfg, now, la) <==> StartsEpoch(r.sent, r.endOfRecovery, LostSet(r, cfg, now, la))
  {
    var lost := LostSet(r, cfg, now, la);
    if lost != {} {
      var r1 := r.(lossTime := LossTimeFor(r, cfg, now, la));
      var order := Ascending(lost);
      LostSetInSent(r, cfg, now, la);
      assert r1.sent == r.sent && r1.endOfRecovery == r.endOfRecovery;
      assert |order| > 0 &&
        (StartsEpoch(r1.sent, r1.endOfRecovery, lost) <==>
           RemoveLost(r1, order).bytesInFlight != r1.bytesInFlight && !InRecovery(r1, order[|order| - 1])) by {
        ValidWithLossTime(r, LossTimeFor(r, cfg, now, la));
        StartsEpochByCut(r1, lost);
      }
    }
  }

  /** Only recorded packets are declared lost. */
  lemma LostSetInSent(r: Recovery, cfg: Config, now: nat, la: nat)
    ensures forall k :: k in LostSet(r, cfg, now, la) ==> k in r.sent && k < la
  {
  }

  /** Arming `loss_time` does not touch what `Valid` constrains. */
  lemma ValidWithLossTime(r: Recovery, t: nat)
    requires Valid(r)
    ensures Valid(r.(lossTime := t))
  {
  }

  /** `detect_lost_packets` applies the cut exactly when `CutsWindow`
      holds. */
  lemma DetectLostPacketsCut(r: Recovery, cfg: Config, now: nat, la: nat)
    requires Valid(r) && Sane(cfg) && ClockAfterSends(r, now)
    ensures var o := DetectLostPackets(r, cfg, now, la);
      if CutsWindow(r, cfg, now, la) then
        && o.endOfRecovery == r.largestSent
        && o.congestionWindow == ReducedWindow(r.congestionWindow, cfg)
        && o.ssthresh == o.congestionWindow
      else
        o.congestionWindow == r.congestionWindow && o.ssthresh == r.ssthresh && o.endOfRecovery == r.endOfRecovery
  {
    if LostSet(r, cfg, now, la) != {} {
      DetectLostPacketsUnfold(r, cfg, now, la);
    }
  }

  /** The window is cut (and a new epoch begun at the largest packet sent)
      exactly when `StartsEpoch` holds for the lost packets; otherwise the
      window, `ssthresh` and the epoch are unchanged. */
  lemma DetectLostPacketsWindow(r: Recovery, cfg: Config, now: nat, la: nat)
    requires Valid(r) && Sane(cfg) && ClockAfterSends(r, now)
    ensures var o := DetectLostPackets(r, cfg, now, la);
      if StartsEpoch(r.sent, r.endOfRecovery, LostSet(r, cfg, now, la)) then
        && o.endOfRecovery == r.largestSent
        && o.congestionWindow == ReducedWindow(r.congestionWindow, cfg)
        && o.ssthresh == o.congestionWindow
      else
        o.congestionWindow == r.congestionWindow && o.ssthresh == r.ssthresh && o.endOfRecovery == r.endOfRecovery
  {
    CutsWindowStartsEpoch(r, cfg, now, la);
    DetectLostPacketsCut(r, cfg, now, la);
  }

  /** After loss detection starts a new recovery epoch, `in_recovery` holds
      of every packet still outstanding and of none sent afterwards, so
      later losses of these packets do not cut the window again. */
  lemma EpochCoversSent(r: Recovery, cfg: Config, now: nat, la: nat)
    requires Valid(r) && Sane(cfg) && ClockAfterSends(r, now)
    requires StartsEpoch(r.sent, r.endOfRecovery, LostSet(r, cfg, now, la))
    ensures var o := DetectLostPackets(r, cfg, now, la);
      && (forall k :: k in o.sent ==> InRecovery(o, k))
      && (forall k :: k > o.largestSent ==> !InRecovery(o, k))
  {
    DetectLostPacketsWindow(r, cfg, now, la);
  }

  /** Loss detection never raises `bytes_in_flight`. */
  lemma DetectLostPacketsInFlight(r: Recovery, cfg: Config, now: nat, la: nat)
    requires Valid(r) && Sane(cfg) && ClockAfterSends(r, now)
    ensures DetectLostPackets(r, cfg, now, la).bytesInFlight <= r.bytesInFlight
  {
    var lost := LostSet(r, cfg, now, la);
    if lost != {} {
      RemoveLostInFlight(r.(lossTime := LossTimeFor(r, cfg, now, la)), Ascending(lost));
    }
  }

  /** Once a recovery epoch covers every packet sent so far, no further loss
      detection shrinks the window. */
  lemma NoReductionWithinEpoch(r: Recovery, cfg: Config, now: nat, la: nat)
    requires Valid(r) && Sane(cfg) && ClockAfterSends(r, now)
    requires r.endOfRecovery >= r.largestSent
    ensures DetectLostPackets(r, cfg, now, la).congestionWindow == r.congestionWindow
    ensures DetectLostPackets(r, cfg, now, la).ssthresh == r.ssthresh
  {
    DetectLostPacketsWindow(r, cfg, now, la);
  }

  /** The window is reduced at most once per recovery epoch: after a loss
      event that reduced it, a second loss detection with no packets sent in
      between leaves it as it is. */
  lemma ReducedOncePerEpoch(r: Recovery, cfg: Config, now1: nat, la1: nat, now2: nat, la2: nat)
    requires Valid(r) && Sane(cfg) && ClockAfterSends(r, now1) && ClockAfterSends(r, now2)
    requires DetectLostPackets(r, cfg, now1, la1).endOfRecovery != r.endOfRecovery
    ensures
      var o1 := DetectLostPackets(r, cfg, now1, la1);
      ClockAfterSends(o1, now2) &&
      DetectLostPackets(o1, cfg, now2, la2).congestionWindow == o1.congestionWindow
  {
    var o1 := DetectLostPackets(r, cfg, now1, la1);
    assert o1.endOfRecovery == r.largestSent == o1.largestSent;
    NoReductionWithinEpoch(o1, cfg, now2, la2);
  }

  /** An ACK frame: the largest acknowledged number, the encoded ack delay
      and the packet numbers its ranges cover, in the order the frame's
      range iterator yields them (ascending within each range). */
  datatype Ack = Ack(largest: nat, delay: nat, acked: seq<nat>)

  /** The RTT estimator after `ack`: updated with the age of the largest
      acknowledged packet when that packet is still outstanding. */
  function AckRtt(r: Recovery, ackDelayExponent: nat, now: nat, ack: Ack): (e: Rtt.Estimator)
    requires ClockAfterSends(r, now)
    ensures ack.largest !in r.sent ==> e == r.rtt
    ensures ack.largest in r.sent ==>
      e == Rtt.Update(r.rtt.(latest := now - r.sent[ack.largest].time), ack.delay * Pow2(ackDelayExponent),
                      AckOnly(r.sent[ack.largest]))
    ensures ack.largest in r.sent ==> e.min <= now - r.sent[ack.largest].time
  {
    if ack.largest in r.sent then
      var info := r.sent[ack.largest];
      Rtt.Update(r.rtt.(latest := now - info.time), ack.delay * Pow2(ackDelayExponent), AckOnly(info))
    else r.rtt
  }

  /** The state after the first half of `on_ack_received`: `largest_acked`
      raised, the RTT sampled and every covered packet acknowledged. */
  function Acknowledged(r: Recovery, cfg: Config, ackDelayExponent: nat, now: nat, ack: Ack): (o: Recovery)
    requires Valid(r) && Sane(cfg) && ClockAfterSends(r, now)
    ensures Valid(o) && ClockAfterSends(o, now)
    ensures forall k :: k in o.sent <==> k in r.sent && k !in ack.acked
    ensures forall k :: k in o.sent ==> o.sent[k] == r.sent[k]
    ensures o.bytesInFlight <= r.bytesInFlight
    ensures o.largestAcked == Max(r.largestAcked, ack.largest) && o.largestSent == r.largestSent
    ensures o.rtt == AckRtt(r, ackDelayExponent, now, ack)
    ensures AcksOutstanding(r.sent, ack.acked) ==> o.handshakeCount == 0 && o.tlpCount == 0 && o.rtoCount == 0
    ensures !AcksOutstanding(r.sent, ack.acked) ==>
      o.congestionWindow == r.congestionWindow &&
      o.handshakeCount == r.handshakeCount && o.tlpCount == r.tlpCount && o.rtoCount == r.rtoCount
    ensures o.pendingAcks == r.pendingAcks - AcksCarried(r.sent, ack.acked)
    ensures o == r.(
      largestAcked := o.largestAcked, rtt := o.rtt,
      sent := o.sent, bytesInFlight := o.bytesInFlight, congestionWindow := o.congestionWindow,
      handshakeCount := o.handshakeCount, tlpCount := o.tlpCount, rtoCount := o.rtoCount,
      pendingAcks := o.pendingAcks)
  {
    var r1 := r.(largestAcked := Max(r.largestAcked, ack.largest), rtt := AckRtt(r, ackDelayExponent, now, ack));
    AckPackets(r1, cfg, ack.acked)
  }

  /** `on_ack_received` (recovery part): raise `largest_acked`, take an RTT
      sample when the largest acknowledged packet is still outstanding,
      acknowledge the covered packets, detect losses and re-arm the alarm.
      A packet survives exactly when it was neither acknowledged nor
      declared lost; none at or above the largest acknowledged is lost. */
  function OnAckReceived(r: Recovery, cfg: Config, ackDelayExponent: nat, now: nat, ack: Ack): (o: Recovery)
    requires Valid(r) && Sane(cfg)
    requires ClockAfterSends(r, now)
    ensures Valid(o)
    ensures forall k :: k in ack.acked ==> k !in o.sent
    ensures forall k :: k in o.sent ==> k in r.sent && o.sent[k] == r.sent[k]
    ensures forall k :: k in o.sent <==>
      k in r.sent && k !in ack.acked && k !in LostSet(Acknowledged(r, cfg, ackDelayExponent, now, ack), cfg, now, ack.largest)
    ensures forall k :: k in r.sent && k !in ack.acked && k >= ack.largest ==> k in o.sent
    ensures o.largestAcked == Max(r.largestAcked, ack.largest)
    ensures o.bytesInFlight <= r.bytesInFlight
    ensures o.rtt == AckRtt(r, ackDelayExponent, now, ack)
    ensures o.setLossDetection == LossAlarm(o, cfg)
    ensures o.setLossDetection.Stop? <==> o.bytesInFlight == 0
    ensures ack.largest in r.sent ==> o.rtt.min <= now - r.sent[ack.largest].time
    ensures ack.largest !in r.sent ==> o.rtt == r.rtt
    ensures AcksOutstanding(r.sent, ack.acked) ==> o.handshakeCount == 0 && o.tlpCount == 0 && o.rtoCount == 0
    ensures !AcksOutstanding(r.sent, ack.acked) ==>
      o.handshakeCount == r.handshakeCount && o.tlpCount == r.tlpCount && o.rtoCount == r.rtoCount
    ensures o.pendingAcks == r.pendingAcks - AcksCarried(r.sent, ack.acked)
    ensures QueuesExtend(r, o)
    ensures var a := Acknowledged(r, cfg, ackDelayExponent, now, ack);
      forall k :: k in LostSet(a, cfg, now, ack.largest) ==> k in r.sent && Requeued(r.sent[k], o)
    ensures var a := Acknowledged(r, cfg, ackDelayExponent, now, ack);
      o.lossTime == LossTimeFor(a, cfg, now, ack.largest)
    ensures var a := Acknowledged(r, cfg, ackDelayExponent, now, ack);
      if StartsEpoch(a.sent, a.endOfRecovery, LostSet(a, cfg, now, ack.largest)) then
        && o.endOfRecovery == r.largestSent
        && o.congestionWindow == ReducedWindow(a.congestionWindow, cfg)
        && o.ssthresh == o.congestionWindow
      else
        o.congestionWindow == a.congestionWindow && o.ssthresh == r.ssthresh && o.endOfRecovery == r.endOfRecovery
  {
    var r3 := Acknowledged(r, cfg, ackDelayExponent, now, ack);
    var r4 := DetectLostPackets(r3, cfg, now, ack.largest);
    DetectLostPacketsInFlight(r3, cfg, now, ack.largest);
    DetectLostPacketsRequeues(r3, cfg, now, ack.largest);
    DetectLostPacketsWindow(r3, cfg, now, ack.largest);
    LostSetInSent(r3, cfg, now, ack.largest);
    assert forall k :: k in LostSet(r3, cfg, now, ack.largest) ==> r3.sent[k] == r.sent[k];
    var o := r4.(setLossDetection := LossAlarm(r4, cfg));
    LossAlarmIgnoresSetting(r4, cfg, LossAlarm(r4, cfg));
    assert o.sent == r4.sent && o.rtt == r3.rtt && o.largestAcked == r3.largestAcked;
    o
  }

  /** The handshake-retransmission branch of `check_packet_loss`: every
      handshake packet is dropped from the sent map and its frames queued on
      `handshake_pending`. */
  function RetransmitHandshake(r: Recovery): (o: Recovery)
    requires Valid(r)
    ensures Valid(o)
    ensures forall k :: k in o.sent <==> k in r.sent && !r.sent[k].handshake
    ensures forall k :: k in o.sent ==> o.sent[k] == r.sent[k]
    ensures forall k :: k in r.sent && r.sent[k].handshake ==> Requeued(r.sent[k], o)
    ensures o.pending == r.pending
    ensures o.handshakeCount == r.handshakeCount + 1
  {
    var hs := set k | k in r.sent && r.sent[k].handshake;
    var o := RemoveLost(r, Ascending(hs));
    RemoveLostRequeues(r, Ascending(hs));
    var o' := o.(handshakeCount := r.handshakeCount + 1);
    assert forall k :: k in hs ==> Requeued(r.sent[k], o) ==> Requeued(r.sent[k], o');
    o'
  }

  /** `force_transmit`'s bookkeeping: a fresh packet number and a record of
      a `probeBytes`-long probe packet. `None` is the packet-number
      assertion failure. */
  function SendProbe(r: Recovery, cfg: Config, now: nat, probeBytes: nat): (o: Option<Recovery>)
    requires Valid(r)
    ensures o.Some? <==> r.largestSent + 1 < PacketNumberLimit
    ensures o.Some? ==>
      && Valid(o.value)
      && o.value.largestSent == r.largestSent + 1
      && o.value.sent == r.sent[r.largestSent + 1 := SentPacket(now, probeBytes, false, {}, Empty())]
      && o.value.bytesInFlight == r.bytesInFlight + probeBytes
      && o.value == r.(largestSent := o.value.largestSent, sent := o.value.sent,
                       bytesInFlight := o.value.bytesInFlight, setLossDetection := o.value.setLossDetection,
                       timeOfLastSentRetransmittable := o.value.timeOfLastSentRetransmittable)
  {
    match GetTxNumber(r)
    case None => None
    case Some(n) =>
      Some(OnPacketSent(n.rec, cfg, now, n.number, SentPacket(now, probeBytes, false, {}, Empty())))
  }
}

=== FILE: retransmits.dfy ===
/** The retransmit queue (`Retransmits`): the frames a packet carried that
    must be sent again if it is lost, and the queues of frames waiting to
    be sent. */
module Retransmit {
  import opened Wrappers
  import opened Quic

  /** A STREAM frame: `data` starting at `offset` on stream `id`. */
  datatype StreamFrame = StreamFrame(id: StreamId, offset: nat, fin: bool, data: seq<Byte>)

  /** A pending PATH_RESPONSE: the number of the packet that carried the
      challenge and the challenge token. */
  datatype PathResponse = PathResponse(packet: nat, token: nat)

  datatype Retransmits = Retransmits(
    maxData: bool,
    maxUniStreamId: bool,
    maxBiStreamId: bool,
    ping: bool,
    newConnectionId: Option<Cid>,
    stream: seq<StreamFrame>,
    pathResponse: Option<PathResponse>,
    rstStream: seq<(StreamId, nat)>,
    stopSending: seq<(StreamId, nat)>,
    maxStreamData: set<StreamId>)

  /** `Retransmits::default()`. */
  function Empty(): (r: Retransmits)
    ensures IsEmpty(r)
  {
    Retransmits(false, false, false, false, None, [], None, [], [], {})
  }

  /** Nothing is queued. */
  predicate IsEmpty(r: Retransmits) {
    && !r.maxData
    && !r.maxUniStreamId
    && !r.maxBiStreamId
    && !r.ping
    && r.newConnectionId.None?
    && r.stream == []
    && r.pathResponse.None?
    && r.rstStream == []
    && r.stopSending == []
    && r.maxStreamData == {}
  }

  /** The only empty queue is the default one. */
  lemma EmptyIsUnique(r: Retransmits)
    ensures IsEmpty(r) <==> r == Empty()
  {
  }

  /** The path response kept when `incoming` arrives while `current` is
      queued: the one answering the later packet, the earlier on a tie. */
  function LaterResponse(current: Option<PathResponse>, incoming: Option<PathResponse>): Option<PathResponse> {
    match incoming
    case None => current
    case Some(x) =>
      match current
      case None => incoming
      case Some(existing) => if x.packet > existing.packet then incoming else current
  }

  /** Answer the challenge carried by packet `packet`, unless a response
      to a challenge from a later packet is already queued. */
  function PathChallenge(r: Retransmits, packet: nat, token: nat): (o: Retransmits)
    ensures o.pathResponse.Some?
    ensures o.pathResponse.value == PathResponse(packet, token) || o.pathResponse == r.pathResponse
    ensures o.pathResponse.value.packet == (if r.pathResponse.Some? then Max(r.pathResponse.value.packet, packet) else packet)
    ensures r.pathResponse.Some? && r.pathResponse.value.packet >= packet ==> o == r
    ensures o == r.(pathResponse := o.pathResponse)
  {
    r.(pathResponse := LaterResponse(r.pathResponse, Some(PathResponse(packet, token))))
  }

  /** `lhs += rhs`: flags are or-ed, queues appended, a later connection id
      replaces an earlier one and path responses keep the latest challenge. */
  function Merge(a: Retransmits, b: Retransmits): (r: Retransmits)
    ensures r.maxData == (a.maxData || b.maxData) && r.ping == (a.ping || b.ping)
    ensures r.maxUniStreamId == (a.maxUniStreamId || b.maxUniStreamId)
    ensures r.maxBiStreamId == (a.maxBiStreamId || b.maxBiStreamId)
    ensures r.newConnectionId == (if b.newConnectionId.Some? then b.newConnectionId else a.newConnectionId)
    ensures b.pathResponse.None? ==> r.pathResponse == a.pathResponse
    ensures b.pathResponse.Some? ==>
      r.pathResponse == PathChallenge(a, b.pathResponse.value.packet, b.pathResponse.value.token).pathResponse
    ensures r.stream == a.stream + b.stream
    ensures r.rstStream == a.rstStream + b.rstStream
    ensures r.stopSending == a.stopSending + b.stopSending
    ensures r.maxStreamData == a.maxStreamData + b.maxStreamData
  {
    Retransmits(
      a.maxData || b.maxData,
      a.maxUniStreamId || b.maxUniStreamId,
      a.maxBiStreamId || b.maxBiStreamId,
      a.ping || b.ping,
      if b.newConnectionId.Some? then b.newConnectionId else a.newConnectionId,
      a.stream + b.stream,
      LaterResponse(a.pathResponse, b.pathResponse),
      a.rstStream + b.rstStream,
      a.stopSending + b.stopSending,
      a.maxStreamData + b.maxStreamData)
  }

  lemma LaterResponseAssociative(x: Option<PathResponse>, y: Option<PathResponse>, z: Option<PathResponse>)
    ensures LaterResponse(LaterResponse(x, y), z) == LaterResponse(x, LaterResponse(y, z))
  {
  }

  /** The empty queue is a two-sided identity of `Merge`. */
  lemma MergeIdentity(a: Retransmits)
    ensures Merge(Empty(), a) == a
    ensures Merge(a, Empty()) == a
  {
  }

  /** A merge is empty exactly when both operands are. */
  lemma MergeEmptyIff(a: Retransmits, b: Retransmits)
    ensures IsEmpty(Merge(a, b)) <==> IsEmpty(a) && IsEmpty(b)
  {
  }

  /** Merging is associative, so folding the retransmits of several lost
      packets does not depend on how the folds are grouped. */
  lemma MergeAssociative(a: Retransmits, b: Retransmits, c: Retransmits)
    ensures Merge(Merge(a, b), c) == Merge(a, Merge(b, c))
  {
    LaterResponseAssociative(a.pathResponse, b.pathResponse, c.pathResponse);
    assert (a.stream + b.stream) + c.stream == a.stream + (b.stream + c.stream);
    assert (a.rstStream + b.rstStream) + c.rstStream == a.rstStream + (b.rstStream + c.rstStream);
    assert (a.stopSending + b.stopSending) + c.stopSending == a.stopSending + (b.stopSending + c.stopSending);
  }

  /** Nothing queued before a merge is lost by it: every queued frame,
      reset and stop request of either operand is still queued. */
  lemma MergeKeepsFrames(a: Retransmits, b: Retransmits, f: StreamFrame)
    requires f in a.stream || f in b.stream
    ensures f in Merge(a, b).stream
  {
  }
}

=== FILE: rtt.dfy ===
/** Round-trip-time estimation (`update_rtt`): the integer form of the
    estimator of section 2 of RFC 6298, with QUIC's ack-delay correction
    and minimum-RTT tracking. All values are microseconds. */
module Rtt {
  import opened Quic

  datatype Estimator = Estimator(
    latest: nat,       // most recent sample
    smoothed: nat,     // SRTT; 0 until the first sample
    variance: nat,     // RTTVAR
    min: nat,          // smallest sample seen, ignoring ack delay
    maxAckDelay: nat)  // largest ack delay that was subtracted from a sample

  /** The estimator of a fresh connection: no sample yet, and a minimum of
      `u64::max_value()` so that the first sample replaces it. */
  function Initial(): Estimator {
    Estimator(0, 0, 0, U64Max, 0)
  }

  /** RFC 6298 gains: alpha = 1/8, beta = 1/4. */
  const Alpha: real := 0.125
  const Beta: real := 0.25

  function RealAbs(x: real): real {
    if x < 0.0 then -x else x
  }

  /** RFC 6298 section 2 rule (2.3), in exact arithmetic:
      SRTT <- (1 - alpha) * SRTT + alpha * R'. */
  function RfcSmoothed(srtt: real, sample: real): real {
    (1.0 - Alpha) * srtt + Alpha * sample
  }

  /** RFC 6298 section 2 rule (2.3), in exact arithmetic:
      RTTVAR <- (1 - beta) * RTTVAR + beta * |SRTT - R'|, using the SRTT
      from before this sample. */
  function RfcVariance(rttvar: real, srtt: real, sample: real): real {
    (1.0 - Beta) * rttvar + Beta * RealAbs(srtt - sample)
  }

  /** Integer division rounds the exact quotient down. */
  lemma DivIsFloor(x: nat, d: nat)
    requires d > 0
    ensures x / d == ((x as real) / (d as real)).Floor
  {
    var q := x / d;
    var r := x % d;
    assert x == q * d + r;
    assert (x as real) == (q as real) * (d as real) + (r as real);
    assert (x as real) / (d as real) == (q as real) + (r as real) / (d as real);
    assert 0.0 <= (r as real) / (d as real) < 1.0;
  }

  /** Absolute difference of two unsigned values, as the source computes
      it through `i64`. */
  function AbsDiff(a: nat, b: nat): (r: nat)
    ensures r as real == RealAbs(a as real - b as real)
  {
    if a >= b then a - b else b - a
  }

  /** `update_rtt`: fold the sample in `e.latest` into the estimator. The
      ack delay is subtracted only when what remains still exceeds the
      minimum RTT; the first sample initialises SRTT and RTTVAR, later ones
      are combined by the RFC 6298 gains, rounded down. */
  function Update(e: Estimator, ackDelay: nat, ackOnly: bool): (r: Estimator)
    ensures r.min == Min(e.min, e.latest)
    ensures r.min <= r.latest <= e.latest
    ensures r.latest == e.latest || r.latest + ackDelay == e.latest
    ensures r.latest < e.latest <==> ackDelay > 0 && e.latest - r.min > ackDelay
    ensures r.maxAckDelay >= e.maxAckDelay
    ensures r.maxAckDelay == e.maxAckDelay || (!ackOnly && r.maxAckDelay == ackDelay)
    ensures e.smoothed == 0 ==> r.smoothed == r.latest && r.variance == r.latest / 2
    ensures e.smoothed != 0 ==>
      r.smoothed == RfcSmoothed(e.smoothed as real, r.latest as real).Floor &&
      r.variance == RfcVariance(e.variance as real, e.smoothed as real, r.latest as real).Floor
    ensures e.smoothed != 0 ==> Min(e.smoothed, r.latest) <= r.smoothed <= Max(e.smoothed, r.latest)
  {
    var minRtt := Min(e.min, e.latest);
    var adjusted := e.latest - minRtt > ackDelay;
    var latest := if adjusted then e.latest - ackDelay else e.latest;
    var maxAckDelay := if adjusted && !ackOnly then Max(e.maxAckDelay, ackDelay) else e.maxAckDelay;
    if e.smoothed == 0 then
      Estimator(latest, latest, latest / 2, minRtt, maxAckDelay)
    else
      var sample := AbsDiff(e.smoothed, latest);
      var variance := (3 * e.variance + sample) / 4;
      var smoothed := (7 * e.smoothed + latest) / 8;
      RfcAgreement(e.smoothed, e.variance, latest);
      Estimator(latest, smoothed, variance, minRtt, maxAckDelay)
  }

  /** The integer updates are the RFC 6298 updates rounded down, and the
      new SRTT lies between the old SRTT and the sample. */
  lemma RfcAgreement(srtt: nat, rttvar: nat, sample: nat)
    ensures (7 * srtt + sample) / 8 == RfcSmoothed(srtt as real, sample as real).Floor
    ensures (3 * rttvar + AbsDiff(srtt, sample)) / 4 == RfcVariance(rttvar as real, srtt as real, sample as real).Floor
    ensures Min(srtt, sample) <= (7 * srtt + sample) / 8 <= Max(srtt, sample)
  {
    DivIsFloor(7 * srtt + sample, 8);
    assert ((7 * srtt + sample) as real) / (8 as real) == RfcSmoothed(srtt as real, sample as real);
    DivIsFloor(3 * rttvar + AbsDiff(srtt, sample), 4);
    assert ((3 * rttvar + AbsDiff(srtt, sample)) as real) / (4 as real)
        == RfcVariance(rttvar as real, srtt as real, sample as real);
  }
}

=== FILE: streams.dfy ===
/** The per-connection stream table (`Streams`) and the stream operations
    the application drives: opening, finishing and resetting streams, and
    the admissibility check for streams named by incoming frames.

    The send and receive halves keep only what the connection logic reads:
    offsets, flow-control limits, the received offsets and the state. The
    buffers, the reassembler and the range set of the stream module are not
    part of this model. */
module Streams {
  import opened Wrappers
  import opened Quic
  import opened Retransmit

  /** The send-side states; a reset carries the STOP_SENDING code that
      caused it, if any. */
  datatype SendState =
    | Ready
    | DataSent
    | DataRecvd
    | ResetSent(stopReason: Option<nat>)
    | ResetRecvd(stopReason: Option<nat>)

  /** `offset` is how much has been written, `maxData` the peer's limit. */
  datatype SendStream = SendStream(offset: nat, maxData: nat, state: SendState)

  /** The receive-side states: still receiving (final size known once a
      FIN arrived), all data received (`DataRecvd`), or reset by the peer
      (`ResetRecvd`). */
  datatype RecvState =
    | Recv(knownSize: Option<nat>)
    | AllReceived(size: nat)
    | PeerReset(size: nat, errorCode: nat)

  /** `maxData` is the local flow-control limit, `limit` the largest end
      offset received so far and `recvd` the set of byte offsets received. */
  datatype RecvStream = RecvStream(maxData: nat, limit: nat, recvd: set<nat>, state: RecvState)

  datatype Stream = Stream(send: Option<SendStream>, recv: Option<RecvStream>)

  function NewSend(): SendStream {
    SendStream(0, 0, Ready)
  }

  function NewRecv(window: nat): RecvStream {
    RecvStream(window, 0, {}, Recv(None))
  }

  function NewBi(window: nat): Stream {
    Stream(Some(NewSend()), Some(NewRecv(window)))
  }

  /** The final size, once the peer has fixed it. */
  function FinalOffset(rs: RecvStream): (o: Option<nat>)
    ensures o.None? <==> rs.state == Recv(None)
  {
    match rs.state
    case Recv(known) => known
    case AllReceived(size) => Some(size)
    case PeerReset(size, _) => Some(size)
  }

  /** The receive half needs nothing more from the peer. */
  predicate RecvClosed(rs: RecvStream) {
    rs.state.AllReceived? || rs.state.PeerReset?
  }

  datatype Streams = Streams(
    streams: map<StreamId, Stream>,
    nextUni: nat,
    nextBi: nat,
    maxUni: nat,
    maxBi: nat,
    maxRemoteUni: nat,
    maxRemoteBi: nat)

  /** Whether a stream with this identifier exists for `side` at
      connection start: the handshake stream, the peer's first
      `maxRemoteUni` unidirectional and `maxRemoteBi` bidirectional
      streams. */
  predicate InitiallyOpen(side: Side, maxRemoteUni: nat, maxRemoteBi: nat, id: StreamId) {
    || id == TlsStream
    || (Initiator(id) != side && Dir(id) == Uni && Index(id) < maxRemoteUni)
    || (Initiator(id) != side && Dir(id) == Bi && Index(id) < maxRemoteBi)
  }

  /** The stream table built by `Connection::new`. A server counts the
      client's handshake stream among the peer's bidirectional streams; a
      client counts it among its own. */
  function Initial(side: Side, maxRemoteUniStreams: nat, maxRemoteBiStreams: nat, window: nat): (s: Streams)
    ensures s.maxRemoteUni == maxRemoteUniStreams
    ensures s.maxRemoteBi == maxRemoteBiStreams + (if side == Server then 1 else 0)
    ensures s.nextUni == 0 && s.nextBi == (if side == Client then 1 else 0)
    ensures s.maxUni == 0 && s.maxBi == 0
    ensures forall id :: id in s.streams <==> InitiallyOpen(side, s.maxRemoteUni, s.maxRemoteBi, id)
    ensures forall id :: id in s.streams && Dir(id) == Uni ==> s.streams[id] == Stream(None, Some(NewRecv(window)))
    ensures forall id :: id in s.streams && Dir(id) == Bi ==> s.streams[id] == NewBi(window)
  {
    var maxRemoteBi := maxRemoteBiStreams + (if side == Server then 1 else 0);
    var bound := 4 * (maxRemoteUniStreams + maxRemoteBi + 1);
    var streams := map id: StreamId | id < bound && InitiallyOpen(side, maxRemoteUniStreams, maxRemoteBi, id) ::
      if Dir(id) == Uni then Stream(None, Some(NewRecv(window))) else NewBi(window);
    var s := Streams(streams, 0, if side == Client then 1 else 0, 0, 0, maxRemoteUniStreams, maxRemoteBi);
    assert forall id: StreamId :: InitiallyOpen(side, maxRemoteUniStreams, maxRemoteBi, id) ==> id < bound by {
      forall id: StreamId | InitiallyOpen(side, maxRemoteUniStreams, maxRemoteBi, id)
        ensures id < bound
      {
        assert id == 4 * Index(id) + id % 4;
      }
    }
    s
  }

  /** The initial stream table is consistent. */
  lemma InitialConsistent(side: Side, maxRemoteUniStreams: nat, maxRemoteBiStreams: nat, window: nat)
    ensures Consistent(Initial(side, maxRemoteUniStreams, maxRemoteBiStreams, window), side)
  {
  }

  /** Whether `side` sends, respectively receives, on stream `id`: on
      bidirectional streams both ends do; on a unidirectional stream only
      the initiator sends. */
  predicate Sends(side: Side, id: StreamId) {
    Dir(id) == Bi || Initiator(id) == side
  }

  predicate Receives(side: Side, id: StreamId) {
    Dir(id) == Bi || Initiator(id) != side
  }

  /** The stream-table invariant: every locally initiated stream was
      handed out by `Open` (its index lies below the next index of its
      direction), and a stream has a send half exactly when we send on it
      and a receive half exactly when we receive on it. */
  predicate Consistent(s: Streams, side: Side) {
    && (forall id :: id in s.streams && Initiator(id) == side ==>
          Index(id) < (if Dir(id) == Uni then s.nextUni else s.nextBi))
    && (forall id :: id in s.streams ==>
          (s.streams[id].send.Some? <==> Sends(side, id)) && (s.streams[id].recv.Some? <==> Receives(side, id)))
  }

  /** Consistency depends only on which identifiers are in the table and on
      the next indices. */
  lemma ConsistentSameKeys(s: Streams, o: Streams, side: Side)
    requires o.streams.Keys == s.streams.Keys && o.nextUni == s.nextUni && o.nextBi == s.nextBi
    requires forall id :: id in s.streams ==>
      o.streams[id].send.Some? == s.streams[id].send.Some? && o.streams[id].recv.Some? == s.streams[id].recv.Some?
    ensures Consistent(s, side) ==> Consistent(o, side)
  {
    assert forall id :: id in o.streams ==> id in s.streams;
  }

  /** `Streams::get_recv_stream`: whether the peer may name stream `id` in
      a frame carrying data to us. A stream we initiated must be
      bidirectional and already opened (else STREAM_STATE_ERROR); a stream
      the peer initiated must lie within the limit we granted (else
      STREAM_ID_ERROR). An admissible stream that is no longer in the table
      yields `None`. */
  function GetRecvStream(s: Streams, side: Side, id: StreamId): (r: Result<Option<Stream>, TransportError>)
    ensures r == Err(StreamStateError) <==>
      side == Initiator(id) && (Dir(id) == Uni || Index(id) >= s.nextBi)
    ensures r == Err(StreamIdError) <==>
      side != Initiator(id) && Index(id) >= (if Dir(id) == Bi then s.maxRemoteBi else s.maxRemoteUni)
    ensures r.Err? ==> r == Err(StreamStateError) || r == Err(StreamIdError)
    ensures r.Ok? ==> (r.value.Some? <==> id in s.streams)
    ensures r.Ok? && r.value.Some? ==> r.value.value == s.streams[id]
  {
    if side == Initiator(id) then
      if Dir(id) == Uni then Err(StreamStateError)
      else if Index(id) >= s.nextBi then Err(StreamStateError)
      else Ok(if id in s.streams then Some(s.streams[id]) else None)
    else
      var limit := if Dir(id) == Bi then s.maxRemoteBi else s.maxRemoteUni;
      if Index(id) >= limit then Err(StreamIdError)
      else Ok(if id in s.streams then Some(s.streams[id]) else None)
  }

  /** The send half of stream `id`, if it has one. */
  function SendOf(s: Streams, id: StreamId): Option<SendStream> {
    if id in s.streams then s.streams[id].send else None
  }

  /** Replace the send half of an existing stream. */
  function WithSend(s: Streams, id: StreamId, ss: SendStream): (o: Streams)
    requires SendOf(s, id).Some?
    ensures SendOf(o, id) == Some(ss)
    ensures forall j :: j != id ==> SendOf(o, j) == SendOf(s, j)
    ensures forall j :: RecvOf(o, j) == RecvOf(s, j)
    ensures o.streams.Keys == s.streams.Keys
    ensures o == s.(streams := o.streams)
    ensures forall side :: Consistent(s, side) ==> Consistent(o, side)
  {
    var o := s.(streams := s.streams[id := s.streams[id].(send := Some(ss))]);
    ConsistentSameKeys(s, o, Client);
    ConsistentSameKeys(s, o, Server);
    o
  }

  /** The receive half of stream `id`, if it has one. */
  function RecvOf(s: Streams, id: StreamId): Option<RecvStream> {
    if id in s.streams then s.streams[id].recv else None
  }

  /** Replace the receive half of an existing stream. */
  function WithRecv(s: Streams, side: Side, id: StreamId, rs: RecvStream): (o: Streams)
    requires RecvOf(s, id).Some?
    ensures RecvOf(o, id) == Some(rs)
    ensures forall j :: j != id ==> RecvOf(o, j) == RecvOf(s, j)
    ensures forall j :: SendOf(o, j) == SendOf(s, j)
    ensures o.streams.Keys == s.streams.Keys
    ensures o == s.(streams := o.streams)
    ensures Consistent(s, side) ==> Consistent(o, side)
  {
    var o := s.(streams := s.streams[id := s.streams[id].(recv := Some(rs))]);
    ConsistentSameKeys(s, o, side);
    o
  }

  datatype Opened = Opened(id: StreamId, table: Streams)

  /** `open`: allocate the next locally initiated stream of direction
      `dir` if the peer's limit allows one. `sendLimit` is the peer's
      initial per-stream limit for that kind of stream. */
  function Open(s: Streams, side: Side, dir: Directionality, window: nat, sendLimit: nat): (o: Option<Opened>)
    requires Consistent(s, side)
    ensures o.Some? <==> (if dir == Uni then s.nextUni < s.maxUni else s.nextBi < s.maxBi)
    ensures o.Some? ==>
      && o.value.id !in s.streams
      && o.value.id in o.value.table.streams
      && Initiator(o.value.id) == side && Dir(o.value.id) == dir
      && Index(o.value.id) == (if dir == Uni then s.nextUni else s.nextBi)
      && o.value.table.streams == s.streams[o.value.id := o.value.table.streams[o.value.id]]
      && SendOf(o.value.table, o.value.id) == Some(SendStream(0, sendLimit, Ready))
      && (o.value.table.streams[o.value.id].recv.Some? <==> dir == Bi)
      && Consistent(o.value.table, side)
  {
    match dir
    case Uni =>
      if s.nextUni < s.maxUni then
        var id := MakeStreamId(side, Uni, s.nextUni);
        var st := Stream(Some(SendStream(0, sendLimit, Ready)), None);
        Some(Opened(id, s.(nextUni := s.nextUni + 1, streams := s.streams[id := st])))
      else None
    case Bi =>
      if s.nextBi < s.maxBi then
        var id := MakeStreamId(side, Bi, s.nextBi);
        var st := Stream(Some(SendStream(0, sendLimit, Ready)), Some(NewRecv(window)));
        Some(Opened(id, s.(nextBi := s.nextBi + 1, streams := s.streams[id := st])))
      else None
  }

  /** Two streams opened one after the other get different identifiers,
      whatever their directions. */
  lemma OpenNeverReuses(s: Streams, side: Side, d1: Directionality, d2: Directionality, window: nat, l1: nat, l2: nat)
    requires Consistent(s, side)
    requires Open(s, side, d1, window, l1).Some?
    requires Open(Open(s, side, d1, window, l1).value.table, side, d2, window, l2).Some?
    ensures Open(s, side, d1, window, l1).value.id !=
            Open(Open(s, side, d1, window, l1).value.table, side, d2, window, l2).value.id
  {
    var first := Open(s, side, d1, window, l1).value;
    assert first.id in first.table.streams;
  }

  /** Frame `f` carries data of stream `id` ending at offset `end`. */
  predicate EndsAt(f: StreamFrame, id: StreamId, end: nat) {
    f.id == id && f.offset + |f.data| == end
  }

  /** The position of the first frame of `id` ending at `end`, or `|frames|`
      when there is none. */
  function FirstEndingAt(frames: seq<StreamFrame>, id: StreamId, end: nat): (i: nat)
    ensures i <= |frames|
    ensures i < |frames| ==> EndsAt(frames[i], id, end)
    ensures forall j :: 0 <= j < i ==> !EndsAt(frames[j], id, end)
    decreases |frames|
  {
    if frames == [] then 0
    else if EndsAt(frames[0], id, end) then 0
    else
      var i := FirstEndingAt(frames[1..], id, end);
      assert forall j :: 1 <= j <= i ==> frames[j] == frames[1..][j - 1];
      i + 1
  }

  /** The pending STREAM frames after `finish` on stream `id` whose data
      ends at `end`: the first queued frame of that stream ending there
      gets the FIN bit; if there is none, an empty FIN frame is queued. */
  function FinishFrames(frames: seq<StreamFrame>, id: StreamId, end: nat): (o: seq<StreamFrame>)
    ensures |o| == |frames| <==> exists i :: 0 <= i < |frames| && EndsAt(frames[i], id, end)
    ensures |o| == |frames| || (|o| == |frames| + 1 && o[|frames|] == StreamFrame(id, end, true, []))
    ensures forall i :: 0 <= i < |frames| ==> o[i].(fin := frames[i].fin) == frames[i]
    ensures forall i :: 0 <= i < |frames| && o[i] != frames[i] ==> o[i].id == id && o[i].fin
    ensures forall i, j :: 0 <= j < i < |frames| && o[i] != frames[i] ==> !EndsAt(frames[j], id, end)
    ensures exists i :: 0 <= i < |o| && FinOf(o[i], id, end)
  {
    var i := FirstEndingAt(frames, id, end);
    if i < |frames| then
      var o := frames[i := frames[i].(fin := true)];
      assert FinOf(o[i], id, end);
      o
    else
      var o := frames + [StreamFrame(id, end, true, [])];
      assert FinOf(o[|frames|], id, end);
      o
  }

  /** `f` is a FIN frame of stream `id` ending at `end`. */
  predicate FinOf(f: StreamFrame, id: StreamId, end: nat) {
    f.id == id && f.fin && f.offset + |f.data| == end
  }

  datatype Finished = Finished(table: Streams, pending: Retransmits)

  /** `finish`: mark the send half of `id` as having sent all its data and
      put a FIN on the queue. The source panics unless the stream has a
      send half in the `Ready` state. */
  function Finish(s: Streams, pending: Retransmits, id: StreamId): (o: Finished)
    requires SendOf(s, id).Some? && SendOf(s, id).value.state == Ready
    ensures SendOf(o.table, id) == Some(SendOf(s, id).value.(state := DataSent))
    ensures forall j :: j != id ==> SendOf(o.table, j) == SendOf(s, j)
    ensures forall j :: RecvOf(o.table, j) == RecvOf(s, j)
    ensures o.table == s.(streams := o.table.streams) && o.table.streams.Keys == s.streams.Keys
    ensures o.pending == pending.(stream := o.pending.stream)
    ensures exists i :: 0 <= i < |o.pending.stream| && FinOf(o.pending.stream[i], id, SendOf(s, id).value.offset)
    ensures pending.stream <= o.pending.stream || |o.pending.stream| == |pending.stream|
    ensures forall i :: 0 <= i < |pending.stream| ==>
      o.pending.stream[i] == pending.stream[i] || (pending.stream[i].id == id && o.pending.stream[i] == pending.stream[i].(fin := true))
    ensures |o.pending.stream| <= |pending.stream| + 1
  {
    var ss := SendOf(s, id).value;
    Finished(WithSend(s, id, ss.(state := DataSent)), pending.(stream := FinishFrames(pending.stream, id, ss.offset)))
  }

  datatype ResetOutcome = ResetOutcome(table: Streams, pending: Retransmits, dirty: bool)

  /** Whether `reset` still has something to abandon on this send half. */
  predicate Resettable(ss: SendStream) {
    ss.state.Ready? || ss.state.DataSent?
  }

  /** `reset`: abandon sending on `id`, queueing a RST_STREAM. A stream
      without a send half, or one already fully acknowledged or reset, is
      left alone. The source panics on a stream that cannot carry outgoing
      data. */
  function Reset(s: Streams, pending: Retransmits, side: Side, id: StreamId, errorCode: nat): (o: ResetOutcome)
    requires Dir(id) == Bi || Initiator(id) == side
    ensures o.dirty <==> SendOf(s, id).Some? && Resettable(SendOf(s, id).value)
    ensures !o.dirty ==> o.table == s && o.pending == pending
    ensures o.dirty ==>
      && SendOf(o.table, id) == Some(SendOf(s, id).value.(state := ResetSent(None)))
      && (forall j :: j != id ==> SendOf(o.table, j) == SendOf(s, j))
      && o.pending == pending.(rstStream := pending.rstStream + [(id, errorCode)])
    ensures o.table == s.(streams := o.table.streams) && o.table.streams.Keys == s.streams.Keys
    ensures forall j :: RecvOf(o.table, j) == RecvOf(s, j)
    ensures Consistent(s, side) ==> Consistent(o.table, side)
  {
    match SendOf(s, id)
    case None => ResetOutcome(s, pending, false)
    case Some(ss) =>
      if !Resettable(ss) then ResetOutcome(s, pending, false)
      else
        ResetOutcome(
          WithSend(s, id, ss.(state := ResetSent(None))),
          pending.(rstStream := pending.rstStream + [(id, errorCode)]),
          true)
  }

  /** Resetting is idempotent: a second reset of the same stream changes
      nothing and queues no second RST_STREAM. */
  lemma ResetIdempotent(s: Streams, pending: Retransmits, side: Side, id: StreamId, c1: nat, c2: nat)
    requires Dir(id) == Bi || Initiator(id) == side
    ensures var once := Reset(s, pending, side, id, c1);
      var twice := Reset(once.table, once.pending, side, id, c2);
      twice.table == once.table && twice.pending == once.pending && !twice.dirty
  {
  }

  /** The send-limit update of `set_params`: every peer-initiated
      bidirectional stream below the peer limit gets the per-stream limit
      `limit`; nothing else changes. */
  function SetRemoteBiLimit(s: Streams, side: Side, limit: nat): (o: Streams)
    ensures o.streams.Keys == s.streams.Keys
    ensures forall id :: id in s.streams ==> o.streams[id].recv == s.streams[id].recv
    ensures forall id :: id in s.streams && Initiator(id) != side && Dir(id) == Bi && Index(id) < s.maxRemoteBi ==>
      o.streams[id].send == (if s.streams[id].send.Some? then Some(s.streams[id].send.value.(maxData := limit)) else None)
    ensures forall id :: id in s.streams && !(Initiator(id) != side && Dir(id) == Bi && Index(id) < s.maxRemoteBi) ==>
      o.streams[id] == s.streams[id]
    ensures o == s.(streams := o.streams)
    ensures Consistent(s, side) ==> Consistent(o, side)
  {
    var streams := map id | id in s.streams ::
      if Initiator(id) != side && Dir(id) == Bi && Index(id) < s.maxRemoteBi && s.streams[id].send.Some? then
        s.streams[id].(send := Some(s.streams[id].send.value.(maxData := limit)))
      else s.streams[id];
    s.(streams := streams)
  }
}

=== FILE: wrappers.dfy ===
/** Failure-compatible wrappers used throughout the model: `Option` for the
    source's `Option<T>` and `Result` for its `Result<T, E>`. */
module Wrappers {

  datatype Option<+T> = None | Some(value: T)

  datatype Result<+T, +E> = Ok(value: T) | Err(error: E)
}
